=== FILE: README.md ===
# Planner Suite core, modelled in Dafny

Planner Suite is a multi-tenant planning API (Express, Prisma, Redis) with a Next.js web client. This project models the parts of it that carry its logic.

On the server:
- the tenant middlewares: the global `tenantMiddleware`, `tenantIdentifier`, `tenantRequired` and `checkModuleAccess`;
- bearer-token authentication with its effective-permission set, and the permission gate;
- the login, logout and current-user endpoints;
- the stage-event and technical-team handlers of the stage planner;
- the rate-limiter configuration, the validation-error formatter and the key-value service;
- the 404 and error handlers.

On the client:
- the axios request and response interceptors;
- the authentication hook (`useAuth`);
- the auth and tenant providers.

The store's tables are sequences in row order. Prisma's `findFirst` is therefore the first matching row. A store that throws is a `reachable: bool` parameter, and the model takes the handler's catch branch when it is false.

Token signing and verification (jsonwebtoken), password comparison (bcrypt) and JSON parsing and stringification are function parameters. Every property about them is stated for any such function, or under an explicit hypothesis such as "verification accepts what signing produced".

The server's environment variables JWT_SECRET and ACCESS_TOKEN_EXPIRY are the fields of an `Env` parameter; an unset or empty one takes the fallback the code names. The rate limiters are built when their module is imported, before the key-value client has connected, so they see a client that is not ready.

JavaScript semantics are written out explicitly:
- truthiness (`""` is falsy) and `||`;
- `split` on one character, `startsWith`, `includes`;
- ASCII `toLowerCase`;
- the decimal rendering of integers.

Every refusal is a datatype constructor. Its `Status` and `Message` are the HTTP status and the French message the source answers with.

Files:
- `common.dfy`: `Option`, truthiness, first-match search and replacement in sequences.
- `strings.dfy`: the JavaScript string operations and their laws.
- `domain.dfy`: tenants, organizations, module activations, users, the token payload, the request context, and the middleware outcome `Gate`.
- `tenant_middleware.dfy` and `server.dfy`: tenant resolution and the application wiring.
- `auth_middleware.dfy` and `auth_controller.dfy`: authentication and the authentication endpoints.
- `planner_store.dfy`, `stage_events.dfy` and `stage_teams.dfy`: the stage-planner handlers.
- `rate_limiter.dfy`, `validate_request.dfy` and `redis_service.dfy`: the remaining server middlewares and the key-value service.
- `web_api.dfy`, `web_auth.dfy` and `web_providers.dfy`: the web client.
- `pipeline.dfy`: properties that cross from the browser to the server and back. These cover the tenant header, the access token round trip and permission denial.

## Model

| member | source | states |
|---|---|---|
| Common.OrElse | apps/api/src/middlewares/tenant.middleware.ts:46 | `a \|\| b` on optional strings: the first operand when truthy, else the second; the result is truthy iff either operand is |
| Strings.FirstField | apps/api/src/middlewares/tenant.middleware.ts:37-42 | `s.split(sep)[0]` is the prefix of `s` up to the first separator, or all of `s` when there is none; it never contains the separator |
| Strings.FirstFieldOfJoined | apps/api/src/middlewares/auth.middleware.ts:46 | the first field of `a + sep + b`, for a separator-free `a`, is `a` |
| Strings.SplitCount | apps/api/src/middlewares/tenant.middleware.ts:37-41 | a split yields one piece more than there are separators, which turns `hostParts.length > 2` into "at least two dots" |
| Strings.JoinSplit | apps/api/src/middlewares/tenant.middleware.ts:37 | `split` loses nothing: joining the pieces of `hostname.split('.')` with the separator gives the hostname back |
| Strings.SplitJoin | apps/api/src/middlewares/rate-limiter.middleware.ts:87 | a string built by joining separator-free pieces, like the `tenant:ip` key, splits back into exactly those pieces |
| Strings.IncludesChar | apps/web/src/lib/api.ts:49 | `hostname.includes('.')` holds exactly when the character occurs in the hostname |
| Strings.LowerIdempotent | apps/web/src/app/providers.tsx:135 | lower-casing twice is lower-casing once |
| Strings.ParseIntToString | apps/api/src/services/redis.service.ts:236 | the decimal rendering of any integer parses back to that integer |
| Domain.ReplaceUser | apps/api/src/controllers/auth.controller.ts:65-90 | an update by id replaces every row with that id and leaves every other row as it was |
| TenantMiddleware.SubdomainCandidate | apps/api/src/middlewares/tenant.middleware.ts:37-43 | a candidate exists iff the host has at least three labels and its first label is neither "www" nor "api"; the candidate is that first label |
| TenantMiddleware.IdentifierCandidate | apps/api/src/middlewares/tenant.middleware.ts:37-46 | `tenantIdentifier` looks up a truthy x-tenant-id header, else the subdomain candidate |
| TenantMiddleware.LookupTenant | apps/api/src/middlewares/tenant.middleware.ts:49-58 | `findFirst` with the OR filter: the first tenant, in row order, whose id or subdomain equals the candidate; nothing exactly when no tenant matches either way |
| TenantMiddleware.RequiredCandidate | apps/api/src/middlewares/tenant.middleware.ts:89-97 | precedence of the tenant sources for `tenantRequired`: an attached tenant id, then the header, then the subdomain rule |
| TenantMiddleware.TenantIdentifier | apps/api/src/middlewares/tenant.middleware.ts:31-75 | never rejects and changes nothing but the tenant id; a candidate that finds a tenant overwrites any attached tenant id with that tenant's canonical id; a throwing store, no candidate or no match leaves the request untouched |
| TenantMiddleware.RequireTenant | apps/api/src/middlewares/tenant.middleware.ts:98-157 | the failure ladder: 400 without a candidate, 500 when the store throws, 404 when no tenant matches; for the first matching tenant, 403 naming its status when it is not ACTIVE, 403 when its subscription has ended, and otherwise a pass that attaches its id |
| TenantMiddleware.TenantRequiredGate | apps/api/src/middlewares/tenant.middleware.ts:82-158 | an attached tenant id that finds a servable tenant passes with that tenant's canonical id; no id, header or subdomain answers 400; a pass changes only the tenant id |
| TenantMiddleware.CheckModuleAccess | apps/api/src/middlewares/tenant.middleware.ts:164-204 | passes, with the request unchanged, exactly when an active activation row exists for this tenant and module; otherwise 400 without a tenant, 500 when the store throws, 403 naming the module |
| TenantMiddleware.NoCrossModuleLeakage | apps/api/src/middlewares/tenant.middleware.ts:177-183 | rows for other modules, other tenants or inactive rows never change the module decision |
| TenantMiddleware.LookupOwnId | apps/api/src/middlewares/tenant.middleware.ts:49-58 | in a store with unique ids and no subdomain shadowing another tenant's id, looking up a tenant's own id finds that tenant |
| TenantMiddleware.TenantRequiredIdempotent | apps/api/src/middlewares/tenant.middleware.ts:82-158 | a request `tenantRequired` let through passes it again, unchanged |
| Server.ServerCandidate | apps/api/src/index.ts:59-60 | the global middleware's candidate: a truthy header, else the first label unless that label is "api" |
| Server.TenantMiddleware | apps/api/src/index.ts:57-71 | attaches the candidate verbatim with no lookup and no three-label rule, changes nothing else, and leaves the request alone when the candidate is falsy |
| Server.NotFound | apps/api/src/index.ts:123-128 | unmatched routes answer 404 with a message naming the method and the URL |
| Server.ErrorHandler | apps/api/src/index.ts:131-146 | always 500; in production the generic message and no stack, otherwise the error's own message and stack |
| Server.ProductionRevealsNothing | apps/api/src/index.ts:140-146 | in production two different errors produce identical answers |
| AuthMiddleware.SplitBearer | apps/api/src/middlewares/auth.middleware.ts:46 | splitting "Bearer " + rest on spaces yields "Bearer" followed by the pieces of `rest` |
| AuthMiddleware.BearerToken | apps/api/src/middlewares/auth.middleware.ts:37-46 | a token exists iff the header starts with "Bearer "; the token is the text after the scheme up to the next space |
| AuthMiddleware.BearerRoundTrip | apps/api/src/middlewares/auth.middleware.ts:37-46 | a header built as "Bearer " + token, for a token without spaces, yields that token |
| AuthMiddleware.ExpiredReportedAsInvalid | apps/api/src/middlewares/auth.middleware.ts:126-137 | as written, the catch block never answers "Token expiré."; an expired token is reported as "Token invalide." |
| AuthMiddleware.Classify | apps/api/src/middlewares/auth.middleware.ts:125-145 | with the subclass tested first: expired iff the error is TokenExpiredError, invalid iff it is another token error, 500 iff it is no token error at all |
| AuthMiddleware.ClassifyAsWritten | apps/api/src/middlewares/auth.middleware.ts:126-145 | as written: "Token invalide." with the error's message iff the error is a token error of any kind, 500 iff it is none |
| AuthMiddleware.VerifyingSecretAsWritten | apps/api/src/middlewares/auth.middleware.ts:47 | JWT_SECRET when set; otherwise a fallback that differs from the one tokens are signed with |
| AuthMiddleware.VerifyingSecret | apps/api/src/middlewares/auth.middleware.ts:47 | corrected: JWT_SECRET when set, else the signer's fallback; it equals the written key exactly when JWT_SECRET is set |
| AuthMiddleware.AddNames | apps/api/src/middlewares/auth.middleware.ts:92-100 | `Set.add` per name: the result keeps the earlier names in order, has no duplicates and holds exactly the old and the new names |
| AuthMiddleware.CollectPermissions | apps/api/src/middlewares/auth.middleware.ts:92-100 | after all roles, the set holds exactly the accumulated names plus every permission some role grants, without duplicates |
| AuthMiddleware.EffectivePermissions | apps/api/src/middlewares/auth.middleware.ts:92-100 | the attached permission list is duplicate-free and holds exactly the permissions granted by some role; it is empty without roles |
| AuthMiddleware.PermissionsOrderIndependent | apps/api/src/middlewares/auth.middleware.ts:92-100 | the effective set depends only on which roles are held, not on their order or repetition |
| AuthMiddleware.PermissionsOfUnion | apps/api/src/middlewares/auth.middleware.ts:92-100 | holding two groups of roles grants exactly the union of what each grants |
| AuthMiddleware.Attach | apps/api/src/middlewares/auth.middleware.ts:103-116 | attaches the loaded user, the effective permissions and the user's organization and changes no other field; keeps a truthy attached tenant id, else takes a non-empty tenant claim, else keeps what was attached |
| AuthMiddleware.FindUser | apps/api/src/middlewares/auth.middleware.ts:51-66 | `findUnique` by id: a user with that id, or nothing exactly when no row has it |
| AuthMiddleware.AdmitWith | apps/api/src/middlewares/auth.middleware.ts:49-145 | the gates after verification, in order: the classified token error, 500 when the store throws, 401 unknown user, and for the found user 401 on a version mismatch, 403 naming a non-ACTIVE status, and otherwise a pass that attaches that user |
| AuthMiddleware.AdmitAsWritten | apps/api/src/middlewares/auth.middleware.ts:49-145 | the gates as written: a rejected token is classified in the written order, so no refusal is ever "Token expiré." |
| AuthMiddleware.AdmitDiffersOnlyOnExpiry | apps/api/src/middlewares/auth.middleware.ts:126-137 | the written and the corrected gates differ exactly on an expired token, which the first reports as invalid and the second as expired |
| AuthMiddleware.Admit | apps/api/src/middlewares/auth.middleware.ts:49-145 | the gates with the corrected catch order: an expired token answers "Token expiré."; for a verified token the same gates as `AdmitWith` |
| AuthMiddleware.AuthenticateWith | apps/api/src/middlewares/auth.middleware.ts:31-147 | for a given catch order and key: 401 "Token manquant" without a Bearer header, else the gates on the verifier's verdict for the extracted token |
| AuthMiddleware.AuthenticateAsWritten | apps/api/src/middlewares/auth.middleware.ts:31-147 | as written: the written catch order, and the token verified with the written fallback key |
| AuthMiddleware.AuthenticateDiffersOnlyOnExpiry | apps/api/src/middlewares/auth.middleware.ts:126-137 | with JWT_SECRET set, the written and the corrected middleware differ exactly on a token the verifier reports as expired |
| AuthMiddleware.Authenticate | apps/api/src/middlewares/auth.middleware.ts:31-147 | a missing or non-Bearer header is refused with 401 before the verifier is asked; otherwise the extracted token is verified with the signer's key (JWT_SECRET, or the controller's fallback) and the corrected gates decide |
| AuthMiddleware.AuthenticatedCarriesPermissions | apps/api/src/middlewares/auth.middleware.ts:92-112 | a request that passed carries a stored user and exactly that user's effective permissions |
| AuthMiddleware.OrganizationClaimIgnored | apps/api/src/middlewares/auth.middleware.ts:119-122 | changing the token's organization claim never changes the outcome, because a mismatch only warns |
| AuthMiddleware.FindReplacedUser | apps/api/src/middlewares/auth.middleware.ts:51-66 | after a user row is replaced, looking that id up finds the replacement |
| AuthMiddleware.StaleVersionRefused | apps/api/src/middlewares/auth.middleware.ts:76-82 | a verified token whose version differs from the stored user's is refused as revoked |
| AuthMiddleware.RevokedAfterVersionBump | apps/api/src/middlewares/auth.middleware.ts:76-82 | bumping a user's token version revokes every token issued before it |
| AuthMiddleware.CheckPermission | apps/api/src/middlewares/auth.middleware.ts:149-167 | 401 without a user; passes, unchanged, iff the required name is in the attached permissions; otherwise 403 naming it |
| AuthController.Claims | apps/api/src/controllers/auth.controller.ts:13-23 | the signed claims are the user's id, email, organization and token version, plus the request's tenant |
| AuthController.SigningSecret | apps/api/src/controllers/auth.controller.ts:7 | the signing key is JWT_SECRET when set, else "default_jwt_secret" |
| AuthController.AccessTokenExpiry | apps/api/src/controllers/auth.controller.ts:8 | the token lifetime is ACCESS_TOKEN_EXPIRY when set, else "1h" |
| AuthController.GenerateToken | apps/api/src/controllers/auth.controller.ts:13-23 | the signer's answer over the user's claims, with JWT_SECRET or its fallback and with ACCESS_TOKEN_EXPIRY or "1h"; nothing when the signer throws (a lifetime that is not a timespan) |
| AuthController.FindLoginUser | apps/api/src/controllers/auth.controller.ts:44-53 | the first user, in row order, who is ACTIVE, has that email and belongs to an organization of the tenant; nothing exactly when there is none |
| AuthController.RecordFailure | apps/api/src/controllers/auth.controller.ts:65-72 | a wrong password raises exactly that user's failed-attempt counter by one; other rows are unchanged |
| AuthController.RecordSuccess | apps/api/src/controllers/auth.controller.ts:84-90 | a good password resets the counter and records the login date for that user only |
| AuthController.Login | apps/api/src/controllers/auth.controller.ts:7-126 | 400 without a tenant, 500 when the store throws, the same 401 for an unknown email and a wrong password (the latter counted against the first candidate); a matching password of the first candidate resets its counter and stamps the login, then logs in with a token signed over that user's claims with JWT_SECRET or its fallback, for ACCESS_TOKEN_EXPIRY or "1h", or answers 500 when signing throws, with the stamp already written |
| AuthController.LoginIgnoresAttempts | apps/api/src/controllers/auth.controller.ts:55-99 | no lockout: the answer of a login does not depend on the failed-attempt counters |
| AuthController.Logout | apps/api/src/controllers/auth.controller.ts:132-145 | answers 200 "Déconnexion réussie" and leaves the user table and the key-value store as they were |
| Pipeline.LogoutRevokesNothing | apps/api/src/controllers/auth.controller.ts:132-145 | every request `authenticate` answered before a logout is answered alike after it, and no token becomes blacklisted |
| AuthController.GetCurrentUser | apps/api/src/controllers/auth.controller.ts:151-185 | 401 iff no user is attached; otherwise the user's identity, with profile fields present iff a profile exists |
| Pipeline.CurrentUserIsTokenSubject | apps/api/src/controllers/auth.controller.ts:151-185 | behind `authenticate`, the current user is exactly the stored user the token names, with its id, email, verification flag and profile fields |
| AuthController.Unimplemented | apps/api/src/controllers/auth.controller.ts:188-234 | the declared but unimplemented endpoints answer 501 "Non implémenté" |
| PlannerStore.ScopeOf | apps/api/src/controllers/stageplanner.controller.ts:23-32 | a handler works only with a truthy tenant id and organization id, and then in exactly that scope |
| PlannerStore.ActorOf | apps/api/src/controllers/stageplanner.controller.ts:265-274 | the acting user is `req.user?.id` when truthy |
| PlannerStore.OrganizationInOneTenant | apps/api/src/controllers/stageplanner.controller.ts:34-38 | with unique organization ids the relation filter ties an organization to one tenant only |
| StageEvents.FindScopedEvent | apps/api/src/controllers/stageplanner.controller.ts:369-376 | finds an event with that id in the scope's organization, which itself belongs to the tenant, and finds nothing exactly when none is |
| StageEvents.WriteEvent | apps/api/src/controllers/stageplanner.controller.ts:413 | an update by id replaces the rows with that id, others unchanged |
| StageEvents.Matching | apps/api/src/controllers/stageplanner.controller.ts:34-60 | the events kept are exactly those the where-clause accepts |
| StageEvents.PageTotal | apps/api/src/controllers/stageplanner.controller.ts:106-117 | `Math.ceil(total / limit)`: for a positive limit the least page count covering the total; NaN or Infinity for a zero limit |
| StageEvents.PagesCoverResults | apps/api/src/controllers/stageplanner.controller.ts:62-117 | with a positive limit, the last page `totalPages` starts inside the results and the page after it starts past their end |
| StageEvents.Skip | apps/api/src/controllers/stageplanner.controller.ts:62 | the offset of a page is never negative for page 1 on, and the next page starts one limit further |
| StageEvents.Window | apps/api/src/controllers/stageplanner.controller.ts:70-82 | `skip` and `take`: the rows from the offset on, at most `take` of them, in order, and none past the end |
| StageEvents.WalkIsPrefix | apps/api/src/controllers/stageplanner.controller.ts:62-117 | the windows of pages 1 to k, in turn, are exactly the first k * limit results |
| StageEvents.PagesListEveryMatchOnce | apps/api/src/controllers/stageplanner.controller.ts:62-117 | with a positive limit, pages 1 to `totalPages` together list every matching event exactly once, in order |
| StageEvents.GetEvents | apps/api/src/controllers/stageplanner.controller.ts:10-125 | 400 without a scope; otherwise the pagination metadata over all matching events and, for page and limit at least 1, exactly the window of that page; the store is untouched |
| StageEvents.GetEventById | apps/api/src/controllers/stageplanner.controller.ts:131-250 | the event in the scope with that id, or 404; nothing is written |
| StageEvents.OtherTenantsEventsInvisible | apps/api/src/controllers/stageplanner.controller.ts:145-185 | tenant isolation: an event of an organization of another tenant is never returned |
| StageEvents.CreateEvent | apps/api/src/controllers/stageplanner.controller.ts:253-345 | 400 without scope or user, 400 for a location outside the organization; otherwise, always, a new DRAFT stage event of the organization created by the caller, with the input's title, description, dates and location, is appended |
| StageEvents.CreatedEventIsFound | apps/api/src/controllers/stageplanner.controller.ts:253-345 | a created event is found by its id in the same scope, exactly as written |
| StageEvents.ApplyPatch | apps/api/src/controllers/stageplanner.controller.ts:398-410 | exactly the fields present in the body change; the location is kept, disconnected or connected; the update is stamped with the caller and the time |
| StageEvents.ApplyPatchIdempotent | apps/api/src/controllers/stageplanner.controller.ts:398-410 | applying the same update twice equals applying it once |
| StageEvents.EmptyPatchOnlyStamps | apps/api/src/controllers/stageplanner.controller.ts:398-401 | an empty body changes only the update stamp |
| StageEvents.UpdateEvent | apps/api/src/controllers/stageplanner.controller.ts:347-470 | 400 without scope or user, 404 outside the scope, 400 for a terminal event or a foreign location; otherwise, always, the found event is patched in place |
| StageEvents.PublishEvent | apps/api/src/controllers/stageplanner.controller.ts:518-570 | only a DRAFT event in the scope is published; an event in the scope with any other status is refused with 400 |
| StageEvents.CancelNotes | apps/api/src/controllers/stageplanner.controller.ts:607 | without a reason the notes are unchanged; with one they end in the labelled reason, after the old notes and a blank line when those exist |
| StageEvents.CancelNotesKeepHistory | apps/api/src/controllers/stageplanner.controller.ts:607 | the earlier notes can be read back in front of the appended reason |
| StageEvents.CancelAssignments | apps/api/src/controllers/stageplanner.controller.ts:613-618 | exactly the event's assignments become CANCELLED; all others are unchanged |
| StageEvents.CancelEvent | apps/api/src/controllers/stageplanner.controller.ts:575-640 | a non-terminal event in the scope becomes CANCELLED, with the reason recorded and its assignments cancelled; a terminal one is refused |
| StageEvents.CancelCascades | apps/api/src/controllers/stageplanner.controller.ts:613-618 | after a cancellation no assignment of the event is left un-cancelled |
| StageEvents.DeleteEvent | apps/api/src/controllers/stageplanner.controller.ts:474-515 | deletes iff the event is in the scope, answering 404 otherwise; the remaining events are exactly the others |
| StageEvents.WithoutEvent | apps/api/src/controllers/stageplanner.controller.ts:497 | removes exactly the rows with that id |
| StageEvents.TerminalIsAbsorbing | apps/api/src/controllers/stageplanner.controller.ts:379-599 | COMPLETED and CANCELLED are absorbing: update, publish and cancel all refuse them |
| StageEvents.LifecycleStepsOnly | apps/api/src/controllers/stageplanner.controller.ts:539-611 | publish and cancel make only the DRAFT-to-PUBLISHED or non-terminal-to-CANCELLED step, on the named event |
| StageEvents.WriteEventFrame | apps/api/src/controllers/stageplanner.controller.ts:413 | writing one event leaves every event with another id as it was |
| StageTeams.FindScopedTeam | apps/api/src/controllers/stageplanner.controller.ts:723-734 | finds a team with that id in the scope's organization of the tenant, and finds nothing exactly when none is |
| StageTeams.FindMember | apps/api/src/controllers/stageplanner.controller.ts:1048-1053 | a membership record is found iff the (team, user) pair is recorded |
| StageTeams.TeamsOf | apps/api/src/controllers/stageplanner.controller.ts:657-671 | the scope's teams, restricted to one type when a truthy type is given |
| StageTeams.GetTechnicalTeams | apps/api/src/controllers/stageplanner.controller.ts:646-705 | 400 without a scope; otherwise exactly the scope's teams of the requested type, store untouched |
| StageTeams.GetTechnicalTeamById | apps/api/src/controllers/stageplanner.controller.ts:712-775 | the team in the scope, or 404 |
| StageTeams.AdmittedMembers | apps/api/src/controllers/stageplanner.controller.ts:821-830 | each requested member of the organization gets a record for the new team; no other record is written |
| StageTeams.CreateTechnicalTeam | apps/api/src/controllers/stageplanner.controller.ts:779-875 | 400 without scope or user or for a foreign manager; otherwise, always, the team is created by the caller with its admitted initial members |
| StageTeams.AdmittedCountsRequests | apps/api/src/controllers/stageplanner.controller.ts:819-830 | the creation loop does not deduplicate: each entry for a user of the organization is recorded as often as it is listed, any other entry never |
| StageTeams.CreatedTeamIsFound | apps/api/src/controllers/stageplanner.controller.ts:779-875 | a created team is found by its new id in the scope, as created |
| StageTeams.ApplyTeamPatch | apps/api/src/controllers/stageplanner.controller.ts:916-925 | exactly the fields present change; the manager is kept, removed or set; the update is stamped |
| StageTeams.WriteTeam | apps/api/src/controllers/stageplanner.controller.ts:928-930 | an update by id replaces the rows with that id, others unchanged |
| StageTeams.UpdateTechnicalTeam | apps/api/src/controllers/stageplanner.controller.ts:881-970 | 400 without scope or user, 404 outside the scope, 400 iff a new manager is outside the organization; otherwise, always, the found team patched and written back |
| StageTeams.ApplyTeamPatchIdempotent | apps/api/src/controllers/stageplanner.controller.ts:916-925 | applying the same team update twice equals applying it once |
| StageTeams.UpdatedTeamIsFound | apps/api/src/controllers/stageplanner.controller.ts:881-970 | an updated team is found again as updated, and repeating the update answers the same team |
| StageTeams.WithoutTeam | apps/api/src/controllers/stageplanner.controller.ts:996 | removes exactly the rows with that id |
| StageTeams.DeleteTechnicalTeam | apps/api/src/controllers/stageplanner.controller.ts:975-1010 | deletes iff the team is in the scope, answering 404 otherwise |
| StageTeams.AddTeamMember | apps/api/src/controllers/stageplanner.controller.ts:1017-1090 | 404 for a team outside the scope or a user outside the organization, 400 for an existing membership; otherwise, always, exactly one record for the pair is appended |
| StageTeams.PairsAppend | apps/api/src/controllers/stageplanner.controller.ts:1057-1065 | appending a record adds exactly its pair |
| StageTeams.RemoveTeamMember | apps/api/src/controllers/stageplanner.controller.ts:1097-1142 | 404 for a team outside the scope or a pair not recorded; otherwise that record is removed |
| StageTeams.RemoveDropsExactlyThePair | apps/api/src/controllers/stageplanner.controller.ts:1117-1128 | with unique pairs, a removal drops exactly the named pair |
| StageTeams.AddKeepsPairsUnique | apps/api/src/controllers/stageplanner.controller.ts:1048-1066 | adding a member keeps the pairs unique |
| StageTeams.SecondAddRefused | apps/api/src/controllers/stageplanner.controller.ts:1048-1053 | adding the same member again is refused as a duplicate |
| StageTeams.AddThenRemoveRestores | apps/api/src/controllers/stageplanner.controller.ts:1017-1142 | removing right after adding gives back the membership table as it was |
| RateLimiter.RateLimiter | apps/api/src/middlewares/rate-limiter.middleware.ts:9-97 | caller options (window, maximum, a string or object message, the two header flags, Redis use and prefix, key generator) override the defaults field by field; Redis is the store iff it is wanted and ready, under the configured prefix; the factory warns iff Redis is wanted but not ready; the default key generator applies only when none is given |
| RateLimiter.DefaultKey | apps/api/src/middlewares/rate-limiter.middleware.ts:84-94 | the key is the IP, prefixed by "tenant:" when a tenant id is attached |
| RateLimiter.KeyFor | apps/api/src/middlewares/rate-limiter.middleware.ts:83-98 | a caller's generator decides the key when given; otherwise the IP, or tenant, colon and IP once a tenant is attached |
| RateLimiter.TenantKeyDecodes | apps/api/src/middlewares/rate-limiter.middleware.ts:87 | for a colon-free tenant id the key splits back into the tenant and the IP |
| RateLimiter.TenantKeysDistinct | apps/api/src/middlewares/rate-limiter.middleware.ts:84-94 | requests from different colon-free tenants or different IPs never share a counter |
| RateLimiter.DefaultApiLimiter | apps/api/src/middlewares/rate-limiter.middleware.ts:49-103 | 100 requests per 15 minutes, answered with `{status: 'error', message}`; built at import, before Redis is connected, so it always counts in memory and warns iff in production |
| RateLimiter.StrictOperationLimiter | apps/api/src/middlewares/rate-limiter.middleware.ts:49-116 | 10 requests per 15 minutes with the stricter message; built at import, so it always counts in memory and warns iff in production |
| RateLimiter.TenantCreationLimiter | apps/api/src/middlewares/rate-limiter.middleware.ts:49-128 | 5 requests per hour with the account-creation message; built at import, so it always counts in memory and warns iff in production |
| RateLimiter.LoginRouteLimiter | apps/api/src/routes/auth.routes.ts:23-27 | 10 logins per 15 minutes, refused with a plain-string message, counted in memory |
| RateLimiter.ForgotPasswordRouteLimiter | apps/api/src/routes/auth.routes.ts:117-121 | 3 reset requests per hour, refused with a plain-string message, counted in memory |
| RateLimiter.RegisterTenantRouteLimiter | apps/api/src/routes/auth.routes.ts:188-192 | 5 registrations per hour, refused with a plain-string message, counted in memory |
| ValidateRequest.Paths | apps/api/src/middlewares/validate-request.middleware.ts:27 | the paths of the unknown fields, in order |
| ValidateRequest.Values | apps/api/src/middlewares/validate-request.middleware.ts:30 | the values of the unknown fields, in order |
| ValidateRequest.FieldOrGeneral | apps/api/src/middlewares/validate-request.middleware.ts:52 | `field \|\| 'general_validation_error'` is never empty and keeps a non-empty field |
| ValidateRequest.Format | apps/api/src/middlewares/validate-request.middleware.ts:15-56 | per error kind, the field, message and value answered; the field is never empty |
| ValidateRequest.JoinIncludes | apps/api/src/middlewares/validate-request.middleware.ts:27 | every piece of a join occurs in the joined text |
| ValidateRequest.UnknownFieldsNamed | apps/api/src/middlewares/validate-request.middleware.ts:24-30 | the unknown-fields message names every unknown field |
| ValidateRequest.ValidateRequest | apps/api/src/middlewares/validate-request.middleware.ts:9-62 | continues iff there is no error; otherwise 400 with one formatted entry per error, in order |
| ValidateRequest.FormatAll | apps/api/src/middlewares/validate-request.middleware.ts:15 | one formatted entry per error, in order |
| ValidateRequest.FormatAllAppend | apps/api/src/middlewares/validate-request.middleware.ts:15 | formatting distributes over concatenation of error lists |
| RedisService.GetKey | apps/api/src/services/redis.service.ts:145-147 | the key under its prefix, or under "planner-suite:" when the prefix is missing or empty |
| RedisService.NamedPrefixesExtendDefault | apps/api/src/services/redis.service.ts:35-45 | every named prefix is the default prefix followed by its own label |
| RedisService.GetKeyInjective | apps/api/src/services/redis.service.ts:145-147 | under one prefix, different keys never collide |
| RedisService.CacheAndBlacklistDisjoint | apps/api/src/services/redis.service.ts:40-43 | no cache key is ever a blacklist key |
| RedisService.Get | apps/api/src/services/redis.service.ts:149-160 | null when not ready; otherwise the stored value iff the full key exists |
| RedisService.GetObject | apps/api/src/services/redis.service.ts:162-171 | null for a missing value; otherwise what the parser makes of it |
| RedisService.Set | apps/api/src/services/redis.service.ts:173-192 | succeeds iff ready with a positive TTL (one hour when absent); then the full key holds the rendered value with that TTL, and nothing else changes |
| RedisService.Stringify | apps/api/src/services/redis.service.ts:177 | text is stored as is, a number as decimal text that reads back as that number, an object as its JSON text |
| RedisService.Delete | apps/api/src/services/redis.service.ts:194-205 | answers 1 iff the key existed; removes exactly that key |
| RedisService.Exists | apps/api/src/services/redis.service.ts:207-217 | true iff a read would find the key |
| RedisService.Expire | apps/api/src/services/redis.service.ts:219-230 | true iff the key exists; a non-positive TTL deletes it, a positive one replaces its TTL |
| RedisService.ExpireThenGet | apps/api/src/services/redis.service.ts:219-230 | a missing key answers false and changes nothing; a positive TTL leaves every read as it was; a TTL that is not positive makes exactly that key unreadable |
| RedisService.Counter | apps/api/src/services/redis.service.ts:232-256 | a missing key counts as 0; the answer is a number iff the delta and the stored text are 64-bit integers with n + delta within 64 bits, and it is then n + delta, written back; otherwise null and nothing written |
| RedisService.Increment | apps/api/src/services/redis.service.ts:232-243 | null when not ready; a number iff the amount and the stored value n are countable, and then n + amount, which the key now holds |
| RedisService.Decrement | apps/api/src/services/redis.service.ts:245-256 | null when not ready or when the amount is not a 64-bit integer or is the smallest one; otherwise a number iff n - amount is countable, and then n - amount, which the key now holds |
| RedisService.NotReadyIsInert | apps/api/src/services/redis.service.ts:149-256 | with the client not ready every command answers its null value and writes nothing |
| RedisService.DecrementUndoesIncrement | apps/api/src/services/redis.service.ts:232-256 | decrementing by what was just added restores the counter's earlier value, except for the smallest 64-bit amount, which the decrement refuses |
| RedisService.IsTokenBlacklisted | apps/api/src/services/redis.service.ts:264-267 | a token is revoked iff its blacklist entry is exactly "1" |
| RedisService.BlacklistToken | apps/api/src/services/redis.service.ts:260-262 | succeeds iff ready with a positive expiry; then exactly the blacklist key of the token holds "1" with that expiry |
| RedisService.BlacklistRoundTrip | apps/api/src/services/redis.service.ts:260-267 | a ready store remembers a blacklisted token, and other tokens keep their status |
| RedisService.BlacklistFailsOpen | apps/api/src/services/redis.service.ts:260-267 | with the store not ready, blacklisting fails and no token reads as revoked |
| RedisService.GetCache | apps/api/src/services/redis.service.ts:273-275 | nothing when not ready or when the key was never cached; otherwise what the parser makes of the cached text |
| RedisService.SetCache | apps/api/src/services/redis.service.ts:269-271 | succeeds iff ready with a positive TTL; then exactly the cache key holds the rendered value with that TTL |
| RedisService.InvalidateCache | apps/api/src/services/redis.service.ts:277-279 | answers 1 iff the store is ready and holds the cache key, which is then removed; otherwise 0 and nothing changes |
| RedisService.CacheRoundTrip | apps/api/src/services/redis.service.ts:269-275 | an object cached in a ready store reads back as itself whenever parsing inverts stringification |
| RedisService.InvalidateForgets | apps/api/src/services/redis.service.ts:277-279 | after an invalidation nothing is cached under the key, and no token's revocation changed |
| RedisService.CacheLeavesBlacklist | apps/api/src/services/redis.service.ts:269-271 | caching never changes whether a token is revoked |
| WebApi.Field | apps/web/src/lib/api.ts:105-106 | `data?.name` is present iff the body is an object with that member |
| WebApi.GetItem | apps/web/src/lib/api.ts:35 | `localStorage.getItem`: the stored string, or null when absent |
| WebApi.ClientSubdomain | apps/web/src/lib/api.ts:49-50 | a tenant exists iff the hostname has a dot and its first label is not www, app, api or admin; it is that label |
| WebApi.RequestHeaders | apps/web/src/lib/api.ts:32-63 | other headers are kept; a truthy stored token sets "Bearer <token>"; a tenant hostname sets X-Tenant-ID; outside a browser nothing is added |
| WebApi.ResponseError | apps/web/src/lib/api.ts:66-111 | status 0 and the network message without a response; otherwise the status, the server's message or the fallback, and its errors; a 401 clears the token and the user and navigates to the login page unless already on it |
| WebApi.ErrorMessageNeverEmpty | apps/web/src/lib/api.ts:74-107 | every rejection carries a truthy message |
| WebApi.UnauthorizedLogsOut | apps/web/src/lib/api.ts:82-94 | after a 401 neither the token nor the user is stored; there is no redirect exactly on the login page |
| WebAuth.OnlyUnauthorizedTouchesSession | apps/web/src/lib/api.ts:82-94 | for a hook call, only a 401 clears the token and the stored user and redirects; any other failure leaves storage and route alone |
| WebApi.UnwrapEnvelope | apps/web/src/lib/api.ts:121-171 | the helpers return exactly the `data` payload of a success envelope |
| WebApi.Unwrap | apps/web/src/lib/api.ts:121-123 | `response.data.data` exists iff the body is an object with a `data` member, and is that member |
| WebAuth.Settle | apps/web/src/lib/api.ts:121-123 | a null body makes `response.data.data` throw a TypeError that bypasses the interceptor; any other body answers its `data` member |
| WebAuth.NullBodyFailsLogin | apps/web/src/hooks/useAuth.ts:112-120 | a login answered with a null body shows the TypeError's message and leaves storage, route and user as they were |
| WebApi.JsString | apps/web/src/hooks/useAuth.ts:100 | `String(value)`: text unchanged, a number as decimal text that reads back as it, an object as "[object Object]" |
| WebAuth.Holds | apps/web/src/hooks/useAuth.ts:209-228 | false without grants; for a list, true iff some listed name is granted; for one name, true iff it is granted |
| WebAuth.HasRole | apps/web/src/hooks/useAuth.ts:209-219 | false without a user or roles; for one role, true iff it is held; for a list, true iff some listed role is held |
| WebAuth.HasPermission | apps/web/src/hooks/useAuth.ts:220-228 | false without a user or permissions; for one permission, true iff it is held; for a list, true iff some listed one is held |
| WebAuth.OneIsSingletonList | apps/web/src/hooks/useAuth.ts:212-216 | asking for one name equals asking for the one-element list |
| WebAuth.EmptyQueryNeverHolds | apps/web/src/hooks/useAuth.ts:212-213 | an empty list of names is never satisfied |
| WebAuth.AnyOfSplits | apps/web/src/hooks/useAuth.ts:212-213 | asking for a + b is asking for a or asking for b |
| WebAuth.HoldsMonotone | apps/web/src/hooks/useAuth.ts:209-228 | more grants never lose a role or permission check |
| WebAuth.LoginReading | apps/web/src/hooks/useAuth.ts:90-121 | succeeds iff the answer carries a truthy token member: the token is stored, the user adopted and home pushed; otherwise the error is set, with the rejection's message or the fallback, and a rejected call keeps what the interceptor did to the storage and the route |
| WebAuth.LoginAsWritten | apps/web/src/hooks/useAuth.ts:90-121 | as written: succeeds iff the answer carries a truthy `token` member, which is then stored |
| WebAuth.Login | apps/web/src/hooks/useAuth.ts:90-121 | reading `accessToken`: succeeds iff the answer carries a truthy `accessToken`, which is stored, with the answer's user adopted and home pushed |
| WebAuth.FailedLoginKeepsSession | apps/web/src/hooks/useAuth.ts:112-120 | a rejected login keeps the user and the signed-in status; the storage and route change only on a 401, which removes the token and the stored user |
| WebAuth.Logout | apps/web/src/hooks/useAuth.ts:124-141 | whatever the server answered, the token and the user are gone and the login page is pushed; the other stored items are those the call left, all of them when it was answered |
| WebAuth.LogoutRejected | apps/web/src/hooks/useAuth.ts:124-141 | a logout refused with 401 also forgets the stored user; any other outcome removes the token alone |
| WebAuth.LogoutAfterLogin | apps/web/src/hooks/useAuth.ts:90-141 | logging out after any login ends signed out; when both calls were answered, only the token is removed from the original storage |
| WebAuth.CheckAuthWith | apps/web/src/hooks/useAuth.ts:60-87 | for a given adoption: no stored token, nothing asked and nothing changed; an answered fetch adopts what it selects; a failing fetch drops the token and the user after the interceptor's effects |
| WebAuth.CheckAuthAsWritten | apps/web/src/hooks/useAuth.ts:60-87 | as written: the fetched data itself is adopted as the user; without a token or on a failing fetch it agrees with the corrected check |
| WebAuth.CheckAuth | apps/web/src/hooks/useAuth.ts:60-87 | no stored token: nothing asked; an answered fetch adopts its `user` member, as `login` does; a failing fetch drops the token and the user after whatever the interceptor did to the storage and the route |
| WebAuth.StaleTokenAtStartUp | apps/web/src/hooks/useAuth.ts:60-87 | a stale token at start-up ends with neither the token nor the stored user, and away from the login page the browser goes there |
| WebAuth.CheckAuthNeedsToken | apps/web/src/hooks/useAuth.ts:60-87 | after the start-up check a signed-in session always has a stored token |
| WebProviders.DetectTenant | apps/web/src/app/providers.tsx:108-128 | a tenant hostname sets the tenant to its first label and the modules to stageplanner and barplanner; any other host changes nothing |
| WebProviders.DetectedTenantIsSent | apps/web/src/app/providers.tsx:108-128 | the tenant the provider detects is the X-Tenant-ID the request interceptor sends |
| WebProviders.IsModuleAvailable | apps/web/src/app/providers.tsx:134-136 | available iff the lower-cased name is listed |
| WebProviders.ModuleNameCaseIgnored | apps/web/src/app/providers.tsx:134-136 | a name and its lower-cased form are equally available |
| WebProviders.InitialModules | apps/web/src/app/providers.tsx:103-104 | before detection only stageplanner is available, in any letter case |
| WebProviders.TenantHostModules | apps/web/src/app/providers.tsx:119-125 | on a tenant host exactly stageplanner and barplanner are available |
| WebProviders.LoadUserData | apps/web/src/app/providers.tsx:53-78 | the user is the parse of a truthy stored "user" item, and absent otherwise |
| WebProviders.UserRoles | apps/web/src/app/providers.tsx:92 | the user's roles, or the empty list |
| WebProviders.HasPermission | apps/web/src/app/providers.tsx:81-84 | true iff a user is loaded and lists the permission; it implies authentication |
| WebProviders.ProviderAgreesWithHook | apps/web/src/app/providers.tsx:81-84 | the provider's check and the hook's single-name check agree on the same user |
| WebProviders.UnauthorizedForgetsStoredUser | apps/web/src/lib/api.ts:82-94 | after a 401, reloading the provider finds no user |
| Pipeline.ClientTenantReachesServer | apps/api/src/index.ts:57-71 | the tenant the browser puts in X-Tenant-ID is the one the server attaches and the one `tenantRequired` looks up, whatever host serves the API |
| Pipeline.TwoLabelHostsDisagree | apps/web/src/lib/api.ts:49-50 | on a two-label host the browser names a tenant while the server's own subdomain rule finds none |
| Pipeline.GlobalMiddlewarePreemptsSubdomainRule | apps/api/src/index.ts:57-71 | behind the global middleware `tenantRequired` looks up any first label other than "api", bypassing its own rule |
| Pipeline.WwwHostLookedUp | apps/api/src/middlewares/tenant.middleware.ts:89-97 | "www.acme.x" is tenant-less under the middleware's own rule but is looked up as "www" behind the global one |
| Pipeline.ClientLoginAsWrittenFails | apps/web/src/hooks/useAuth.ts:99-114 | against the server's actual login answer, the client as written always ends with the missing-token error and stores nothing |
| Pipeline.ClientLoginStoresServerToken | apps/web/src/hooks/useAuth.ts:99-111 | reading `accessToken`, the browser stores exactly the token the server signed |
| Pipeline.StoredTokenExtracted | apps/web/src/lib/api.ts:35-43 | the header the browser sends yields the stored token unchanged to `authenticate` |
| Pipeline.StartUpAsWrittenAdoptsWrapper | apps/web/src/hooks/useAuth.ts:72-75 | against the server's `/auth/me` answer, the start-up check as written adopts the wrapper `{user: ...}`, which has no id, email, roles or permissions member |
| Pipeline.StartUpAdoptsServerUser | apps/web/src/hooks/useAuth.ts:72-75 | adopting the `user` member, the start-up check hands on the user the server described, with its id and email |
| Pipeline.IssuedTokenAuthenticates | apps/api/src/controllers/auth.controller.ts:93-118 | while verifying with the signing key gives back the signed claims, a freshly issued token authenticates the user who logged in, for every JWT_SECRET setting; with JWT_SECRET set the code as written answers the same |
| Pipeline.SecretsAgree | apps/api/src/middlewares/auth.middleware.ts:47 | the corrected verifying key always equals the signing key; the written one equals it iff JWT_SECRET is set |
| Pipeline.DefaultSecretsRefuseIssuedTokens | apps/api/src/middlewares/auth.middleware.ts:47 | with JWT_SECRET unset and a verifier that refuses foreign keys, the token a login just issued is refused by the middleware as written with 401 "invalid signature" |
| Pipeline.SessionRoundTrip | apps/web/src/hooks/useAuth.ts:90-121 | log in on the server, store the answer in the browser, send the next request to the authenticating router: the server recognises the same user |
| Pipeline.RolelessUserDenied | apps/api/src/middlewares/auth.middleware.ts:149-167 | an authenticated user without roles is refused every permission with 403 and a message naming it |
| Pipeline.DenialNamesPermission | apps/api/src/middlewares/auth.middleware.ts:155-161 | the 403 message names the permission that was wanted |

## Left out

- JSON Web Tokens, bcrypt, `JSON.parse` and `JSON.stringify` are function parameters. No property of those libraries is assumed, except jsonwebtoken's own contract, stated as explicit hypotheses: `Pipeline.SignedTokensVerify` (a token verified with its signing key gives back its claims) and `Pipeline.ForeignKeysRefused` (any other key is refused as an invalid signature). The passage of time against a token's lifetime is abstracted away in both. The signer may refuse (it answers nothing when jsonwebtoken throws), and both hypotheses speak only of tokens it produced.
- Logging (`logger`, `console`) is left out. It has no effect on answers.
- Time is an integer parameter `now`; no clock is read.
- AuthController.GenerateToken: when jsonwebtoken accepts a lifetime is not modelled; the signer oracle decides it.
- Redis connection lifecycle, reconnection and `sendCommand` are left out: the readiness flag is a field of the client.
- Redis expiry: a TTL is recorded, but time does not pass, so entries never expire in the model.
- A command error after the readiness test behaves in the model like a client that is not ready, except where the model names the error (a TTL that is not positive, a counter that is not an integer).
- `invalidateCachePattern` and `flushAllCache` (redis.service.ts:281-310) are not modelled. They scan by glob pattern, and Redis glob matching is not part of this model.
- RedisService.Counter: the stored value is read with a decimal parser that also accepts leading zeros ("007") and "-0", which the Redis server rejects. The contract is therefore weaker than the server's error behaviour for such values. The reply is an exact integer, while the Redis client hands integer replies to JavaScript as numbers, which round any magnitude above 2^53; the amount a caller passes is likewise a JavaScript number.
- RedisService.Set: only the two outcomes of a successful write and a refused write are modelled; a store answer other than "OK" is not distinguished.
- The 500 answers of the stage-planner handlers' catch blocks are not modelled: the planner store of this model never throws.
- Cascading deletes of events and teams belong to the database schema and are not modelled.
- `technicalDetails` of events and its nested create and update are left out.
- Prisma-side sorting (`sortBy`, `sortOrder`), the `include` of related rows and the response shaping of `getEvents` and `getTechnicalTeams` are not modelled.
- StageEvents.GetEvents: the page is the `skip`/`take` window of the matching events in store order, given for page and limit at least 1. Query parameters reach the model as integers; `Number()` giving NaN on malformed text is left out.
- Assignments, statistics and exports are left out. These stage-planner endpoints (stageplanner.controller.ts:1149-1265) answer 501 and model nothing beyond that.
- `register`, `resetPassword` and `updatePassword` of the web hook (useAuth.ts:144-206) are left out. They only forward to the API and set the loading and error flags.
- The "remember me" flag of `login` (useAuth.ts:103-105) has an empty branch and is left out.
- Route files are left out, except the limiters the authentication routes build. They only bind handlers to paths.
- The request counting of express-rate-limit is a third-party algorithm and is not modelled. Only the configuration and the keys are modelled.
- Requests are handled one at a time. The race between the duplicate check and the create of `addTeamMember` is not modelled.
- React rendering and component files are left out. They are presentation only.
- The server's checks of token expiry and signature are the verifier's verdict.
- AuthMiddleware.Admit: it uses the corrected catch order, so an expired token answers "Token expiré." where the code as written answers "Token invalide."; the written behaviour is `AuthMiddleware.AdmitAsWritten`, and `AuthMiddleware.AdmitDiffersOnlyOnExpiry` shows that this is the only difference.
- AuthMiddleware.Authenticate: it inherits the corrected catch order of `AuthMiddleware.Admit`, and it verifies with the signer's fallback key when JWT_SECRET is unset (see Findings); the code as written is `AuthMiddleware.AuthenticateAsWritten`, and with JWT_SECRET set `AuthMiddleware.AuthenticateDiffersOnlyOnExpiry` shows the catch order is the only difference.
- WebAuth.CheckAuth: it adopts the `user` member of the answer (see Findings); the code as written is `WebAuth.CheckAuthAsWritten`.
- Pipeline.SessionRoundTrip: routing is not modelled, and this lemma assumes the request reaches the authenticating router. With the default configuration it does not: the client's base URL is `http://localhost:3001/api/v1` (web lib/api.ts:17-23), while the server mounts its routers under `/api/auth`, `/api/stageplanner`, … (api index.ts:112-120), so a client call falls through to the 404 handler unless NEXT_PUBLIC_API_VERSION or NEXT_PUBLIC_API_URL is set to match.
- Pipeline.ClientTenantReachesServer: it assumes, like `Pipeline.SessionRoundTrip`, that the request reaches a router; the path mismatch above is not modelled.
- WebProviders.IsModuleAvailable: `toLowerCase` is modelled as ASCII lower-casing; Unicode case mapping of module names is not modelled.
- RateLimiter.RateLimiter: an option passed explicitly as `undefined` overrides the default in `{ ...defaults, ...options }`; the model has no such value and treats it as absent, which keeps the default. A `message` given as a function of the request, and the options of the rate-limiting library beyond those named in the model row, are not modelled; no caller passes them.
- The creation loop of `createTechnicalTeam` records a user listed twice twice (`StageTeams.AdmittedCountsRequests`); whether a uniqueness constraint of the database schema refuses the second record is not part of this model.

## Findings

| source | as written | input that shows it | evidently intended | confidence | as-written member | corrected member |
|---|---|---|---|---|---|---|
| apps/api/src/middlewares/auth.middleware.ts:126-137 | the catch block tests `instanceof JsonWebTokenError` before `instanceof TokenExpiredError`; in jsonwebtoken `TokenExpiredError` extends `JsonWebTokenError`, so the second branch is dead | a token whose `exp` has passed: the answer is 401 "Token invalide." | an expired token answers 401 "Token expiré." | not executed | AuthMiddleware.ExpiredReportedAsInvalid | AuthMiddleware.Classify |
| apps/web/src/hooks/useAuth.ts:99-100 | the login hook reads `response.token`, while the server's login data carries the token as `accessToken` (auth.controller.ts:105-106) | any successful login: the hook throws "Token d'authentification manquant dans la réponse" and stores nothing | the hook stores `response.accessToken` and adopts `response.user` | not executed | Pipeline.ClientLoginAsWrittenFails | Pipeline.ClientLoginStoresServerToken |
| apps/api/src/middlewares/auth.middleware.ts:47 | `authenticate` falls back to the key 'default_jwt_secret_please_change', while the login controller signs with the fallback 'default_jwt_secret' (auth.controller.ts:7) | JWT_SECRET unset: log in, then send the issued token back; the answer is 401 "Token invalide." | both sides fall back to the same key, so an issued token authenticates | not executed | Pipeline.DefaultSecretsRefuseIssuedTokens | Pipeline.IssuedTokenAuthenticates |
| apps/web/src/hooks/useAuth.ts:74-75 | the start-up check adopts the whole `data` of `/auth/me`, which the server shapes as `{ user: {...} }` (auth.controller.ts:158-172) | reload the page with a valid stored token: the adopted user has no id, email, roles or permissions, so every role and permission check fails | adopt the `user` member, as `login` does | not executed | Pipeline.StartUpAsWrittenAdoptsWrapper | Pipeline.StartUpAdoptsServerUser |

=== FILE: auth_controller.dfy ===
/** The authentication endpoints (apps/api/src/controllers/auth.controller.ts):
    `login` looks the user up by email among the ACTIVE users of the request's
    tenant, checks the password, updates the failed-attempt counter or the
    last-login date, and returns a signed access token; `logout` and
    `getCurrentUser`. Password comparison (bcrypt.compare) and token signing
    (jwt.sign) are oracle parameters; `reachable` is false when the store throws. */
module AuthController {

  import opened Common
  import opened Domain
  import RedisService

  /** Lifetime given to access tokens when ACCESS_TOKEN_EXPIRY is unset or empty. */
  const DEFAULT_ACCESS_TOKEN_EXPIRY: string := "1h"

  /** The key tokens are signed with: JWT_SECRET, or `DEFAULT_JWT_SECRET`. */
  function SigningSecret(env: Env): (k: string)
    ensures Truthy(env.jwtSecret) ==> k == env.jwtSecret.value
    ensures !Truthy(env.jwtSecret) ==> k == DEFAULT_JWT_SECRET
  {
    SecretOr(env, DEFAULT_JWT_SECRET)
  }

  /** The lifetime tokens are given: ACCESS_TOKEN_EXPIRY, or one hour. */
  function AccessTokenExpiry(env: Env): (e: string)
    ensures Truthy(env.accessTokenExpiry) ==> e == env.accessTokenExpiry.value
    ensures !Truthy(env.accessTokenExpiry) ==> e == DEFAULT_ACCESS_TOKEN_EXPIRY
  {
    OrElse(env.accessTokenExpiry, Some(DEFAULT_ACCESS_TOKEN_EXPIRY)).value
  }

  datatype AuthFailure =
    | LoginTenantRequired
    | InvalidCredentials
    | LoginFailed
    | Unauthenticated
    | NotImplemented

  /** HTTP status answered for each failure. */
  function Status(e: AuthFailure): nat {
    match e
    case LoginTenantRequired => 400
    case InvalidCredentials => 401
    case LoginFailed => 500
    case Unauthenticated => 401
    case NotImplemented => 501
  }

  /** Message body answered for each failure. */
  function Message(e: AuthFailure): string {
    match e
    case LoginTenantRequired => "Tenant ID requis pour l'authentification"
    case InvalidCredentials => "Email ou mot de passe incorrect"
    case LoginFailed => "Erreur lors de la connexion"
    case Unauthenticated => "Utilisateur non authentifié"
    case NotImplemented => "Non implémenté"
  }

  /** The user summary a successful login returns. */
  datatype UserSummary = UserSummary(id: string, email: string, emailVerified: bool)

  /** `data` of a successful login answer. */
  datatype LoginData = LoginData(accessToken: string, user: UserSummary)

  datatype LoginResult = LoggedIn(data: LoginData) | LoginRefused(error: AuthFailure)

  /** The answer of `login` together with the user table after it. */
  datatype LoginOutcome = LoginOutcome(result: LoginResult, users: seq<User>)

  /** The claims `generateToken` signs: the user's identity and version, and the request's tenant. */
  function Claims(u: User, tenantId: string): (p: TokenPayload)
    ensures p.userId == u.id && p.email == u.email && p.organizationId == u.organizationId
    ensures p.tenantId == tenantId && p.tokenVersion == u.tokenVersion
  {
    TokenPayload(u.id, u.email, u.organizationId, tenantId, u.tokenVersion)
  }

  /** `generateToken`: `jwt.sign(claims, secret, { expiresIn })`, where `sign` is given the
      claims, the key and the lifetime, and answers nothing when the library throws
      (a lifetime that is not a timespan, say). */
  function GenerateToken(sign: (TokenPayload, string, string) -> Option<string>, env: Env, u: User, tenantId: string): (t: Option<string>)
    ensures Truthy(env.jwtSecret) ==> t == sign(Claims(u, tenantId), env.jwtSecret.value, AccessTokenExpiry(env))
    ensures !Truthy(env.jwtSecret) ==> t == sign(Claims(u, tenantId), DEFAULT_JWT_SECRET, AccessTokenExpiry(env))
    ensures !Truthy(env.accessTokenExpiry) ==> t == sign(Claims(u, tenantId), SigningSecret(env), "1h")
  {
    sign(Claims(u, tenantId), SigningSecret(env), AccessTokenExpiry(env))
  }

  /** The user's organization belongs to the tenant. */
  predicate InTenant(u: User, organizations: seq<Organization>, tenantId: string) {
    exists i :: 0 <= i < |organizations| && organizations[i].id == u.organizationId && organizations[i].tenantId == tenantId
  }

  /** The filter of the login lookup: same email, organization in the tenant, ACTIVE. */
  predicate LoginCandidate(u: User, email: string, organizations: seq<Organization>, tenantId: string) {
    u.email == email && InTenant(u, organizations, tenantId) && u.status == ACTIVE
  }

  /** `user.findFirst` with the login filter. */
  function FindLoginUser(users: seq<User>, email: string, organizations: seq<Organization>, tenantId: string): (r: Option<User>)
    ensures r.Some? ==> r.value in users && LoginCandidate(r.value, email, organizations, tenantId)
    ensures r.None? <==> forall i :: 0 <= i < |users| ==> !LoginCandidate(users[i], email, organizations, tenantId)
    ensures forall i :: 0 <= i < |users| && LoginCandidate(users[i], email, organizations, tenantId)
                        && (forall j :: 0 <= j < i ==> !LoginCandidate(users[j], email, organizations, tenantId)) ==>
      r == Some(users[i])
  {
    FindFirst(users, (u: User) => LoginCandidate(u, email, organizations, tenantId))
  }

  /** The update after a wrong password: the user's failed-attempt counter goes up by one. */
  function RecordFailure(users: seq<User>, u: User): (r: seq<User>)
    ensures |r| == |users|
    ensures forall i :: 0 <= i < |users| && users[i].id != u.id ==> r[i] == users[i]
    ensures forall i :: 0 <= i < |users| && users[i].id == u.id ==> r[i] == u.(loginAttempts := u.loginAttempts + 1)
  {
    ReplaceUser(users, u.(loginAttempts := u.loginAttempts + 1))
  }

  /** The update after a good password: counter reset, login date recorded. */
  function RecordSuccess(users: seq<User>, u: User, now: int): (r: seq<User>)
    ensures |r| == |users|
    ensures forall i :: 0 <= i < |users| && users[i].id != u.id ==> r[i] == users[i]
    ensures forall i :: 0 <= i < |users| && users[i].id == u.id ==> r[i] == u.(loginAttempts := 0, lastLoginAt := Some(now))
  {
    ReplaceUser(users, u.(loginAttempts := 0, lastLoginAt := Some(now)))
  }

  /** `login`. A wrong password and an unknown email give the same answer; a
      wrong password increments the user's failed-attempt counter; a success
      resets it, records the login date and returns a token for the user, or
      500 when signing throws. */
  function Login(
    req: Request, env: Env, email: string, password: string,
    users: seq<User>, organizations: seq<Organization>,
    compare: (string, string) -> bool, sign: (TokenPayload, string, string) -> Option<string>,
    now: int, reachable: bool): (r: LoginOutcome)
    ensures !Truthy(req.tenantId) ==> r == LoginOutcome(LoginRefused(LoginTenantRequired), users)
    ensures Truthy(req.tenantId) && !reachable ==> r == LoginOutcome(LoginRefused(LoginFailed), users)
    ensures Truthy(req.tenantId) && reachable && FindLoginUser(users, email, organizations, req.tenantId.value).None? ==>
      r == LoginOutcome(LoginRefused(InvalidCredentials), users)
    ensures Truthy(req.tenantId) && reachable && FindLoginUser(users, email, organizations, req.tenantId.value).Some? ==>
      var u := FindLoginUser(users, email, organizations, req.tenantId.value).value;
      && (!compare(password, u.password) ==>
            r == LoginOutcome(LoginRefused(InvalidCredentials), RecordFailure(users, u)))
      && (compare(password, u.password) && GenerateToken(sign, env, u, req.tenantId.value).Some? ==>
            r == LoginOutcome(LoggedIn(LoginData(GenerateToken(sign, env, u, req.tenantId.value).value,
                                                 UserSummary(u.id, u.email, u.emailVerified))),
                              RecordSuccess(users, u, now)))
      && (compare(password, u.password) && GenerateToken(sign, env, u, req.tenantId.value).None? ==>
            r == LoginOutcome(LoginRefused(LoginFailed), RecordSuccess(users, u, now)))
    ensures r.result.LoggedIn? ==>
      Truthy(req.tenantId) && reachable &&
      FindLoginUser(users, email, organizations, req.tenantId.value).Some? &&
      var u := FindLoginUser(users, email, organizations, req.tenantId.value).value;
      compare(password, u.password) && GenerateToken(sign, env, u, req.tenantId.value).Some?
      && r.result.data == LoginData(GenerateToken(sign, env, u, req.tenantId.value).value, UserSummary(u.id, u.email, u.emailVerified))
      && r.users == RecordSuccess(users, u, now)
  {
    if !Truthy(req.tenantId) then LoginOutcome(LoginRefused(LoginTenantRequired), users)
    else if !reachable then LoginOutcome(LoginRefused(LoginFailed), users)
    else
      var tenantId := req.tenantId.value;
      match FindLoginUser(users, email, organizations, tenantId)
      case None => LoginOutcome(LoginRefused(InvalidCredentials), users)
      case Some(u) =>
        if !compare(password, u.password) then
          LoginOutcome(LoginRefused(InvalidCredentials), RecordFailure(users, u))
        else
          // The counter is reset before the token is signed, so a throwing signer
          // answers 500 with the login already stamped.
          match GenerateToken(sign, env, u, tenantId)
          case None => LoginOutcome(LoginRefused(LoginFailed), RecordSuccess(users, u, now))
          case Some(token) =>
            LoginOutcome(LoggedIn(LoginData(token, UserSummary(u.id, u.email, u.emailVerified))), RecordSuccess(users, u, now))
  }

  /** Two user tables that differ at most in the failed-attempt counters. */
  predicate SameButAttempts(users: seq<User>, users': seq<User>) {
    |users| == |users'| && forall i :: 0 <= i < |users| ==> users'[i] == users[i].(loginAttempts := users'[i].loginAttempts)
  }

  /** No lockout: the failed-attempt counter is written but never read, so the
      answer of a login does not depend on it. */
  lemma LoginIgnoresAttempts(
    req: Request, env: Env, email: string, password: string,
    users: seq<User>, users': seq<User>, organizations: seq<Organization>,
    compare: (string, string) -> bool, sign: (TokenPayload, string, string) -> Option<string>,
    now: int, reachable: bool)
    requires SameButAttempts(users, users')
    ensures Login(req, env, email, password, users, organizations, compare, sign, now, reachable).result
         == Login(req, env, email, password, users', organizations, compare, sign, now, reachable).result
  {
    if Truthy(req.tenantId) && reachable {
      var tenantId := req.tenantId.value;
      var p := (u: User) => LoginCandidate(u, email, organizations, tenantId);
      forall i | 0 <= i < |users| ensures p(users[i]) == p(users'[i]) {
        assert InTenant(users[i], organizations, tenantId) == InTenant(users'[i], organizations, tenantId);
      }
      FirstIndexAgrees(users, p, users', p);
      match FirstIndex(users, p)
      case None =>
      case Some(k) =>
        assert FindLoginUser(users, email, organizations, tenantId) == Some(users[k]);
        assert FindLoginUser(users', email, organizations, tenantId) == Some(users'[k]);
    }
  }

  /** The answer of `logout` together with the user table and the key-value store after it. */
  datatype LogoutOutcome = LogoutOutcome(status: nat, message: string, users: seq<User>, cache: RedisService.Client)

  /** `logout`: answers success, bumps no token version and blacklists nothing, so
      the token stays valid until it expires. */
  function Logout(users: seq<User>, cache: RedisService.Client): (r: LogoutOutcome)
    ensures r.status == 200 && r.message == "Déconnexion réussie"
    ensures r.users == users && r.cache == cache
  {
    LogoutOutcome(200, "Déconnexion réussie", users, cache)
  }

  /** The user view `getCurrentUser` returns; profile fields are absent without a profile. */
  datatype UserView = UserView(
    id: string,
    email: string,
    firstName: Option<string>,
    lastName: Option<string>,
    avatarUrl: Option<string>,
    emailVerified: bool)

  datatype CurrentUser = Current(view: UserView) | NoCurrentUser(error: AuthFailure)

  /** `getCurrentUser`: the attached user's view, or 401 when no user is attached. */
  function GetCurrentUser(req: Request): (r: CurrentUser)
    ensures req.user.None? <==> r == NoCurrentUser(Unauthenticated)
    ensures r.Current? ==>
      r.view.id == req.user.value.id && r.view.email == req.user.value.email && r.view.emailVerified == req.user.value.emailVerified
    ensures r.Current? ==> (r.view.firstName.Some? <==> req.user.value.profile.Some?)
    ensures r.Current? && req.user.value.profile.Some? ==>
      var p := req.user.value.profile.value;
      r.view.firstName == Some(p.firstName) && r.view.lastName == Some(p.lastName) && r.view.avatarUrl == p.avatarUrl
  {
    match req.user
    case None => NoCurrentUser(Unauthenticated)
    case Some(u) =>
      match u.profile
      case None => Current(UserView(u.id, u.email, None, None, None, u.emailVerified))
      case Some(p) => Current(UserView(u.id, u.email, Some(p.firstName), Some(p.lastName), p.avatarUrl, u.emailVerified))
  }

  /** The endpoints declared but not implemented answer 501. */
  function Unimplemented(): (e: AuthFailure)
    ensures Status(e) == 501 && Message(e) == "Non implémenté"
  {
    NotImplemented
  }
}

=== FILE: auth_middleware.dfy ===
/** Bearer-credential authentication and the permission gate
    (apps/api/src/middlewares/auth.middleware.ts). `authenticate` parses the
    `Authorization: Bearer <token>` header (the scheme of section 2.1 of
    RFC 6750), asks the token verifier, then loads the user and runs the gates
    user exists / token version matches / status is ACTIVE, and attaches the
    identity and the effective permission set. Token verification (jwt.verify,
    RFC 7519) is an oracle parameter. */
module AuthMiddleware {

  import opened Common
  import opened Strings
  import opened Domain

  /** Errors the token library throws. In the jsonwebtoken library both
      `TokenExpiredError` and `NotBeforeError` are subclasses of `JsonWebTokenError`. */
  datatype JwtError =
    | JsonWebTokenError(message: string)
    | TokenExpiredError(message: string)
    | NotBeforeError(message: string)
    | OtherError(message: string)

  /** `e instanceof jwt.JsonWebTokenError`, following the library's class hierarchy. */
  predicate InstanceOfJsonWebTokenError(e: JwtError) {
    e.JsonWebTokenError? || e.TokenExpiredError? || e.NotBeforeError?
  }

  /** `e instanceof jwt.TokenExpiredError`. */
  predicate InstanceOfTokenExpiredError(e: JwtError) {
    e.TokenExpiredError?
  }

  /** What the token verifier answers for a token string. */
  datatype Verification = Verified(payload: TokenPayload) | Rejected(error: JwtError)

  datatype AuthError =
    | TokenMissing
    | TokenInvalid(detail: string)
    | TokenExpired(detail: string)
    | AuthFailed
    | UserNotFound
    | TokenVersionMismatch
    | AccountNotActive(status: string)
    | NotAuthenticated
    | PermissionDenied(permission: string)

  /** HTTP status answered for each failure. */
  function Status(e: AuthError): nat {
    match e
    case TokenMissing => 401
    case TokenInvalid(_) => 401
    case TokenExpired(_) => 401
    case AuthFailed => 500
    case UserNotFound => 401
    case TokenVersionMismatch => 401
    case AccountNotActive(_) => 403
    case NotAuthenticated => 401
    case PermissionDenied(_) => 403
  }

  /** Message body answered for each failure. */
  function Message(e: AuthError): string {
    match e
    case TokenMissing => "Accès non autorisé. Token manquant ou mal formaté."
    case TokenInvalid(_) => "Token invalide."
    case TokenExpired(_) => "Token expiré."
    case AuthFailed => "Erreur interne lors de l'authentification."
    case UserNotFound => "Utilisateur non trouvé pour ce token."
    case TokenVersionMismatch => "Token invalide (version incorrecte). Veuillez vous reconnecter."
    case AccountNotActive(s) => "Le compte utilisateur est " + s + ". Accès refusé."
    case NotAuthenticated => "Utilisateur non authentifié pour la vérification des permissions."
    case PermissionDenied(p) => "Accès refusé. Permission '" + p + "' insuffisante."
  }

  /** The scheme prefix, space included. */
  const BEARER: string := "Bearer "

  /** Splitting "Bearer " + rest on spaces yields "Bearer" followed by the pieces of `rest`. */
  lemma SplitBearer(rest: string)
    ensures Split(BEARER + rest, ' ') == ["Bearer"] + Split(rest, ' ')
  {
    assert BEARER + rest == "Bearer" + (" " + rest);
    SplitPrefix("Bearer", " " + rest, ' ');
    assert (" " + rest)[1..] == rest;
    assert Split(" " + rest, ' ') == [""] + Split(rest, ' ');
    assert "Bearer" + "" == "Bearer";
  }

  /** The token of an Authorization header: absent unless the header starts with
      "Bearer "; then the second space-separated field, that is, the text after
      "Bearer " up to the next space. */
  function BearerToken(header: Option<string>): (r: Option<string>)
    ensures r.Some? <==> header.Some? && StartsWith(header.value, BEARER)
    ensures r.Some? ==> r.value == FirstField(header.value[|BEARER|..], ' ')
  {
    if header.None? || !StartsWith(header.value, BEARER) then None
    else
      var h := header.value;
      assert h == BEARER + h[|BEARER|..];
      SplitBearer(h[|BEARER|..]);
      Some(Split(h, ' ')[1])
  }

  /** A header built as "Bearer " + token, for a token without spaces, parses back to that token. */
  lemma BearerRoundTrip(token: string)
    requires ' ' !in token
    ensures BearerToken(Some(BEARER + token)) == Some(token)
  {
    var h := BEARER + token;
    assert StartsWith(h, BEARER);
    assert h[|BEARER|..] == token;
    SplitPrefix(token, "", ' ');
    assert token + "" == token;
  }

  /** The catch block as written: `instanceof JsonWebTokenError` is tested first. */
  function ClassifyAsWritten(e: JwtError): (r: AuthError)
    ensures r.TokenInvalid? <==> InstanceOfJsonWebTokenError(e)
    ensures r == AuthFailed <==> !InstanceOfJsonWebTokenError(e)
    ensures r.TokenInvalid? ==> r.detail == e.message
  {
    if InstanceOfJsonWebTokenError(e) then TokenInvalid(e.message)
    else if InstanceOfTokenExpiredError(e) then TokenExpired(e.message)
    else AuthFailed
  }

  /** As written, the "Token expiré." branch is dead: an expired token is reported as invalid. */
  lemma ExpiredReportedAsInvalid(e: JwtError)
    ensures !ClassifyAsWritten(e).TokenExpired?
    ensures e.TokenExpiredError? ==> ClassifyAsWritten(e) == TokenInvalid(e.message)
  {
  }

  /** The evidently intended classification: the subclass is tested before its parent. */
  function Classify(e: JwtError): (r: AuthError)
    ensures r.TokenExpired? <==> e.TokenExpiredError?
    ensures r.TokenInvalid? <==> e.JsonWebTokenError? || e.NotBeforeError?
    ensures r == AuthFailed <==> !InstanceOfJsonWebTokenError(e)
    ensures Status(r) == 401 <==> InstanceOfJsonWebTokenError(e)
  {
    if InstanceOfTokenExpiredError(e) then TokenExpired(e.message)
    else if InstanceOfJsonWebTokenError(e) then TokenInvalid(e.message)
    else AuthFailed
  }

  /** Some assigned role grants permission `p`. */
  predicate GrantedBy(roles: seq<Role>, p: string) {
    exists i :: 0 <= i < |roles| && p in roles[i].permissions
  }

  /** Adds each name not yet present, in order (a `Set.add` per name). */
  function AddNames(acc: seq<string>, names: seq<string>): (r: seq<string>)
    requires NoDuplicates(acc)
    ensures NoDuplicates(r)
    ensures acc <= r
    ensures forall p :: p in r <==> p in acc || p in names
    decreases |names|
  {
    if |names| == 0 then acc
    else
      var acc' := if names[0] in acc then acc else acc + [names[0]];
      AddNames(acc', names[1..])
  }

  /** Adds the permission names of every role, role after role. */
  function CollectPermissions(acc: seq<string>, roles: seq<Role>): (r: seq<string>)
    requires NoDuplicates(acc)
    ensures NoDuplicates(r)
    ensures acc <= r
    ensures forall p :: p in r <==> p in acc || GrantedBy(roles, p)
    decreases |roles|
  {
    if |roles| == 0 then acc
    else
      var r := CollectPermissions(AddNames(acc, roles[0].permissions), roles[1..]);
      assert forall p :: GrantedBy(roles, p) <==> p in roles[0].permissions || GrantedBy(roles[1..], p) by {
        forall p ensures GrantedBy(roles, p) <==> p in roles[0].permissions || GrantedBy(roles[1..], p) {
          if GrantedBy(roles, p) {
            var i :| 0 <= i < |roles| && p in roles[i].permissions;
            if i > 0 { assert roles[1..][i - 1] == roles[i]; }
          }
          if GrantedBy(roles[1..], p) {
            var i :| 0 <= i < |roles[1..]| && p in roles[1..][i].permissions;
            assert roles[i + 1] == roles[1..][i];
          }
        }
      }
      r
  }

  /** The effective permission set: the duplicate-free union, in first-seen
      order, of the permission names of all assigned roles. */
  function EffectivePermissions(roles: seq<Role>): (r: seq<string>)
    ensures NoDuplicates(r)
    ensures forall p :: p in r <==> GrantedBy(roles, p)
    ensures |roles| == 0 ==> r == []
  {
    CollectPermissions([], roles)
  }

  /** The effective set depends only on which roles are held, not on their order or repetition. */
  lemma PermissionsOrderIndependent(roles: seq<Role>, roles': seq<Role>)
    requires Elems(roles) == Elems(roles')
    ensures Elems(EffectivePermissions(roles)) == Elems(EffectivePermissions(roles'))
  {
    forall p | GrantedBy(roles, p) ensures GrantedBy(roles', p) {
      var i :| 0 <= i < |roles| && p in roles[i].permissions;
      assert roles[i] in Elems(roles');
      var j :| 0 <= j < |roles'| && roles'[j] == roles[i];
    }
    forall p | GrantedBy(roles', p) ensures GrantedBy(roles, p) {
      var i :| 0 <= i < |roles'| && p in roles'[i].permissions;
      assert roles'[i] in Elems(roles);
      var j :| 0 <= j < |roles| && roles[j] == roles'[i];
    }
  }

  /** Holding two groups of roles grants exactly the union of what each group grants. */
  lemma PermissionsOfUnion(r1: seq<Role>, r2: seq<Role>)
    ensures Elems(EffectivePermissions(r1 + r2)) == Elems(EffectivePermissions(r1)) + Elems(EffectivePermissions(r2))
  {
    forall p | GrantedBy(r1 + r2, p) ensures GrantedBy(r1, p) || GrantedBy(r2, p) {
      var i :| 0 <= i < |r1 + r2| && p in (r1 + r2)[i].permissions;
      if i >= |r1| { assert (r1 + r2)[i] == r2[i - |r1|]; }
    }
    forall p | GrantedBy(r1, p) ensures GrantedBy(r1 + r2, p) {
      var i :| 0 <= i < |r1| && p in r1[i].permissions;
      assert (r1 + r2)[i] == r1[i];
    }
    forall p | GrantedBy(r2, p) ensures GrantedBy(r1 + r2, p) {
      var i :| 0 <= i < |r2| && p in r2[i].permissions;
      assert (r1 + r2)[i + |r1|] == r2[i];
    }
  }

  /** The request context after a successful authentication: the loaded user,
      its permissions and organization; the token's tenant only when none is attached yet. */
  function Attach(req: Request, u: User, claims: TokenPayload): (r: Request)
    ensures r == req.(user := Some(u), permissions := Some(EffectivePermissions(u.roles)),
                      organizationId := Some(u.organizationId), tenantId := r.tenantId)
    ensures Truthy(req.tenantId) ==> r.tenantId == req.tenantId
    ensures !Truthy(req.tenantId) && claims.tenantId != "" ==> r.tenantId == Some(claims.tenantId)
    ensures !Truthy(req.tenantId) && claims.tenantId == "" ==> r.tenantId == req.tenantId
  {
    var tenantId := if !Truthy(req.tenantId) && claims.tenantId != "" then Some(claims.tenantId) else req.tenantId;
    req.(user := Some(u), permissions := Some(EffectivePermissions(u.roles)),
         organizationId := Some(u.organizationId), tenantId := tenantId)
  }

  /** `user.findUnique({ where: { id } })`. */
  function FindUser(users: seq<User>, id: string): (r: Option<User>)
    ensures r.Some? ==> r.value in users && r.value.id == id
    ensures r.None? <==> forall i :: 0 <= i < |users| ==> users[i].id != id
  {
    FindFirst(users, (u: User) => u.id == id)
  }

  /** The gates after the token has been verified (or rejected), in order; the first
      failure wins. A rejected token is classified by `classify`: the catch block as
      written (`ClassifyAsWritten`) or its corrected order (`Classify`). */
  function AdmitWith(classify: JwtError -> AuthError, req: Request, verdict: Verification, users: seq<User>, reachable: bool): (r: Gate<AuthError>)
    ensures verdict.Rejected? ==> r == Fail(classify(verdict.error))
    ensures verdict.Verified? && !reachable ==> r == Fail(AuthFailed)
    ensures verdict.Verified? && reachable && FindUser(users, verdict.payload.userId).None? ==> r == Fail(UserNotFound)
    ensures verdict.Verified? && reachable && FindUser(users, verdict.payload.userId).Some? ==>
      var u := FindUser(users, verdict.payload.userId).value;
      && (u.tokenVersion != verdict.payload.tokenVersion ==> r == Fail(TokenVersionMismatch))
      && (u.tokenVersion == verdict.payload.tokenVersion && u.status != ACTIVE ==> r == Fail(AccountNotActive(u.status)))
      && (u.tokenVersion == verdict.payload.tokenVersion && u.status == ACTIVE ==> r == Pass(Attach(req, u, verdict.payload)))
    ensures r == Fail(TokenVersionMismatch) && verdict.Verified? ==>
      exists u :: u in users && u.id == verdict.payload.userId && u.tokenVersion != verdict.payload.tokenVersion
    ensures r.Fail? && r.error.AccountNotActive? && verdict.Verified? ==>
      r.error.status != ACTIVE &&
      exists u :: u in users && u.id == verdict.payload.userId && u.tokenVersion == verdict.payload.tokenVersion && u.status == r.error.status
    ensures r.Pass? ==>
      verdict.Verified? &&
      exists u :: u in users && u.id == verdict.payload.userId && u.tokenVersion == verdict.payload.tokenVersion
                && u.status == ACTIVE && r.req == Attach(req, u, verdict.payload)
  {
    match verdict
    case Rejected(e) => Fail(classify(e))
    case Verified(claims) =>
      if !reachable then Fail(AuthFailed)
      else match FindUser(users, claims.userId)
        case None => Fail(UserNotFound)
        case Some(u) =>
          if u.tokenVersion != claims.tokenVersion then Fail(TokenVersionMismatch)
          else if u.status != ACTIVE then Fail(AccountNotActive(u.status))
          else Pass(Attach(req, u, claims))
  }

  /** The gates as written: a rejected token goes through the catch block in its written order. */
  function AdmitAsWritten(req: Request, verdict: Verification, users: seq<User>, reachable: bool): (r: Gate<AuthError>)
    ensures verdict.Rejected? ==> r == Fail(ClassifyAsWritten(verdict.error))
    ensures !r.Fail? || !r.error.TokenExpired?
  {
    AdmitWith(ClassifyAsWritten, req, verdict, users, reachable)
  }

  /** The gates with the corrected catch order; the rest of the model uses this one. */
  function Admit(req: Request, verdict: Verification, users: seq<User>, reachable: bool): (r: Gate<AuthError>)
    ensures verdict.Rejected? ==> r == Fail(Classify(verdict.error))
    ensures verdict.Verified? ==> r == AdmitAsWritten(req, verdict, users, reachable)
  {
    AdmitWith(Classify, req, verdict, users, reachable)
  }

  /** The written and the corrected gates answer alike except for an expired token,
      which the written code reports as invalid and the corrected code as expired. */
  lemma AdmitDiffersOnlyOnExpiry(req: Request, verdict: Verification, users: seq<User>, reachable: bool)
    ensures AdmitAsWritten(req, verdict, users, reachable) != Admit(req, verdict, users, reachable) <==>
      verdict.Rejected? && verdict.error.TokenExpiredError?
    ensures verdict.Rejected? && verdict.error.TokenExpiredError? ==>
      AdmitAsWritten(req, verdict, users, reachable) == Fail(TokenInvalid(verdict.error.message)) &&
      Admit(req, verdict, users, reachable) == Fail(TokenExpired(verdict.error.message))
  {
  }

  /** The key `authenticate` verifies with, as written: JWT_SECRET, or a fallback
      that differs from the one the login controller signs with. */
  function VerifyingSecretAsWritten(env: Env): (k: string)
    ensures Truthy(env.jwtSecret) ==> k == env.jwtSecret.value
    ensures !Truthy(env.jwtSecret) ==> k == "default_jwt_secret_please_change" && k != DEFAULT_JWT_SECRET
  {
    SecretOr(env, "default_jwt_secret_please_change")
  }

  /** The evidently intended key: JWT_SECRET, or the fallback the tokens are signed with. */
  function VerifyingSecret(env: Env): (k: string)
    ensures Truthy(env.jwtSecret) ==> k == env.jwtSecret.value
    ensures !Truthy(env.jwtSecret) ==> k == DEFAULT_JWT_SECRET
    ensures Truthy(env.jwtSecret) <==> k == VerifyingSecretAsWritten(env)
  {
    SecretOr(env, DEFAULT_JWT_SECRET)
  }

  /** `authenticate` for a given catch order and key: a missing or non-Bearer header is
      refused before the verifier is asked; otherwise `verify(token, secret)` is admitted. */
  function AuthenticateWith(classify: JwtError -> AuthError, secret: string, req: Request,
                            verify: (string, string) -> Verification, users: seq<User>, reachable: bool): (r: Gate<AuthError>)
    ensures BearerToken(req.authorization).None? ==> r == Fail(TokenMissing)
    ensures BearerToken(req.authorization).Some? ==>
      r == AdmitWith(classify, req, verify(BearerToken(req.authorization).value, secret), users, reachable)
  {
    match BearerToken(req.authorization)
    case None => Fail(TokenMissing)
    case Some(token) => AdmitWith(classify, req, verify(token, secret), users, reachable)
  }

  /** `authenticate` as written: the written catch order and the written fallback key. */
  function AuthenticateAsWritten(req: Request, env: Env, verify: (string, string) -> Verification, users: seq<User>, reachable: bool): (r: Gate<AuthError>)
    ensures BearerToken(req.authorization).None? ==> r == Fail(TokenMissing)
    ensures BearerToken(req.authorization).Some? ==>
      r == AdmitAsWritten(req, verify(BearerToken(req.authorization).value, VerifyingSecretAsWritten(env)), users, reachable)
  {
    AuthenticateWith(ClassifyAsWritten, VerifyingSecretAsWritten(env), req, verify, users, reachable)
  }

  /** `authenticate` with the corrected catch order and the signer's fallback key. */
  function Authenticate(req: Request, env: Env, verify: (string, string) -> Verification, users: seq<User>, reachable: bool): (r: Gate<AuthError>)
    ensures BearerToken(req.authorization).None? ==> r == Fail(TokenMissing)
    ensures BearerToken(req.authorization).Some? ==>
      r == Admit(req, verify(BearerToken(req.authorization).value, VerifyingSecret(env)), users, reachable)
  {
    AuthenticateWith(Classify, VerifyingSecret(env), req, verify, users, reachable)
  }

  /** With JWT_SECRET set, the written and the corrected `authenticate` differ only where the
      verifier reports an expired token. */
  lemma AuthenticateDiffersOnlyOnExpiry(req: Request, env: Env, verify: (string, string) -> Verification, users: seq<User>, reachable: bool)
    requires Truthy(env.jwtSecret)
    ensures AuthenticateAsWritten(req, env, verify, users, reachable) != Authenticate(req, env, verify, users, reachable) <==>
      BearerToken(req.authorization).Some? &&
      var v := verify(BearerToken(req.authorization).value, env.jwtSecret.value);
      v.Rejected? && v.error.TokenExpiredError?
  {
    if BearerToken(req.authorization).Some? {
      AdmitDiffersOnlyOnExpiry(req, verify(BearerToken(req.authorization).value, env.jwtSecret.value), users, reachable);
    }
  }

  /** A request `authenticate` let through carries its user and exactly that user's effective permissions. */
  lemma AuthenticatedCarriesPermissions(req: Request, env: Env, verify: (string, string) -> Verification, users: seq<User>, reachable: bool)
    requires Authenticate(req, env, verify, users, reachable).Pass?
    ensures var r := Authenticate(req, env, verify, users, reachable).req;
            r.user.Some? && r.user.value in users && r.permissions == Some(EffectivePermissions(r.user.value.roles))
  {
  }

  /** The organization claim of the token is never consulted: changing it changes nothing. */
  lemma OrganizationClaimIgnored(req: Request, claims: TokenPayload, otherOrganization: string, users: seq<User>, reachable: bool)
    ensures Admit(req, Verified(claims.(organizationId := otherOrganization)), users, reachable)
         == Admit(req, Verified(claims), users, reachable)
  {
  }

  /** After replacing a user row, looking that user up finds the replacement. */
  lemma FindReplacedUser(users: seq<User>, u: User, k: nat)
    requires k < |users| && users[k].id == u.id
    ensures FindUser(ReplaceUser(users, u), u.id) == Some(u)
  {
    var users' := ReplaceUser(users, u);
    assert users'[k] == u;
    var found := FindUser(users', u.id);
    var j :| 0 <= j < |users'| && users'[j] == found.value;
  }

  /** A verified token whose version differs from the stored user's is refused as revoked. */
  lemma StaleVersionRefused(req: Request, claims: TokenPayload, users: seq<User>, u: User)
    requires FindUser(users, claims.userId) == Some(u)
    requires u.tokenVersion != claims.tokenVersion
    ensures Admit(req, Verified(claims), users, true) == Fail(TokenVersionMismatch)
  {
  }

  /** Revocation by version bump: a credential that was accepted is refused, as
      revoked, once the user's token version has been incremented. */
  lemma RevokedAfterVersionBump(req: Request, claims: TokenPayload, users: seq<User>, reachable: bool, u: User)
    requires Admit(req, Verified(claims), users, reachable).Pass?
    requires FindUser(users, claims.userId) == Some(u)
    ensures Admit(req, Verified(claims), ReplaceUser(users, u.(tokenVersion := u.tokenVersion + 1)), reachable)
         == Fail(TokenVersionMismatch)
  {
    var bumped := u.(tokenVersion := u.tokenVersion + 1);
    var k :| 0 <= k < |users| && users[k] == u;
    FindReplacedUser(users, bumped, k);
    StaleVersionRefused(req, claims, ReplaceUser(users, bumped), bumped);
  }

  /** `checkPermission(required)`: exact string membership, request left untouched. */
  function CheckPermission(req: Request, required: string): (r: Gate<AuthError>)
    ensures req.user.None? ==> r == Fail(NotAuthenticated)
    ensures req.user.Some? ==> (r.Pass? <==> req.permissions.Some? && required in req.permissions.value)
    ensures r.Pass? ==> r.req == req
    ensures r.Fail? && req.user.Some? ==> r.error == PermissionDenied(required)
  {
    if req.user.None? then Fail(NotAuthenticated)
    else if req.permissions.None? || required !in req.permissions.value then Fail(PermissionDenied(required))
    else Pass(req)
  }
}

=== FILE: common.dfy ===
/** Small building blocks shared by every module: an optional value, JavaScript
    truthiness of optional strings, and the "first row that matches" lookup
    that every `findFirst` query of the persistence layer performs. */
module Common {

  /** A value that may be absent (`undefined` / `null` in the source). */
  datatype Option<+T> = None | Some(value: T) {

    /** The value, or a default when absent. */
    function GetOr(default: T): T {
      match this
      case Some(v) => v
      case None => default
    }
  }

  /** JavaScript truthiness of an optional string: absent and "" are falsy. */
  predicate Truthy(o: Option<string>) {
    o.Some? && o.value != ""
  }

  /** JavaScript `a || b` over optional strings: `a` when it is truthy, else `b`. */
  function OrElse(a: Option<string>, b: Option<string>): (r: Option<string>)
    ensures Truthy(a) ==> r == a
    ensures !Truthy(a) ==> r == b
    ensures Truthy(r) <==> Truthy(a) || Truthy(b)
  {
    if Truthy(a) then a else b
  }

  /** The set of elements of a sequence. */
  function Elems<T(==)>(s: seq<T>): set<T> {
    set x | x in s
  }

  /** No element occurs twice. */
  predicate NoDuplicates<T(==)>(s: seq<T>) {
    forall i, j :: 0 <= i < j < |s| ==> s[i] != s[j]
  }

  /** Index of the first element satisfying `p`, as a table scan returns it. */
  function FirstIndex<T>(s: seq<T>, p: T -> bool): (r: Option<nat>)
    ensures r.Some? ==> r.value < |s| && p(s[r.value])
    ensures r.Some? ==> forall j :: 0 <= j < r.value ==> !p(s[j])
    ensures r.None? <==> forall j :: 0 <= j < |s| ==> !p(s[j])
  {
    if |s| == 0 then None
    else if p(s[0]) then Some(0)
    else match FirstIndex(s[1..], p)
      case None => None
      case Some(k) => Some(k + 1)
  }

  /** The first element satisfying `p` (the `findFirst` of the store). */
  function FindFirst<T>(s: seq<T>, p: T -> bool): (r: Option<T>)
    ensures r.Some? ==> r.value in s && p(r.value)
    ensures r.None? <==> forall j :: 0 <= j < |s| ==> !p(s[j])
    ensures r.Some? ==> exists i :: 0 <= i < |s| && s[i] == r.value && forall j :: 0 <= j < i ==> !p(s[j])
    ensures forall i :: 0 <= i < |s| && p(s[i]) && (forall j :: 0 <= j < i ==> !p(s[j])) ==> r == Some(s[i])
  {
    match FirstIndex(s, p)
    case None => None
    case Some(i) => Some(s[i])
  }

  /** Two scans that see the same verdicts, position by position, stop at the same index. */
  lemma {:induction false} FirstIndexAgrees<T, U>(s: seq<T>, p: T -> bool, t: seq<U>, q: U -> bool)
    requires |s| == |t|
    requires forall i :: 0 <= i < |s| ==> p(s[i]) == q(t[i])
    ensures FirstIndex(s, p) == FirstIndex(t, q)
    decreases |s|
  {
    if |s| > 0 && !p(s[0]) {
      assert forall i :: 0 <= i < |s[1..]| ==> s[1..][i] == s[i + 1] && t[1..][i] == t[i + 1];
      FirstIndexAgrees(s[1..], p, t[1..], q);
    }
  }

  /** Whether some element satisfies `p`. */
  predicate Any<T>(s: seq<T>, p: T -> bool) {
    exists i :: 0 <= i < |s| && p(s[i])
  }

  /** Every element satisfying `p` becomes `x`, the others stay (an `update` keyed by `p`). */
  function ReplaceWhere<T>(s: seq<T>, p: T -> bool, x: T): (r: seq<T>)
    ensures |r| == |s|
    ensures forall i :: 0 <= i < |s| ==> r[i] == (if p(s[i]) then x else s[i])
  {
    if |s| == 0 then [] else [if p(s[0]) then x else s[0]] + ReplaceWhere(s[1..], p, x)
  }

  /** Removes the element at position `i`. */
  function RemoveAt<T>(s: seq<T>, i: nat): (r: seq<T>)
    requires i < |s|
    ensures |r| == |s| - 1
    ensures forall j :: 0 <= j < i ==> r[j] == s[j]
    ensures forall j :: i <= j < |r| ==> r[j] == s[j + 1]
  {
    s[..i] + s[i + 1..]
  }
}

=== FILE: domain.dfy ===
/** The records of the credential store and the per-request context that the
    middlewares enrich: tenants, organizations, module activations, users with
    their profile and roles, the signed-token payload, and the request. Dates
    are integers (milliseconds); the store's tables are sequences in row order. */
module Domain {

  import opened Common

  /** Status value that lets a tenant or a user through. */
  const ACTIVE: string := "ACTIVE"

  /** A customer account: the top-level isolation boundary. */
  datatype Tenant = Tenant(
    id: string,
    subdomain: string,
    status: string,
    subscriptionEndDate: Option<int>)

  /** A unit inside a tenant that owns users, locations, events and teams. */
  datatype Organization = Organization(id: string, tenantId: string)

  /** One (tenant, module, active) row; a module is usable only through an active row. */
  datatype ModuleActivation = ModuleActivation(tenantId: string, moduleType: string, isActive: bool)

  /** Optional display attributes of a user. */
  datatype Profile = Profile(firstName: string, lastName: string, avatarUrl: Option<string>)

  /** A role and the names of the permissions it grants. */
  datatype Role = Role(name: string, permissions: seq<string>)

  /** A user row together with its profile and assigned roles. */
  datatype User = User(
    id: string,
    email: string,
    password: string,
    organizationId: string,
    status: string,
    tokenVersion: int,
    loginAttempts: int,
    lastLoginAt: Option<int>,
    emailVerified: bool,
    profile: Option<Profile>,
    roles: seq<Role>)

  /** The claims a signed access token carries. */
  datatype TokenPayload = TokenPayload(
    userId: string,
    email: string,
    organizationId: string,
    tenantId: string,
    tokenVersion: int)

  /** The server's environment variables that the token code reads; `None` is an unset variable. */
  datatype Env = Env(jwtSecret: Option<string>, accessTokenExpiry: Option<string>)

  /** The key the login controller signs with when JWT_SECRET is unset or empty. */
  const DEFAULT_JWT_SECRET: string := "default_jwt_secret"

  /** `process.env.JWT_SECRET || fallback`. */
  function SecretOr(env: Env, fallback: string): (k: string)
    ensures Truthy(env.jwtSecret) ==> k == env.jwtSecret.value
    ensures !Truthy(env.jwtSecret) ==> k == fallback
  {
    if Truthy(env.jwtSecret) then env.jwtSecret.value else fallback
  }

  /** An incoming request: what the client sent, plus what earlier middlewares attached. */
  datatype Request = Request(
    hostname: string,
    tenantHeader: Option<string>,
    authorization: Option<string>,
    ip: string,
    httpMethod: string,
    url: string,
    tenantId: Option<string>,
    user: Option<User>,
    permissions: Option<seq<string>>,
    organizationId: Option<string>)

  /** A fresh request as it arrives, before any middleware ran. */
  function Incoming(hostname: string, tenantHeader: Option<string>, authorization: Option<string>, ip: string): Request {
    Request(hostname, tenantHeader, authorization, ip, "GET", "/", None, None, None, None)
  }

  /** `user.update({ where: { id: u.id } })`: every row with that id becomes `u`, the others stay. */
  function ReplaceUser(users: seq<User>, u: User): (r: seq<User>)
    ensures |r| == |users|
    ensures forall i :: 0 <= i < |users| ==> r[i] == (if users[i].id == u.id then u else users[i])
  {
    ReplaceWhere(users, (x: User) => x.id == u.id, u)
  }

  /** Outcome of a middleware: call `next` with the (possibly enriched) request, or answer with an error. */
  datatype Gate<+E> = Pass(req: Request) | Fail(error: E)
}

=== FILE: pipeline.dfy ===
/** Properties that span several parts of the system: the path of the tenant
    from the browser's hostname to the server's middlewares, and the path of the
    access token from the login answer through the browser back to `authenticate`. */
module Pipeline {

  import opened Common
  import opened Strings
  import opened Domain
  import opened WebApi
  import TenantMiddleware
  import Server
  import AuthMiddleware
  import AuthController
  import WebAuth
  import RedisService

  /** The request the server receives for the headers the browser sent; header
      names are matched as Express does, the tenant header arriving as `x-tenant-id`. */
  function Deliver(headers: map<string, string>, apiHostname: string, ip: string): Request {
    Incoming(apiHostname, GetItem(headers, TENANT_HEADER), GetItem(headers, AUTHORIZATION), ip)
  }

  /** Whatever host the API answers on, a tenant header sent by the browser is the
      tenant the global middleware attaches and the one `tenantRequired` looks up. */
  lemma ClientTenantReachesServer(headers: map<string, string>, b: Browser, apiHostname: string, ip: string)
    requires ClientSubdomain(b.hostname).Some? && ClientSubdomain(b.hostname).value != ""
    ensures var req := Server.TenantMiddleware(Deliver(RequestHeaders(headers, Some(b)), apiHostname, ip));
            req.tenantId == ClientSubdomain(b.hostname)
            && TenantMiddleware.RequiredCandidate(req) == ClientSubdomain(b.hostname)
  {
  }

  /** A two-label hostname "acme.example": the browser takes "acme" for the tenant,
      while the server's own subdomain rule asks for at least three labels and finds none. */
  lemma TwoLabelHostsDisagree(a: string, b: string)
    requires '.' !in a && '.' !in b
    requires a !in RESERVED_LABELS
    ensures ClientSubdomain(a + "." + b) == Some(a)
    ensures TenantMiddleware.SubdomainCandidate(a + "." + b).None?
  {
    var h := a + "." + b;
    assert h == a + ['.'] + b;
    FirstFieldOfJoined(a, '.', b);
    CountAppend(a, ['.'] + b, '.');
    CountAppend(['.'], b, '.');
    assert a + ['.'] + b == a + (['.'] + b);
    CountAbsent(a, '.');
    CountAbsent(b, '.');
  }

  /** The global middleware runs before `tenantRequired` and attaches any first label
      other than "api", so the subdomain rule of `tenantRequired` (no "www", three labels)
      never gets its say: "www.acme.example" is looked up as tenant "www". */
  lemma GlobalMiddlewarePreemptsSubdomainRule(req: Request)
    requires !Truthy(req.tenantHeader) && !Truthy(req.tenantId)
    requires FirstField(req.hostname, '.') != "api" && FirstField(req.hostname, '.') != ""
    ensures TenantMiddleware.RequiredCandidate(Server.TenantMiddleware(req)) == Some(FirstField(req.hostname, '.'))
  {
  }

  /** The "www" host: refused as tenant-less by the subdomain rule alone, looked up as "www" behind the global middleware. */
  lemma WwwHostLookedUp(rest: string, ip: string)
    requires '.' !in rest
    ensures var req := Incoming("www.acme." + rest, None, None, ip);
            TenantMiddleware.RequiredCandidate(req).None?
            && TenantMiddleware.RequiredCandidate(Server.TenantMiddleware(req)) == Some("www")
  {
    var h := "www.acme." + rest;
    assert h == "www" + ['.'] + ("acme." + rest);
    FirstFieldOfJoined("www", '.', "acme." + rest);
  }

  /** The JSON body of a successful server login. */
  function LoginBody(data: AuthController.LoginData): Json {
    var user := JObj(map["id" := JStr(data.user.id), "email" := JStr(data.user.email), "emailVerified" := JBool(data.user.emailVerified)]);
    Envelope("Connexion réussie", JObj(map["accessToken" := JStr(data.accessToken), "user" := user]))
  }

  /** The browser's login as written never signs anyone in: the server's answer has
      no `token` member, so every successful server login ends in the missing-token error. */
  lemma ClientLoginAsWrittenFails(s: WebAuth.AuthState, data: AuthController.LoginData, decodeUser: Option<Json> -> Option<WebAuth.ClientUser>)
    ensures var r := WebAuth.LoginAsWritten(s, WebAuth.Settle(LoginBody(data)), decodeUser);
            r.error == Some(WebAuth.MISSING_TOKEN_MESSAGE) && r.storage == s.storage && r.user == s.user
  {
  }

  /** Reading `accessToken`, the browser stores exactly the token the server signed. */
  lemma ClientLoginStoresServerToken(s: WebAuth.AuthState, data: AuthController.LoginData, decodeUser: Option<Json> -> Option<WebAuth.ClientUser>)
    requires data.accessToken != ""
    ensures var r := WebAuth.Login(s, WebAuth.Settle(LoginBody(data)), decodeUser);
            r.error.None? && AUTH_TOKEN_KEY in r.storage && r.storage[AUTH_TOKEN_KEY] == data.accessToken
  {
  }

  /** The user object `getCurrentUser` answers with; an absent profile field is left out, as JSON does with `undefined`. */
  function UserJson(v: AuthController.UserView): Json {
    var base := map["id" := JStr(v.id), "email" := JStr(v.email), "emailVerified" := JBool(v.emailVerified)];
    var withFirst := if v.firstName.Some? then base["firstName" := JStr(v.firstName.value)] else base;
    var withLast := if v.lastName.Some? then withFirst["lastName" := JStr(v.lastName.value)] else withFirst;
    JObj(if v.avatarUrl.Some? then withLast["avatarUrl" := JStr(v.avatarUrl.value)] else withLast)
  }

  /** The body of a successful `/auth/me`: the user wrapped in a `user` member of `data`. */
  function MeBody(v: AuthController.UserView): Json {
    JObj(map["status" := JStr("success"), "data" := JObj(map["user" := UserJson(v)])])
  }

  /** As written, the start-up check adopts the wrapper `{ user: {...} }` as the user:
      the object it hands on has no `id`, `email`, `roles` or `permissions` member. */
  lemma StartUpAsWrittenAdoptsWrapper(s: WebAuth.AuthState, v: AuthController.UserView,
                                      decodeUser: Option<Json> -> Option<WebAuth.ClientUser>)
    requires Truthy(GetItem(s.storage, AUTH_TOKEN_KEY))
    ensures var r := WebAuth.CheckAuthAsWritten(s, WebAuth.Settle(MeBody(v)), decodeUser);
            && r.user == decodeUser(Some(JObj(map["user" := UserJson(v)])))
            && Field(Unwrap(MeBody(v)), "id").None? && Field(Unwrap(MeBody(v)), "email").None?
            && Field(Unwrap(MeBody(v)), "roles").None? && Field(Unwrap(MeBody(v)), "permissions").None?
  {
  }

  /** Adopting the `user` member, the start-up check hands on the very user the server described. */
  lemma StartUpAdoptsServerUser(s: WebAuth.AuthState, v: AuthController.UserView,
                                decodeUser: Option<Json> -> Option<WebAuth.ClientUser>)
    requires Truthy(GetItem(s.storage, AUTH_TOKEN_KEY))
    ensures var r := WebAuth.CheckAuth(s, WebAuth.Settle(MeBody(v)), decodeUser);
            && r.user == decodeUser(Some(UserJson(v)))
            && Field(Some(UserJson(v)), "id") == Some(JStr(v.id))
            && Field(Some(UserJson(v)), "email") == Some(JStr(v.email))
  {
  }

  /** The header the browser then sends carries the token in a form `authenticate` extracts unchanged. */
  lemma StoredTokenExtracted(headers: map<string, string>, b: Browser, apiHostname: string, ip: string)
    requires AUTH_TOKEN_KEY in b.storage && b.storage[AUTH_TOKEN_KEY] != ""
    requires ' ' !in b.storage[AUTH_TOKEN_KEY]
    ensures AuthMiddleware.BearerToken(Deliver(RequestHeaders(headers, Some(b)), apiHostname, ip).authorization)
         == Some(b.storage[AUTH_TOKEN_KEY])
  {
    AuthMiddleware.BearerRoundTrip(b.storage[AUTH_TOKEN_KEY]);
  }

  /** jsonwebtoken's round trip, for tokens that have not expired: verifying a token
      the signer produced with the key it was signed with gives back its claims. */
  ghost predicate SignedTokensVerify(sign: (TokenPayload, string, string) -> Option<string>, verify: (string, string) -> AuthMiddleware.Verification) {
    forall p: TokenPayload, k: string, e: string :: sign(p, k, e).Some? ==> verify(sign(p, k, e).value, k) == AuthMiddleware.Verified(p)
  }

  /** jsonwebtoken's signature check: a token verified with any key other than the one
      it was signed with is refused as a `JsonWebTokenError("invalid signature")`. */
  ghost predicate ForeignKeysRefused(sign: (TokenPayload, string, string) -> Option<string>, verify: (string, string) -> AuthMiddleware.Verification) {
    forall p: TokenPayload, k: string, k': string, e: string :: k != k' && sign(p, k, e).Some? ==>
      verify(sign(p, k, e).value, k') == AuthMiddleware.Rejected(AuthMiddleware.JsonWebTokenError("invalid signature"))
  }

  /** The key `authenticate` verifies with is, once corrected, the key the login controller signs with. */
  lemma SecretsAgree(env: Env)
    ensures AuthMiddleware.VerifyingSecret(env) == AuthController.SigningSecret(env)
    ensures AuthMiddleware.VerifyingSecretAsWritten(env) == AuthController.SigningSecret(env) <==> Truthy(env.jwtSecret)
  {
  }

  /** A token the server just issued, presented back while the verifier still accepts
      what the signer produced, authenticates the very user who logged in; with
      JWT_SECRET set, the code as written does the same. */
  lemma IssuedTokenAuthenticates(
    loginReq: Request, env: Env, email: string, password: string,
    users: seq<User>, organizations: seq<Organization>,
    compare: (string, string) -> bool, sign: (TokenPayload, string, string) -> Option<string>, now: int,
    verify: (string, string) -> AuthMiddleware.Verification, req: Request)
    requires AuthController.Login(loginReq, env, email, password, users, organizations, compare, sign, now, true).result.LoggedIn?
    requires SignedTokensVerify(sign, verify)
    requires AuthMiddleware.BearerToken(req.authorization)
          == Some(AuthController.Login(loginReq, env, email, password, users, organizations, compare, sign, now, true).result.data.accessToken)
    ensures var out := AuthController.Login(loginReq, env, email, password, users, organizations, compare, sign, now, true);
            var r := AuthMiddleware.Authenticate(req, env, verify, out.users, true);
            r.Pass? && r.req.user.Some? && r.req.user.value.email == email && r.req.user.value.id == out.result.data.user.id
            && (Truthy(env.jwtSecret) ==> AuthMiddleware.AuthenticateAsWritten(req, env, verify, out.users, true) == r)
  {
    var out := AuthController.Login(loginReq, env, email, password, users, organizations, compare, sign, now, true);
    var tid := loginReq.tenantId.value;
    var u := AuthController.FindLoginUser(users, email, organizations, tid).value;
    var k :| 0 <= k < |users| && users[k] == u;
    var refreshed := u.(loginAttempts := 0, lastLoginAt := Some(now));
    AuthMiddleware.FindReplacedUser(users, refreshed, k);
    SecretsAgree(env);
    assert verify(out.result.data.accessToken, AuthMiddleware.VerifyingSecret(env)) == AuthMiddleware.Verified(AuthController.Claims(u, tid));
  }

  /** As written, with JWT_SECRET unset the controller signs with one fallback key and
      `authenticate` verifies with another, so the token a login just issued is refused
      as invalid: no request after a login is authenticated. */
  lemma DefaultSecretsRefuseIssuedTokens(
    loginReq: Request, env: Env, email: string, password: string,
    users: seq<User>, organizations: seq<Organization>,
    compare: (string, string) -> bool, sign: (TokenPayload, string, string) -> Option<string>, now: int,
    verify: (string, string) -> AuthMiddleware.Verification, req: Request)
    requires !Truthy(env.jwtSecret)
    requires ForeignKeysRefused(sign, verify)
    requires AuthController.Login(loginReq, env, email, password, users, organizations, compare, sign, now, true).result.LoggedIn?
    requires AuthMiddleware.BearerToken(req.authorization)
          == Some(AuthController.Login(loginReq, env, email, password, users, organizations, compare, sign, now, true).result.data.accessToken)
    ensures var out := AuthController.Login(loginReq, env, email, password, users, organizations, compare, sign, now, true);
            var r := AuthMiddleware.AuthenticateAsWritten(req, env, verify, out.users, true);
            r == Fail(AuthMiddleware.TokenInvalid("invalid signature")) && AuthMiddleware.Status(r.error) == 401
  {
    var out := AuthController.Login(loginReq, env, email, password, users, organizations, compare, sign, now, true);
    var tid := loginReq.tenantId.value;
    var u := AuthController.FindLoginUser(users, email, organizations, tid).value;
    assert Some(out.result.data.accessToken) == sign(AuthController.Claims(u, tid), DEFAULT_JWT_SECRET, AuthController.AccessTokenExpiry(env));
    assert AuthMiddleware.VerifyingSecretAsWritten(env) != DEFAULT_JWT_SECRET;
  }

  /** The whole round trip, with the browser reading `accessToken`: log in on the server,
      store the answer in the browser, send the next request, and be recognised. */
  lemma SessionRoundTrip(
    loginReq: Request, env: Env, email: string, password: string,
    users: seq<User>, organizations: seq<Organization>,
    compare: (string, string) -> bool, sign: (TokenPayload, string, string) -> Option<string>, now: int,
    verify: (string, string) -> AuthMiddleware.Verification,
    s: WebAuth.AuthState, decodeUser: Option<Json> -> Option<WebAuth.ClientUser>,
    headers: map<string, string>, b: Browser, apiHostname: string, ip: string)
    requires AuthController.Login(loginReq, env, email, password, users, organizations, compare, sign, now, true).result.LoggedIn?
    requires var token := AuthController.Login(loginReq, env, email, password, users, organizations, compare, sign, now, true).result.data.accessToken;
             token != "" && ' ' !in token
    requires SignedTokensVerify(sign, verify)
    ensures var out := AuthController.Login(loginReq, env, email, password, users, organizations, compare, sign, now, true);
            var client := WebAuth.Login(s, WebAuth.Settle(LoginBody(out.result.data)), decodeUser);
            var req := Deliver(RequestHeaders(headers, Some(b.(storage := client.storage))), apiHostname, ip);
            var r := AuthMiddleware.Authenticate(req, env, verify, out.users, true);
            r.Pass? && r.req.user.Some? && r.req.user.value.email == email
  {
    var out := AuthController.Login(loginReq, env, email, password, users, organizations, compare, sign, now, true);
    var client := WebAuth.Login(s, WebAuth.Settle(LoginBody(out.result.data)), decodeUser);
    ClientLoginStoresServerToken(s, out.result.data, decodeUser);
    var b' := b.(storage := client.storage);
    StoredTokenExtracted(headers, b', apiHostname, ip);
    IssuedTokenAuthenticates(loginReq, env, email, password, users, organizations, compare, sign, now, verify,
                             Deliver(RequestHeaders(headers, Some(b')), apiHostname, ip));
  }

  /** `logout` revokes nothing: every request `authenticate` answered before it is
      answered alike after it, and no token becomes blacklisted. */
  lemma LogoutRevokesNothing(req: Request, env: Env, verify: (string, string) -> AuthMiddleware.Verification, users: seq<User>,
                             cache: RedisService.Client, reachable: bool, token: string)
    ensures var out := AuthController.Logout(users, cache);
            AuthMiddleware.Authenticate(req, env, verify, out.users, reachable) == AuthMiddleware.Authenticate(req, env, verify, users, reachable)
            && RedisService.IsTokenBlacklisted(out.cache, token) == RedisService.IsTokenBlacklisted(cache, token)
  {
  }

  /** Behind `authenticate`, `getCurrentUser` describes exactly the user the token names,
      as stored: its id, email and verification flag, and its profile fields. */
  lemma CurrentUserIsTokenSubject(req: Request, env: Env, verify: (string, string) -> AuthMiddleware.Verification, users: seq<User>, reachable: bool)
    requires AuthMiddleware.Authenticate(req, env, verify, users, reachable).Pass?
    ensures var claims := verify(AuthMiddleware.BearerToken(req.authorization).value, AuthMiddleware.VerifyingSecret(env)).payload;
            var cur := AuthController.GetCurrentUser(AuthMiddleware.Authenticate(req, env, verify, users, reachable).req);
            AuthMiddleware.FindUser(users, claims.userId).Some?
            && var u := AuthMiddleware.FindUser(users, claims.userId).value;
            cur == AuthController.Current(AuthController.UserView(
                     u.id, u.email,
                     if u.profile.Some? then Some(u.profile.value.firstName) else None,
                     if u.profile.Some? then Some(u.profile.value.lastName) else None,
                     if u.profile.Some? then u.profile.value.avatarUrl else None,
                     u.emailVerified))
            && u.id == claims.userId
  {
  }

  /** The denial message names the permission that was wanted. */
  lemma DenialNamesPermission(permission: string)
    ensures Includes(AuthMiddleware.Message(AuthMiddleware.PermissionDenied(permission)), permission)
  {
    var m := AuthMiddleware.Message(AuthMiddleware.PermissionDenied(permission));
    var lead := "Accès refusé. Permission '";
    assert m[|lead|..][..|permission|] == permission;
  }

  /** An authenticated user without roles holds no permission: every guarded route
      answers 403 with a message naming the permission it wanted. */
  lemma RolelessUserDenied(req: Request, env: Env, verify: (string, string) -> AuthMiddleware.Verification, users: seq<User>, permission: string)
    requires AuthMiddleware.Authenticate(req, env, verify, users, true).Pass?
    requires AuthMiddleware.Authenticate(req, env, verify, users, true).req.user.value.roles == []
    ensures var r := AuthMiddleware.CheckPermission(AuthMiddleware.Authenticate(req, env, verify, users, true).req, permission);
            r == Fail(AuthMiddleware.PermissionDenied(permission))
            && AuthMiddleware.Status(r.error) == 403
            && Includes(AuthMiddleware.Message(r.error), permission)
  {
    var authed := AuthMiddleware.Authenticate(req, env, verify, users, true).req;
    AuthMiddleware.AuthenticatedCarriesPermissions(req, env, verify, users, true);
    assert authed.permissions == Some(AuthMiddleware.EffectivePermissions([]));
    DenialNamesPermission(permission);
  }
}

=== FILE: planner_store.dfy ===
/** The planning store behind the stage controller
    (apps/api/src/controllers/stageplanner.controller.ts): locations, events and
    their assignments, technical teams and their memberships, with the scope
    guard every handler starts with and the errors the handlers answer. */
module PlannerStore {

  import opened Common
  import opened Domain

  /** The event type every stage handler creates and filters on. */
  const STAGE_EVENT: string := "STAGE_EVENT"

  datatype EventStatus = Draft | Published | Confirmed | Cancelled | Completed {
    /** COMPLETED and CANCELLED events can no longer be modified, published or cancelled. */
    predicate Terminal() {
      this == Completed || this == Cancelled
    }
  }

  datatype AssignmentStatus = Pending | Accepted | Declined | AssignmentCancelled

  /** A venue owned by one organization. */
  datatype Location = Location(id: string, organizationId: string)

  datatype Event = Event(
    id: string,
    organizationId: string,
    eventType: string,
    title: string,
    description: Option<string>,
    startDate: int,
    endDate: int,
    status: EventStatus,
    locationId: Option<string>,
    notes: Option<string>,
    createdById: string,
    updatedById: Option<string>,
    updatedAt: Option<int>)

  /** A person booked on an event. */
  datatype Assignment = Assignment(eventId: string, userId: string, status: AssignmentStatus, updatedAt: Option<int>)

  datatype Team = Team(
    id: string,
    organizationId: string,
    name: string,
    description: Option<string>,
    teamType: string,
    managerId: Option<string>,
    createdById: string,
    updatedById: Option<string>,
    updatedAt: Option<int>)

  /** One membership record of a user in a team. */
  datatype TeamMember = TeamMember(teamId: string, userId: string, role: Option<string>, specialty: Option<string>, joinedAt: Option<int>)

  /** The tables the stage handlers read and write, in row order. */
  datatype Store = Store(
    organizations: seq<Organization>,
    users: seq<User>,
    locations: seq<Location>,
    events: seq<Event>,
    assignments: seq<Assignment>,
    teams: seq<Team>,
    members: seq<TeamMember>)

  /** The tenant and organization a handler works in. */
  datatype Scope = Scope(tenantId: string, organizationId: string)

  datatype StageError =
    | ScopeRequired
    | ScopeAndUserRequired
    | EventNotFound
    | LocationNotFound
    | LocationNotFoundForUpdate
    | EventNotEditable
    | EventNotDraft
    | EventNotCancellable
    | TeamNotFound
    | ManagerNotFound
    | ManagerNotFoundForUpdate
    | MemberUserNotFound
    | AlreadyMember
    | NotAMember

  /** HTTP status answered for each refusal. */
  function Status(e: StageError): nat {
    match e
    case EventNotFound => 404
    case TeamNotFound => 404
    case MemberUserNotFound => 404
    case NotAMember => 404
    case _ => 400
  }

  /** Message body answered for each refusal. */
  function Message(e: StageError): string {
    match e
    case ScopeRequired => "Tenant ID et Organization ID requis"
    case ScopeAndUserRequired => "Tenant ID, Organization ID et User ID requis"
    case EventNotFound => "Événement non trouvé"
    case LocationNotFound => "Emplacement non trouvé"
    case LocationNotFoundForUpdate => "Emplacement non trouvé pour la mise à jour"
    case EventNotEditable => "Impossible de modifier un événement terminé ou annulé"
    case EventNotDraft => "Seuls les événements en brouillon peuvent être publiés"
    case EventNotCancellable => "Impossible d'annuler un événement déjà terminé ou annulé"
    case TeamNotFound => "Équipe technique non trouvée"
    case ManagerNotFound => "Manager non trouvé"
    case ManagerNotFoundForUpdate => "Manager non trouvé pour la mise à jour"
    case MemberUserNotFound => "Utilisateur non trouvé"
    case AlreadyMember => "L'utilisateur est déjà membre de cette équipe"
    case NotAMember => "Utilisateur non membre de cette équipe"
  }

  /** What a handler answers: a value and the store after it, or a refusal that writes nothing. */
  datatype Outcome<+T> = Done(value: T, store: Store) | Refused(error: StageError)

  /** The guard of every handler: a truthy tenant id and organization id on the request. */
  function ScopeOf(req: Request): (r: Option<Scope>)
    ensures r.Some? <==> Truthy(req.tenantId) && Truthy(req.organizationId)
    ensures r.Some? ==> r.value == Scope(req.tenantId.value, req.organizationId.value)
  {
    if Truthy(req.tenantId) && Truthy(req.organizationId) then Some(Scope(req.tenantId.value, req.organizationId.value))
    else None
  }

  /** `req.user?.id` when truthy: the acting user of the mutating handlers. */
  function ActorOf(req: Request): (r: Option<string>)
    ensures r.Some? <==> req.user.Some? && req.user.value.id != ""
    ensures r.Some? ==> r.value == req.user.value.id
  {
    if req.user.Some? && req.user.value.id != "" then Some(req.user.value.id) else None
  }

  /** The relation filter `organization: { tenantId, id: organizationId }`: the organization exists in the tenant. */
  predicate OrganizationInTenant(organizations: seq<Organization>, s: Scope) {
    exists i :: 0 <= i < |organizations| && organizations[i].id == s.organizationId && organizations[i].tenantId == s.tenantId
  }

  /** A user of the scope's organization (`user.findFirst({ where: { id, organizationId } })`). */
  predicate UserInOrganization(users: seq<User>, id: string, organizationId: string) {
    exists i :: 0 <= i < |users| && users[i].id == id && users[i].organizationId == organizationId
  }

  /** A location of the scope's organization. */
  predicate LocationInOrganization(locations: seq<Location>, id: string, organizationId: string) {
    Location(id, organizationId) in locations
  }

  /** Organization ids are unique. */
  predicate WellFormedOrganizations(organizations: seq<Organization>) {
    forall i, j :: 0 <= i < |organizations| && 0 <= j < |organizations| && organizations[i].id == organizations[j].id ==> i == j
  }

  /** With unique organization ids, an organization belongs to at most one tenant. */
  lemma OrganizationInOneTenant(organizations: seq<Organization>, organizationId: string, t1: string, t2: string)
    requires WellFormedOrganizations(organizations)
    requires OrganizationInTenant(organizations, Scope(t1, organizationId))
    requires OrganizationInTenant(organizations, Scope(t2, organizationId))
    ensures t1 == t2
  {
    var i :| 0 <= i < |organizations| && organizations[i].id == organizationId && organizations[i].tenantId == t1;
    var j :| 0 <= j < |organizations| && organizations[j].id == organizationId && organizations[j].tenantId == t2;
  }
}

=== FILE: rate_limiter.dfy ===
/** The rate-limiter factory (apps/api/src/middlewares/rate-limiter.middleware.ts):
    caller options are merged over the defaults key by key, the Redis store is
    chosen only when asked for and ready, and requests are keyed by IP, or by
    tenant and IP once a tenant is attached. The counting itself belongs to
    the rate-limiting library and is not part of this model. */
module RateLimiter {

  import opened Common
  import opened Strings
  import opened Domain

  /** Fifteen minutes, in milliseconds. */
  const FIFTEEN_MINUTES: int := 15 * 60 * 1000

  /** One hour, in milliseconds. */
  const ONE_HOUR: int := 60 * 60 * 1000

  /** The body answered to a client over its limit: `{ status, message }`. */
  datatype LimitBody = LimitBody(status: string, message: string)

  /** The `message` option: a plain string, answered as text, or an object, answered as JSON. */
  datatype LimitMessage = PlainText(text: string) | Body(body: LimitBody)

  const DEFAULT_MESSAGE: LimitMessage :=
    Body(LimitBody("error", "Trop de requêtes effectuées depuis cette IP, veuillez réessayer après 15 minutes."))
  const STRICT_MESSAGE: LimitMessage :=
    Body(LimitBody("error", "Trop de tentatives pour cette opération. Veuillez réessayer plus tard."))
  const TENANT_CREATION_MESSAGE: LimitMessage :=
    Body(LimitBody("error", "Trop de tentatives de création de compte. Veuillez réessayer plus tard."))

  /** Whether the shared Redis client is ready when the module-level limiters are built:
      they are built as the module is first imported, in the same turn that constructs
      the client, whose connection is only started there and completes later. */
  const REDIS_READY_AT_IMPORT: bool := false

  /** Where keys come from: the factory's default generator, or one the caller supplied. */
  datatype KeySource = DefaultKeys | CallerKeys

  /** The options a caller may pass; `None` is an option left out. */
  datatype LimiterOptions = LimiterOptions(
    windowMs: Option<int>,
    max: Option<int>,
    message: Option<LimitMessage>,
    standardHeaders: Option<bool>,
    legacyHeaders: Option<bool>,
    useRedis: Option<bool>,
    prefix: Option<string>,
    keyGenerator: Option<KeySource>)

  /** No options at all. */
  const NO_OPTIONS: LimiterOptions := LimiterOptions(None, None, None, None, None, None, None, None)

  /** Only a window, a maximum and a message, as every caller in the code base passes. */
  function WindowOptions(windowMs: int, max: int, message: LimitMessage): LimiterOptions {
    LimiterOptions(Some(windowMs), Some(max), Some(message), None, None, None, None, None)
  }

  datatype CounterStore = MemoryStore | RedisStore(prefix: string)

  /** The configuration handed to the rate-limiting library. */
  datatype LimiterConfig = LimiterConfig(
    windowMs: int,
    max: int,
    message: LimitMessage,
    standardHeaders: bool,
    legacyHeaders: bool,
    useRedis: bool,
    prefix: string,
    store: CounterStore,
    keys: KeySource)

  /** `rateLimiter(options)`: `{ ...defaults, ...options }`, then the store and key generator. */
  function RateLimiter(options: LimiterOptions, production: bool, redisReady: bool): (r: LimiterConfig)
    ensures r.windowMs == options.windowMs.GetOr(FIFTEEN_MINUTES)
    ensures r.max == options.max.GetOr(100)
    ensures r.message == options.message.GetOr(DEFAULT_MESSAGE)
    ensures r.useRedis == options.useRedis.GetOr(production)
    ensures r.prefix == options.prefix.GetOr("rl")
    ensures r.standardHeaders == options.standardHeaders.GetOr(true)
    ensures r.legacyHeaders == options.legacyHeaders.GetOr(false)
    ensures r.store.RedisStore? <==> r.useRedis && redisReady
    ensures r.store.RedisStore? ==> r.store.prefix == r.prefix
    ensures WarnsRedisNotReady(r) <==> r.useRedis && !redisReady
    ensures options.keyGenerator.Some? ==> r.keys == options.keyGenerator.value
    ensures options.keyGenerator.None? ==> r.keys == DefaultKeys
  {
    var useRedis := options.useRedis.GetOr(production);
    var prefix := options.prefix.GetOr("rl");
    LimiterConfig(
      options.windowMs.GetOr(FIFTEEN_MINUTES),
      options.max.GetOr(100),
      options.message.GetOr(DEFAULT_MESSAGE),
      options.standardHeaders.GetOr(true), options.legacyHeaders.GetOr(false), useRedis, prefix,
      if useRedis && redisReady then RedisStore(prefix) else MemoryStore,
      options.keyGenerator.GetOr(DefaultKeys))
  }

  /** The factory warns that Redis is wanted but not ready, and counts in memory. */
  predicate WarnsRedisNotReady(config: LimiterConfig) {
    config.useRedis && config.store.MemoryStore?
  }

  /** The default key: the client IP, prefixed by the tenant and a colon once a tenant is attached. */
  function DefaultKey(req: Request): (key: string)
    ensures !Truthy(req.tenantId) ==> key == req.ip
    ensures Truthy(req.tenantId) ==> key == req.tenantId.value + ":" + req.ip
  {
    if Truthy(req.tenantId) then req.tenantId.value + ":" + req.ip else req.ip
  }

  /** The key a configured limiter counts a request under; `custom` is the caller's generator. */
  function KeyFor(config: LimiterConfig, req: Request, custom: Request -> string): (key: string)
    ensures config.keys == CallerKeys ==> key == custom(req)
    ensures config.keys == DefaultKeys && !Truthy(req.tenantId) ==> key == req.ip
    ensures config.keys == DefaultKeys && Truthy(req.tenantId) ==> key == req.tenantId.value + ":" + req.ip
  {
    match config.keys
    case DefaultKeys => DefaultKey(req)
    case CallerKeys => custom(req)
  }

  /** A tenant key can be read back: the text before the first colon is the tenant, the rest the IP. */
  lemma TenantKeyDecodes(tenantId: string, ip: string)
    requires ':' !in tenantId
    ensures var key := tenantId + ":" + ip;
            FirstField(key, ':') == tenantId && key[|tenantId| + 1..] == ip
  {
    FirstFieldOfJoined(tenantId, ':', ip);
    assert tenantId + ":" + ip == tenantId + [':'] + ip;
  }

  /** Two distinct colon-free tenants behind the same IP are counted under distinct keys,
      and so are two IPs of the same tenant. */
  lemma TenantKeysDistinct(r1: Request, r2: Request)
    requires Truthy(r1.tenantId) && Truthy(r2.tenantId)
    requires ':' !in r1.tenantId.value && ':' !in r2.tenantId.value
    requires r1.tenantId != r2.tenantId || r1.ip != r2.ip
    ensures DefaultKey(r1) != DefaultKey(r2)
  {
    TenantKeyDecodes(r1.tenantId.value, r1.ip);
    TenantKeyDecodes(r2.tenantId.value, r2.ip);
  }

  /** `defaultApiLimiter`: the defaults, built at import, so always counted in memory;
      in production the factory warns that Redis is not ready. */
  function DefaultApiLimiter(production: bool): (r: LimiterConfig)
    ensures r.windowMs == 900000 && r.max == 100 && r.message == DEFAULT_MESSAGE && r.keys == DefaultKeys
    ensures r.useRedis == production && r.prefix == "rl"
    ensures r.store == MemoryStore
    ensures WarnsRedisNotReady(r) <==> production
  {
    RateLimiter(NO_OPTIONS, production, REDIS_READY_AT_IMPORT)
  }

  /** `strictOperationLimiter`: 10 requests per 15 minutes, built at import like the default one. */
  function StrictOperationLimiter(production: bool): (r: LimiterConfig)
    ensures r.windowMs == 900000 && r.max == 10 && r.message == STRICT_MESSAGE && r.keys == DefaultKeys
    ensures r.useRedis == production && r.prefix == "rl"
    ensures r.store == MemoryStore
    ensures WarnsRedisNotReady(r) <==> production
  {
    RateLimiter(WindowOptions(FIFTEEN_MINUTES, 10, STRICT_MESSAGE), production, REDIS_READY_AT_IMPORT)
  }

  /** `tenantCreationLimiter`: 5 requests per hour, built at import like the default one. */
  function TenantCreationLimiter(production: bool): (r: LimiterConfig)
    ensures r.windowMs == 3600000 && r.max == 5 && r.message == TENANT_CREATION_MESSAGE && r.keys == DefaultKeys
    ensures r.useRedis == production && r.prefix == "rl"
    ensures r.store == MemoryStore
    ensures WarnsRedisNotReady(r) <==> production
  {
    RateLimiter(WindowOptions(ONE_HOUR, 5, TENANT_CREATION_MESSAGE), production, REDIS_READY_AT_IMPORT)
  }

  /** The limiters of the authentication routes, built as the routes are declared, with
      plain-string messages that replace the default `{ status, message }` object. */
  function LoginRouteLimiter(production: bool): (r: LimiterConfig)
    ensures r.windowMs == 900000 && r.max == 10 && r.keys == DefaultKeys
    ensures r.message == PlainText("Trop de tentatives de connexion, veuillez réessayer plus tard")
    ensures r.standardHeaders && !r.legacyHeaders && r.store == MemoryStore
  {
    RateLimiter(WindowOptions(FIFTEEN_MINUTES, 10, PlainText("Trop de tentatives de connexion, veuillez réessayer plus tard")),
                production, REDIS_READY_AT_IMPORT)
  }

  function ForgotPasswordRouteLimiter(production: bool): (r: LimiterConfig)
    ensures r.windowMs == 3600000 && r.max == 3 && r.keys == DefaultKeys
    ensures r.message == PlainText("Trop de demandes de réinitialisation, veuillez réessayer plus tard")
    ensures r.standardHeaders && !r.legacyHeaders && r.store == MemoryStore
  {
    RateLimiter(WindowOptions(ONE_HOUR, 3, PlainText("Trop de demandes de réinitialisation, veuillez réessayer plus tard")),
                production, REDIS_READY_AT_IMPORT)
  }

  function RegisterTenantRouteLimiter(production: bool): (r: LimiterConfig)
    ensures r.windowMs == 3600000 && r.max == 5 && r.keys == DefaultKeys
    ensures r.message == PlainText("Trop de tentatives d'inscription, veuillez réessayer plus tard")
    ensures r.standardHeaders && !r.legacyHeaders && r.store == MemoryStore
  {
    RateLimiter(WindowOptions(ONE_HOUR, 5, PlainText("Trop de tentatives d'inscription, veuillez réessayer plus tard")),
                production, REDIS_READY_AT_IMPORT)
  }
}

=== FILE: redis_service.dfy ===
/** The key-value service (apps/api/src/services/redis.service.ts) as a map from
    full keys to entries plus the client's readiness. Every command first tests
    readiness and, when the client is not ready, answers null / false / 0 without
    touching the store. Expiry is kept as the TTL last given; the passing of time
    is not part of this model. */
module RedisService {

  import opened Common
  import opened Strings

  const DEFAULT_TTL: int := 3600
  const DEFAULT_KEY_PREFIX: string := "planner-suite:"

  const CACHE_PREFIX: string := DEFAULT_KEY_PREFIX + "cache:"
  const SESSION_PREFIX: string := DEFAULT_KEY_PREFIX + "session:"
  const RATE_LIMIT_PREFIX: string := DEFAULT_KEY_PREFIX + "rl:"
  const BLACKLIST_PREFIX: string := DEFAULT_KEY_PREFIX + "blacklist:"
  const LOCKS_PREFIX: string := DEFAULT_KEY_PREFIX + "locks:"

  /** Bounds of the store's signed 64-bit counters. */
  const INT64_MIN: int := -0x8000_0000_0000_0000
  const INT64_MAX: int := 0x7FFF_FFFF_FFFF_FFFF

  /** A stored string and its time to live in seconds, if any. */
  datatype Entry = Entry(value: string, ttl: Option<int>)

  /** `isReady` (connected and the client ready) and the store's contents. */
  datatype Client = Client(ready: bool, entries: map<string, Entry>)

  /** A command's answer and the store after it. */
  datatype Reply<T> = Reply(value: T, client: Client)

  /** A value handed to `set`: a string, an integer-valued number, or an object. */
  datatype Stored<O> = Text(text: string) | Number(n: int) | Object(obj: O)

  /** `{ ttl?, prefix? }`. */
  datatype CacheOptions = CacheOptions(ttl: Option<int>, prefix: Option<string>)

  /** `getKey`: the prefix, or the default prefix when it is missing or empty, then the key. */
  function GetKey(key: string, prefix: Option<string>): (r: string)
    ensures Truthy(prefix) ==> r == prefix.value + key
    ensures !Truthy(prefix) ==> r == DEFAULT_KEY_PREFIX + key
  {
    (if Truthy(prefix) then prefix.value else DEFAULT_KEY_PREFIX) + key
  }

  /** Every named prefix extends the default one: a prefixed key is the default-prefixed key "<name>:key". */
  lemma NamedPrefixesExtendDefault(key: string)
    ensures GetKey(key, Some(CACHE_PREFIX)) == GetKey("cache:" + key, None)
    ensures GetKey(key, Some(SESSION_PREFIX)) == GetKey("session:" + key, None)
    ensures GetKey(key, Some(RATE_LIMIT_PREFIX)) == GetKey("rl:" + key, None)
    ensures GetKey(key, Some(BLACKLIST_PREFIX)) == GetKey("blacklist:" + key, None)
    ensures GetKey(key, Some(LOCKS_PREFIX)) == GetKey("locks:" + key, None)
  {
  }

  /** Under one prefix, distinct keys have distinct full keys. */
  lemma GetKeyInjective(k1: string, k2: string, prefix: Option<string>)
    requires k1 != k2
    ensures GetKey(k1, prefix) != GetKey(k2, prefix)
  {
    var p := if Truthy(prefix) then prefix.value else DEFAULT_KEY_PREFIX;
    assert GetKey(k1, prefix)[|p|..] == k1;
    assert GetKey(k2, prefix)[|p|..] == k2;
  }

  /** No cached key is ever a blacklist key. */
  lemma CacheAndBlacklistDisjoint(k1: string, k2: string)
    ensures GetKey(k1, Some(CACHE_PREFIX)) != GetKey(k2, Some(BLACKLIST_PREFIX))
  {
    assert GetKey(k1, Some(CACHE_PREFIX))[14] == 'c';
    assert GetKey(k2, Some(BLACKLIST_PREFIX))[14] == 'b';
  }

  /** `get`. */
  function Get(c: Client, key: string, prefix: Option<string>): (r: Option<string>)
    ensures !c.ready ==> r.None?
    ensures c.ready ==> (r.Some? <==> GetKey(key, prefix) in c.entries)
    ensures r.Some? ==> r.value == c.entries[GetKey(key, prefix)].value
  {
    var full := GetKey(key, prefix);
    if c.ready && full in c.entries then Some(c.entries[full].value) else None
  }

  /** `getObject`: the stored string parsed by `parse`; a missing or unparseable value gives null. */
  function GetObject<O>(c: Client, key: string, prefix: Option<string>, parse: string -> Option<O>): (r: Option<O>)
    ensures Get(c, key, prefix).None? ==> r.None?
    ensures Get(c, key, prefix).Some? ==> r == parse(Get(c, key, prefix).value)
  {
    match Get(c, key, prefix)
    case None => None
    case Some(v) => parse(v)
  }

  /** `typeof value === 'object' ? JSON.stringify(value) : String(value)`. */
  function Stringify<O>(v: Stored<O>, stringify: O -> string): (r: string)
    ensures v.Text? ==> r == v.text
    ensures v.Number? ==> ParseInt(r) == Some(v.n)
    ensures v.Object? ==> r == stringify(v.obj)
  {
    match v
    case Text(s) => s
    case Number(n) => ParseIntToString(n); IntToString(n)
    case Object(o) => stringify(o)
  }

  /** `set`: the stringified value under the full key, with the given TTL or one hour.
      The store refuses a TTL that is not positive, which the service reports as false. */
  function Set<O>(c: Client, key: string, value: Stored<O>, options: CacheOptions, stringify: O -> string): (r: Reply<bool>)
    ensures !c.ready ==> r == Reply(false, c)
    ensures r.value <==> c.ready && options.ttl.GetOr(DEFAULT_TTL) > 0
    ensures !r.value ==> r.client == c
    ensures r.value ==>
      && r.client.ready
      && r.client.entries == c.entries[GetKey(key, options.prefix) := Entry(Stringify(value, stringify), Some(options.ttl.GetOr(DEFAULT_TTL)))]
  {
    var ttl := options.ttl.GetOr(DEFAULT_TTL);
    if !c.ready || ttl <= 0 then Reply(false, c)
    else Reply(true, c.(entries := c.entries[GetKey(key, options.prefix) := Entry(Stringify(value, stringify), Some(ttl))]))
  }

  /** `delete`: the number of keys removed, 0 or 1. */
  function Delete(c: Client, key: string, prefix: Option<string>): (r: Reply<nat>)
    ensures !c.ready ==> r == Reply(0, c)
    ensures c.ready ==> (r.value == 1 <==> GetKey(key, prefix) in c.entries)
    ensures r.value <= 1
    ensures r.client.ready == c.ready
    ensures r.client.entries.Keys == c.entries.Keys - (if c.ready then {GetKey(key, prefix)} else {})
    ensures forall k :: k in r.client.entries ==> r.client.entries[k] == c.entries[k]
  {
    var full := GetKey(key, prefix);
    if !c.ready then Reply(0, c)
    else if full in c.entries then Reply(1, c.(entries := c.entries - {full}))
    else Reply(0, c)
  }

  /** `exists`. */
  function Exists(c: Client, key: string, prefix: Option<string>): (r: bool)
    ensures r <==> Get(c, key, prefix).Some?
  {
    c.ready && GetKey(key, prefix) in c.entries
  }

  /** `expire`: false for a missing key; a TTL that is not positive deletes the key at once. */
  function Expire(c: Client, key: string, ttl: int, prefix: Option<string>): (r: Reply<bool>)
    ensures r.value <==> c.ready && GetKey(key, prefix) in c.entries
    ensures !r.value ==> r.client == c
    ensures r.value && ttl <= 0 ==> r.client.entries == c.entries - {GetKey(key, prefix)}
    ensures r.value && ttl > 0 ==>
      r.client.entries == c.entries[GetKey(key, prefix) := c.entries[GetKey(key, prefix)].(ttl := Some(ttl))]
  {
    var full := GetKey(key, prefix);
    if !c.ready || full !in c.entries then Reply(false, c)
    else if ttl <= 0 then Reply(true, c.(entries := c.entries - {full}))
    else Reply(true, c.(entries := c.entries[full := c.entries[full].(ttl := Some(ttl))]))
  }

  /** `expire` never changes what is read: a positive TTL leaves every key readable as before,
      a TTL that is not positive makes exactly that key unreadable, and a missing key
      answers false with nothing changed. */
  lemma ExpireThenGet(c: Client, key: string, ttl: int, prefix: Option<string>, other: string, otherPrefix: Option<string>)
    ensures !Exists(c, key, prefix) ==> Expire(c, key, ttl, prefix) == Reply(false, c)
    ensures ttl > 0 ==> Get(Expire(c, key, ttl, prefix).client, other, otherPrefix) == Get(c, other, otherPrefix)
    ensures ttl <= 0 && Exists(c, key, prefix) ==> !Exists(Expire(c, key, ttl, prefix).client, key, prefix)
    ensures GetKey(other, otherPrefix) != GetKey(key, prefix) ==>
      Get(Expire(c, key, ttl, prefix).client, other, otherPrefix) == Get(c, other, otherPrefix)
  {
  }

  /** The text INCRBY reads: the stored value, or "0" for a missing key. */
  function CounterText(c: Client, key: string, prefix: Option<string>): string {
    if GetKey(key, prefix) in c.entries then c.entries[GetKey(key, prefix)].value else "0"
  }

  /** The delta is a 64-bit integer, and the stored text reads as a 64-bit integer `n`
      from which `n + delta` stays within 64 bits. */
  predicate Countable(text: string, delta: int) {
    INT64_MIN <= delta <= INT64_MAX
    && ParseInt(text).Some? && INT64_MIN <= ParseInt(text).value <= INT64_MAX
    && INT64_MIN <= ParseInt(text).value + delta <= INT64_MAX
  }

  /** The store's INCRBY: a missing key counts as 0 and keeps no TTL; a delta or a value
      that is not a 64-bit integer, or a result outside 64 bits, is an error (null, nothing written). */
  function Counter(c: Client, key: string, delta: int, prefix: Option<string>): (r: Reply<Option<int>>)
    ensures !c.ready ==> r == Reply(None, c)
    ensures c.ready ==> (r.value.Some? <==> Countable(CounterText(c, key, prefix), delta))
    ensures c.ready && Countable(CounterText(c, key, prefix), delta) ==>
      r.value == Some(ParseInt(CounterText(c, key, prefix)).value + delta)
    ensures r.value.None? ==> r.client == c
    ensures r.value.Some? ==> c.ready && r.client.ready
    ensures r.value.Some? && GetKey(key, prefix) !in c.entries ==>
      r.value == Some(delta) && r.client.entries == c.entries[GetKey(key, prefix) := Entry(IntToString(delta), None)]
    ensures r.value.Some? && GetKey(key, prefix) in c.entries ==>
      var e := c.entries[GetKey(key, prefix)];
      ParseInt(e.value).Some? && r.value == Some(ParseInt(e.value).value + delta)
      && r.client.entries == c.entries[GetKey(key, prefix) := e.(value := IntToString(r.value.value))]
    ensures r.value.Some? ==> INT64_MIN <= r.value.value <= INT64_MAX
  {
    var full := GetKey(key, prefix);
    if !c.ready || delta < INT64_MIN || delta > INT64_MAX then Reply(None, c)
    else
      var e := if full in c.entries then c.entries[full] else Entry("0", None);
      match ParseInt(e.value)
      case None => Reply(None, c)
      case Some(n) =>
        if n < INT64_MIN || n > INT64_MAX || n + delta < INT64_MIN || n + delta > INT64_MAX then Reply(None, c)
        else Reply(Some(n + delta), c.(entries := c.entries[full := e.(value := IntToString(n + delta))]))
  }

  /** `increment`: a ready store holding an integer (or nothing, read as 0) answers it raised by `incrementBy`. */
  function Increment(c: Client, key: string, incrementBy: int, prefix: Option<string>): (r: Reply<Option<int>>)
    ensures !c.ready ==> r == Reply(None, c)
    ensures c.ready ==> (r.value.Some? <==> Countable(CounterText(c, key, prefix), incrementBy))
    ensures c.ready && Countable(CounterText(c, key, prefix), incrementBy) ==>
      r.value == Some(ParseInt(CounterText(c, key, prefix)).value + incrementBy)
    ensures r.value.Some? ==> GetKey(key, prefix) in r.client.entries && r.client.entries[GetKey(key, prefix)].value == IntToString(r.value.value)
  {
    Counter(c, key, incrementBy, prefix)
  }

  /** `decrement`: DECRBY takes a 64-bit argument other than the smallest one, whose
      negation would overflow; a ready store holding an integer (or nothing, read as 0)
      answers it lowered by `decrementBy`. */
  function Decrement(c: Client, key: string, decrementBy: int, prefix: Option<string>): (r: Reply<Option<int>>)
    ensures !c.ready ==> r == Reply(None, c)
    ensures decrementBy <= INT64_MIN || decrementBy > INT64_MAX ==> r == Reply(None, c)
    ensures c.ready ==>
      (r.value.Some? <==> INT64_MIN < decrementBy <= INT64_MAX && Countable(CounterText(c, key, prefix), -decrementBy))
    ensures c.ready && INT64_MIN < decrementBy <= INT64_MAX && Countable(CounterText(c, key, prefix), -decrementBy) ==>
      r.value == Some(ParseInt(CounterText(c, key, prefix)).value - decrementBy)
    ensures r.value.Some? ==> GetKey(key, prefix) in r.client.entries && r.client.entries[GetKey(key, prefix)].value == IntToString(r.value.value)
  {
    if decrementBy <= INT64_MIN || decrementBy > INT64_MAX then Reply(None, c)
    else Counter(c, key, -decrementBy, prefix)
  }

  /** Not ready, no command reaches the store: every operation answers its null value and writes nothing. */
  lemma NotReadyIsInert<O>(c: Client, key: string, prefix: Option<string>, value: Stored<O>, options: CacheOptions,
                           stringify: O -> string, ttl: int, amount: int)
    requires !c.ready
    ensures Get(c, key, prefix) == None
    ensures Set(c, key, value, options, stringify) == Reply(false, c)
    ensures Delete(c, key, prefix) == Reply(0, c)
    ensures !Exists(c, key, prefix)
    ensures Expire(c, key, ttl, prefix) == Reply(false, c)
    ensures Increment(c, key, amount, prefix) == Reply(None, c)
    ensures Decrement(c, key, amount, prefix) == Reply(None, c)
  {
  }

  /** Decrementing by what was just added gives the counter its value back, unless
      what was added is the smallest 64-bit integer, which DECRBY refuses. */
  lemma DecrementUndoesIncrement(c: Client, key: string, amount: int, prefix: Option<string>)
    requires Increment(c, key, amount, prefix).value.Some?
    ensures var up := Increment(c, key, amount, prefix);
            var down := Decrement(up.client, key, amount, prefix);
            amount == INT64_MIN ==> down == Reply(None, up.client)
    ensures var up := Increment(c, key, amount, prefix);
            var down := Decrement(up.client, key, amount, prefix);
            amount != INT64_MIN ==>
            && down.value.Some? && down.value.value == up.value.value - amount
            && (GetKey(key, prefix) in c.entries ==> down.value == ParseInt(c.entries[GetKey(key, prefix)].value))
            && (GetKey(key, prefix) !in c.entries ==> down.value == Some(0))
  {
    var up := Increment(c, key, amount, prefix);
    var full := GetKey(key, prefix);
    ParseIntToString(up.value.value);
    assert up.client.entries[full].value == IntToString(up.value.value);
  }

  /** `blacklistToken`: "1" under the blacklist prefix, expiring after the given seconds. */
  function BlacklistToken(c: Client, token: string, expiryTimeInSeconds: int): (r: Reply<bool>)
    ensures r.value <==> c.ready && expiryTimeInSeconds > 0
    ensures !r.value ==> r.client == c
    ensures r.value ==>
      r.client == c.(entries := c.entries[BLACKLIST_PREFIX + token := Entry("1", Some(expiryTimeInSeconds))])
  {
    Set<()>(c, token, Text("1"), CacheOptions(Some(expiryTimeInSeconds), Some(BLACKLIST_PREFIX)), _ => "")
  }

  /** `isTokenBlacklisted`: the blacklist entry is exactly "1". */
  function IsTokenBlacklisted(c: Client, token: string): (r: bool)
    ensures r ==> c.ready
    ensures r <==> c.ready && GetKey(token, Some(BLACKLIST_PREFIX)) in c.entries
                   && c.entries[GetKey(token, Some(BLACKLIST_PREFIX))].value == "1"
  {
    Get(c, token, Some(BLACKLIST_PREFIX)) == Some("1")
  }

  /** A ready store remembers a blacklisted token; other tokens keep their status. */
  lemma BlacklistRoundTrip(c: Client, token: string, other: string, expiry: int)
    requires c.ready && expiry > 0
    requires other != token
    ensures BlacklistToken(c, token, expiry).value
    ensures IsTokenBlacklisted(BlacklistToken(c, token, expiry).client, token)
    ensures IsTokenBlacklisted(BlacklistToken(c, token, expiry).client, other) == IsTokenBlacklisted(c, other)
  {
    GetKeyInjective(token, other, Some(BLACKLIST_PREFIX));
  }

  /** The blacklist fails open: a store that is not ready reports no token as revoked. */
  lemma BlacklistFailsOpen(c: Client, token: string, expiry: int)
    requires !c.ready
    ensures !BlacklistToken(c, token, expiry).value
    ensures !IsTokenBlacklisted(BlacklistToken(c, token, expiry).client, token)
  {
  }

  /** `setCache`: under the cache prefix, one hour unless told otherwise. */
  function SetCache<O>(c: Client, key: string, data: Stored<O>, ttlInSeconds: int, stringify: O -> string): (r: Reply<bool>)
    ensures r.value <==> c.ready && ttlInSeconds > 0
    ensures !r.value ==> r.client == c
    ensures r.value ==>
      r.client == c.(entries := c.entries[CACHE_PREFIX + key := Entry(Stringify(data, stringify), Some(ttlInSeconds))])
  {
    Set(c, key, data, CacheOptions(Some(ttlInSeconds), Some(CACHE_PREFIX)), stringify)
  }

  /** `getCache`. */
  function GetCache<O>(c: Client, key: string, parse: string -> Option<O>): (r: Option<O>)
    ensures !c.ready ==> r.None?
    ensures GetKey(key, Some(CACHE_PREFIX)) !in c.entries ==> r.None?
    ensures c.ready && CACHE_PREFIX + key in c.entries ==> r == parse(c.entries[CACHE_PREFIX + key].value)
  {
    GetObject(c, key, Some(CACHE_PREFIX), parse)
  }

  /** `invalidateCache`. */
  function InvalidateCache(c: Client, key: string): (r: Reply<nat>)
    ensures r.value == 1 <==> c.ready && CACHE_PREFIX + key in c.entries
    ensures r.value != 1 ==> r.value == 0 && r.client == c
    ensures r.client == c.(entries := c.entries - {CACHE_PREFIX + key}) || r.client == c
  {
    Delete(c, key, Some(CACHE_PREFIX))
  }

  /** An object cached in a ready store reads back as itself whenever parsing inverts stringification. */
  lemma CacheRoundTrip<O>(c: Client, key: string, o: O, ttl: int, stringify: O -> string, parse: string -> Option<O>)
    requires c.ready && ttl > 0
    requires parse(stringify(o)) == Some(o)
    ensures SetCache(c, key, Object(o), ttl, stringify).value
    ensures GetCache(SetCache(c, key, Object(o), ttl, stringify).client, key, parse) == Some(o)
  {
  }

  /** After an invalidation nothing is cached under that key, and no token's blacklist status moved. */
  lemma InvalidateForgets<O>(c: Client, key: string, token: string, parse: string -> Option<O>)
    ensures GetCache(InvalidateCache(c, key).client, key, parse).None?
    ensures IsTokenBlacklisted(InvalidateCache(c, key).client, token) == IsTokenBlacklisted(c, token)
  {
    CacheAndBlacklistDisjoint(key, token);
  }

  /** Caching never changes whether a token is blacklisted. */
  lemma CacheLeavesBlacklist<O>(c: Client, key: string, data: Stored<O>, ttl: int, stringify: O -> string, token: string)
    ensures IsTokenBlacklisted(SetCache(c, key, data, ttl, stringify).client, token) == IsTokenBlacklisted(c, token)
  {
    CacheAndBlacklistDisjoint(key, token);
  }
}

=== FILE: server.dfy ===
/** The application wiring of apps/api/src/index.ts that carries logic: the
    global tenant middleware that runs before every router, the 404 fallback
    for unmatched routes, and the final error handler. */
module Server {

  import opened Common
  import opened Strings
  import opened Domain

  /** Candidate of the global middleware: a truthy x-tenant-id header, else the
      first hostname label unless it is exactly "api" (no "www" rule, no label count). */
  function ServerCandidate(req: Request): (r: Option<string>)
    ensures Truthy(req.tenantHeader) ==> r == req.tenantHeader
    ensures !Truthy(req.tenantHeader) && FirstField(req.hostname, '.') != "api" ==> r == Some(FirstField(req.hostname, '.'))
    ensures !Truthy(req.tenantHeader) && FirstField(req.hostname, '.') == "api" ==> r.None?
  {
    var first := FirstField(req.hostname, '.');
    OrElse(req.tenantHeader, if first != "api" then Some(first) else None)
  }

  /** `tenantMiddleware`: attaches the candidate verbatim, without any lookup;
      an empty or missing candidate leaves the request as it was. */
  function TenantMiddleware(req: Request): (r: Request)
    ensures r == req.(tenantId := r.tenantId)
    ensures Truthy(req.tenantHeader) ==> r.tenantId == req.tenantHeader
    ensures !Truthy(req.tenantHeader) && FirstField(req.hostname, '.') !in {"api", ""} ==>
      r.tenantId == Some(FirstField(req.hostname, '.'))
    ensures !Truthy(req.tenantHeader) && FirstField(req.hostname, '.') in {"api", ""} ==> r == req
  {
    var candidate := ServerCandidate(req);
    if Truthy(candidate) then req.(tenantId := candidate) else req
  }

  /** A JSON error answer: HTTP status and message. */
  datatype Reply = Reply(status: nat, message: string)

  /** The fallback for routes no router matched. */
  function NotFound(httpMethod: string, url: string): (r: Reply)
    ensures r.status == 404
    ensures Includes(r.message, httpMethod) && Includes(r.message, url)
  {
    var msg := "Route " + httpMethod + " " + url + " non trouvée";
    assert msg[6..][..|httpMethod|] == httpMethod;
    assert msg[6 + |httpMethod| + 1..][..|url|] == url;
    Reply(404, msg)
  }

  /** A thrown error reaching the last handler. */
  datatype AppError = AppError(message: string, stack: Option<string>)

  /** Body of the error handler's answer; `stack` is absent when not sent. */
  datatype ErrorReply = ErrorReply(status: nat, message: string, stack: Option<string>)

  /** Generic message answered in production. */
  const INTERNAL_MESSAGE: string := "Une erreur interne est survenue"

  /** The error handler: always 500; production hides the message and the stack. */
  function ErrorHandler(err: AppError, production: bool): (r: ErrorReply)
    ensures r.status == 500
    ensures production ==> r.message == INTERNAL_MESSAGE && r.stack.None?
    ensures !production ==> r.message == err.message && r.stack == err.stack
  {
    ErrorReply(500, if production then INTERNAL_MESSAGE else err.message, if production then None else err.stack)
  }

  /** In production two different errors produce the same answer: nothing of the error leaks. */
  lemma ProductionRevealsNothing(e1: AppError, e2: AppError)
    ensures ErrorHandler(e1, true) == ErrorHandler(e2, true)
  {
  }
}

=== FILE: stage_events.dfy ===
/** The stage-event handlers (apps/api/src/controllers/stageplanner.controller.ts):
    listing with pagination, lookup, creation, partial update, publication,
    cancellation and deletion. An event's life: created DRAFT, published
    DRAFT -> PUBLISHED, cancelled from any non-terminal status; COMPLETED and
    CANCELLED are terminal. Every lookup is confined to the request's
    (tenant, organization) scope and to STAGE_EVENT events. */
module StageEvents {

  import opened Common
  import opened Strings
  import opened Domain
  import opened PlannerStore

  /** An event the scope may see: same organization, organization in the tenant, stage type. */
  predicate EventInScope(store: Store, s: Scope, e: Event) {
    e.organizationId == s.organizationId && OrganizationInTenant(store.organizations, s) && e.eventType == STAGE_EVENT
  }

  /** `event.findFirst({ where: { id, organization: {...}, eventType: STAGE_EVENT } })`. */
  function FindScopedEvent(store: Store, s: Scope, id: string): (r: Option<Event>)
    ensures r.Some? ==> r.value in store.events && r.value.id == id && EventInScope(store, s, r.value)
    ensures r.None? <==> forall i :: 0 <= i < |store.events| ==> !(store.events[i].id == id && EventInScope(store, s, store.events[i]))
  {
    FindFirst(store.events, (e: Event) => e.id == id && EventInScope(store, s, e))
  }

  /** `event.update({ where: { id } })`: the rows with that id become `e`. */
  function WriteEvent(events: seq<Event>, e: Event): (r: seq<Event>)
    ensures |r| == |events|
    ensures forall i :: 0 <= i < |events| ==> r[i] == (if events[i].id == e.id then e else events[i])
  {
    ReplaceWhere(events, (x: Event) => x.id == e.id, e)
  }

  // ---------------------------------------------------------------- listing

  /** The optional filters of the listing query; absent (or falsy) filters do not apply. */
  datatype EventQuery = EventQuery(
    startDate: Option<int>,
    endDate: Option<int>,
    status: Option<EventStatus>,
    locationId: Option<string>)

  /** The where-clause of `getEvents`. */
  predicate Listed(store: Store, s: Scope, q: EventQuery, e: Event) {
    && EventInScope(store, s, e)
    && (q.startDate.Some? ==> e.startDate >= q.startDate.value)
    && (q.endDate.Some? ==> e.endDate <= q.endDate.value)
    && (q.status.Some? ==> e.status == q.status.value)
    && (Truthy(q.locationId) ==> e.locationId == q.locationId)
  }

  /** The events matching the where-clause, in store order. */
  function Matching(store: Store, s: Scope, q: EventQuery, events: seq<Event>): (r: seq<Event>)
    ensures |r| <= |events|
    ensures forall e :: e in r <==> e in events && Listed(store, s, q, e)
  {
    if |events| == 0 then []
    else (if Listed(store, s, q, events[0]) then [events[0]] else []) + Matching(store, s, q, events[1..])
  }

  /** `Math.ceil(total / limit)` as a JSON number: a count, or NaN (0/0), or Infinity (n/0, n > 0). */
  datatype PageCount = Pages(n: int) | NaN | Infinity

  /** The number of pages. For a positive limit it is the least count of
      `limit`-sized pages that holds `total` items. */
  function PageTotal(total: nat, limit: int): (r: PageCount)
    ensures limit == 0 ==> (r == NaN <==> total == 0) && (r == Infinity <==> total > 0)
    ensures limit > 0 ==> r.Pages? && (total == 0 ==> r.n == 0) && (total > 0 ==> (r.n - 1) * limit < total <= r.n * limit)
    ensures limit < 0 ==> r.Pages? && r.n <= 0
  {
    if limit == 0 then (if total == 0 then NaN else Infinity)
    else if limit > 0 then Pages((total + limit - 1) / limit)
    else Pages(-(total / -limit))
  }

  /** The offset of a page: `(page - 1) * limit`. */
  function Skip(page: int, limit: int): (r: int)
    ensures page >= 1 && limit >= 0 ==> r >= 0
    ensures r + limit == page * limit
  {
    assert page >= 1 && limit >= 0 ==> (page - 1) * limit >= 0 * limit;
    (page - 1) * limit
  }

  /** Prisma's `skip` and `take` over the matching rows: the rows from offset `skip`
      on, at most `take` of them. */
  function Window<T>(all: seq<T>, skip: nat, take: nat): (r: seq<T>)
    ensures |r| == (if skip >= |all| then 0 else if skip + take <= |all| then take else |all| - skip)
    ensures forall k :: 0 <= k < |r| ==> r[k] == all[skip + k]
  {
    var from := if skip < |all| then skip else |all|;
    var to := if from + take < |all| then from + take else |all|;
    all[from..to]
  }

  /** With a positive limit, the last page 1 .. PageTotal starts inside the results
      and the page after it starts past their end. */
  lemma PagesCoverResults(total: nat, limit: int)
    requires limit > 0 && total > 0
    ensures var n := PageTotal(total, limit).n;
            n >= 1 && 0 <= Skip(n, limit) < total <= Skip(n + 1, limit)
  {
    var n := PageTotal(total, limit).n;
    assert (n - 1) * limit < total <= n * limit;
    assert Skip(n, limit) >= 0 by {
      assert (n - 1) * limit >= 0 * limit;
    }
  }

  /** The windows of pages 1 .. k, one after the other. */
  function Walk<T>(all: seq<T>, limit: nat, k: nat): seq<T>
    requires limit >= 1
  {
    if k == 0 then [] else Walk(all, limit, k - 1) + Window(all, Skip(k, limit), limit)
  }

  /** Walking k pages lists exactly the first k * limit results, in order. */
  lemma {:induction false} WalkIsPrefix<T>(all: seq<T>, limit: nat, k: nat)
    requires limit >= 1
    ensures Walk(all, limit, k) == all[..if k * limit <= |all| then k * limit else |all|]
  {
    if k > 0 {
      var m := Skip(k, limit);
      WalkIsPrefix(all, limit, k - 1);
      assert (k - 1) * limit == m;
      var a := if m <= |all| then m else |all|;
      var b := if m + limit <= |all| then m + limit else |all|;
      var w := Window(all, m, limit);
      assert w == all[a..b];
      assert all[..a] + all[a..b] == all[..b];
    }
  }

  /** With a positive limit, walking the pages 1 .. PageTotal lists every matching
      event exactly once, in store order. */
  lemma PagesListEveryMatchOnce<T>(all: seq<T>, limit: int)
    requires limit >= 1
    ensures Walk(all, limit, PageTotal(|all|, limit).n) == all
  {
    var n := PageTotal(|all|, limit).n;
    if |all| > 0 {
      PagesCoverResults(|all|, limit);
    }
    WalkIsPrefix(all, limit, n);
    assert n * limit >= |all|;
  }

  /** Pagination metadata of the listing answer. */
  datatype Pagination = Pagination(total: nat, page: int, limit: int, pages: PageCount)

  /** The listing answer: the window the store returns and the metadata. The
      window is given only for page >= 1 and limit >= 1, where skip and take are plain offsets. */
  datatype EventPage = EventPage(events: Option<seq<Event>>, pagination: Pagination)

  /** `getEvents`: page `page` of size `limit` of the events matching the filters in the scope. */
  function GetEvents(req: Request, q: EventQuery, page: int, limit: int, store: Store): (r: Outcome<EventPage>)
    ensures ScopeOf(req).None? <==> r == Refused(ScopeRequired)
    ensures r.Done? ==> r.store == store
    ensures r.Done? ==>
      var all := Matching(store, ScopeOf(req).value, q, store.events);
      && r.value.pagination == Pagination(|all|, page, limit, PageTotal(|all|, limit))
      && (page >= 1 && limit >= 1 <==> r.value.events.Some?)
      && (page >= 1 && limit >= 1 ==> r.value.events == Some(Window(all, Skip(page, limit), limit)))
      && (r.value.events.Some? ==>
            |r.value.events.value| <= limit
            && forall e :: e in r.value.events.value ==> e in store.events && Listed(store, ScopeOf(req).value, q, e))
  {
    match ScopeOf(req)
    case None => Refused(ScopeRequired)
    case Some(s) =>
      var all := Matching(store, s, q, store.events);
      var window :=
        if page >= 1 && limit >= 1 then Some(Window(all, Skip(page, limit), limit)) else None;
      Done(EventPage(window, Pagination(|all|, page, limit, PageTotal(|all|, limit))), store)
  }

  // ---------------------------------------------------------------- lookup

  /** `getEventById`: the event when it is in the scope, else 404. */
  function GetEventById(req: Request, id: string, store: Store): (r: Outcome<Event>)
    ensures ScopeOf(req).None? ==> r == Refused(ScopeRequired)
    ensures ScopeOf(req).Some? ==>
      (r.Done? <==> exists i :: 0 <= i < |store.events| && store.events[i].id == id && EventInScope(store, ScopeOf(req).value, store.events[i]))
    ensures r.Done? ==> r.store == store && r.value in store.events && r.value.id == id && EventInScope(store, ScopeOf(req).value, r.value)
    ensures r.Refused? && ScopeOf(req).Some? ==> r.error == EventNotFound
  {
    match ScopeOf(req)
    case None => Refused(ScopeRequired)
    case Some(s) =>
      match FindScopedEvent(store, s, id)
      case None => Refused(EventNotFound)
      case Some(e) => Done(e, store)
  }

  /** Tenant isolation: an event of an organization that belongs to another tenant is never found. */
  lemma OtherTenantsEventsInvisible(req: Request, store: Store, e: Event, otherTenant: string)
    requires WellFormedOrganizations(store.organizations)
    requires ScopeOf(req).Some? && otherTenant != ScopeOf(req).value.tenantId
    requires OrganizationInTenant(store.organizations, Scope(otherTenant, e.organizationId))
    ensures !(GetEventById(req, e.id, store).Done? && GetEventById(req, e.id, store).value == e)
  {
    var s := ScopeOf(req).value;
    if OrganizationInTenant(store.organizations, Scope(s.tenantId, e.organizationId)) {
      OrganizationInOneTenant(store.organizations, e.organizationId, s.tenantId, otherTenant);
      assert false;
    }
  }

  // ---------------------------------------------------------------- creation

  /** The body of `createEvent`; technical details are not modelled. */
  datatype EventInput = EventInput(title: string, description: Option<string>, startDate: int, endDate: int, locationId: Option<string>)

  /** `createEvent`: a DRAFT stage event of the caller's organization, created by the caller.
      `newId` is the identifier the store generates. */
  function CreateEvent(req: Request, input: EventInput, newId: string, store: Store): (r: Outcome<Event>)
    requires forall i :: 0 <= i < |store.events| ==> store.events[i].id != newId
    ensures ScopeOf(req).None? || ActorOf(req).None? <==> r == Refused(ScopeAndUserRequired)
    ensures ScopeOf(req).Some? && ActorOf(req).Some? && Truthy(input.locationId)
              && !LocationInOrganization(store.locations, input.locationId.value, ScopeOf(req).value.organizationId) ==>
      r == Refused(LocationNotFound)
    ensures r.Done? ==>
      && r.value.id == newId
      && r.value.status == Draft
      && r.value.eventType == STAGE_EVENT
      && r.value.organizationId == req.organizationId.value
      && r.value.createdById == req.user.value.id
      && r.value.title == input.title && r.value.description == input.description
      && r.value.startDate == input.startDate && r.value.endDate == input.endDate
      && (r.value.locationId.Some? <==> Truthy(input.locationId))
      && (r.value.locationId.Some? ==> LocationInOrganization(store.locations, r.value.locationId.value, r.value.organizationId))
      && r.store == store.(events := store.events + [r.value])
    ensures ScopeOf(req).Some? && ActorOf(req).Some?
              && (!Truthy(input.locationId) || LocationInOrganization(store.locations, input.locationId.value, ScopeOf(req).value.organizationId)) ==>
      r.Done?
  {
    if ScopeOf(req).None? || ActorOf(req).None? then Refused(ScopeAndUserRequired)
    else
      var s := ScopeOf(req).value;
      if Truthy(input.locationId) && !LocationInOrganization(store.locations, input.locationId.value, s.organizationId) then
        Refused(LocationNotFound)
      else
        var e := Event(newId, s.organizationId, STAGE_EVENT, input.title, input.description, input.startDate, input.endDate,
                       Draft, if Truthy(input.locationId) then input.locationId else None, None, ActorOf(req).value, None, None);
        Done(e, store.(events := store.events + [e]))
  }

  /** A created event is found by its id in the same scope, exactly as it was written. */
  lemma CreatedEventIsFound(req: Request, input: EventInput, newId: string, store: Store)
    requires forall i :: 0 <= i < |store.events| ==> store.events[i].id != newId
    requires CreateEvent(req, input, newId, store).Done?
    requires OrganizationInTenant(store.organizations, ScopeOf(req).value)
    ensures var r := CreateEvent(req, input, newId, store);
            GetEventById(req, newId, r.store) == Done(r.value, r.store)
  {
    var r := CreateEvent(req, input, newId, store);
    var events := r.store.events;
    assert events[|store.events|] == r.value;
    assert forall j :: 0 <= j < |store.events| ==> events[j] == store.events[j];
  }

  // ---------------------------------------------------------------- update

  /** What the body of `updateEvent` says about the location: absent, null (disconnect) or an id. */
  datatype LocationPatch = KeepLocation | Disconnect | ConnectTo(locationId: string)

  /** The fields `updateEvent` may change; `None` is a field absent from the body. */
  datatype EventPatch = EventPatch(
    title: Option<string>,
    description: Option<Option<string>>,
    startDate: Option<int>,
    endDate: Option<int>,
    status: Option<EventStatus>,
    location: LocationPatch)

  /** Changes exactly the fields present in the patch and records who updated it and when. */
  function ApplyPatch(e: Event, p: EventPatch, userId: string, now: int): (r: Event)
    ensures r.id == e.id && r.organizationId == e.organizationId && r.eventType == e.eventType
    ensures r.notes == e.notes && r.createdById == e.createdById
    ensures r.title == p.title.GetOr(e.title)
    ensures r.description == p.description.GetOr(e.description)
    ensures r.startDate == p.startDate.GetOr(e.startDate) && r.endDate == p.endDate.GetOr(e.endDate)
    ensures r.status == p.status.GetOr(e.status)
    ensures p.location.KeepLocation? ==> r.locationId == e.locationId
    ensures p.location.Disconnect? ==> r.locationId.None?
    ensures p.location.ConnectTo? ==> r.locationId == Some(p.location.locationId)
    ensures r.updatedById == Some(userId) && r.updatedAt == Some(now)
  {
    e.(title := p.title.GetOr(e.title),
       description := p.description.GetOr(e.description),
       startDate := p.startDate.GetOr(e.startDate),
       endDate := p.endDate.GetOr(e.endDate),
       status := p.status.GetOr(e.status),
       locationId := match p.location
                     case KeepLocation => e.locationId
                     case Disconnect => None
                     case ConnectTo(l) => Some(l),
       updatedById := Some(userId),
       updatedAt := Some(now))
  }

  /** Applying the same patch twice is applying it once. */
  lemma ApplyPatchIdempotent(e: Event, p: EventPatch, userId: string, now: int)
    ensures ApplyPatch(ApplyPatch(e, p, userId, now), p, userId, now) == ApplyPatch(e, p, userId, now)
  {
  }

  /** The patch that names no field only stamps the update. */
  lemma EmptyPatchOnlyStamps(e: Event, userId: string, now: int)
    ensures ApplyPatch(e, EventPatch(None, None, None, None, None, KeepLocation), userId, now)
         == e.(updatedById := Some(userId), updatedAt := Some(now))
  {
  }

  /** `updateEvent`: a partial update of a non-terminal event in the scope. */
  function UpdateEvent(req: Request, id: string, p: EventPatch, now: int, store: Store): (r: Outcome<Event>)
    ensures ScopeOf(req).None? || ActorOf(req).None? <==> r == Refused(ScopeAndUserRequired)
    ensures ScopeOf(req).Some? && ActorOf(req).Some? && FindScopedEvent(store, ScopeOf(req).value, id).None? ==>
      r == Refused(EventNotFound)
    ensures ScopeOf(req).Some? && ActorOf(req).Some? && FindScopedEvent(store, ScopeOf(req).value, id).Some?
              && FindScopedEvent(store, ScopeOf(req).value, id).value.status.Terminal() ==>
      r == Refused(EventNotEditable)
    ensures r == Refused(LocationNotFoundForUpdate) ==>
      p.location.ConnectTo? && !LocationInOrganization(store.locations, p.location.locationId, req.organizationId.value)
    ensures ScopeOf(req).Some? && ActorOf(req).Some? && FindScopedEvent(store, ScopeOf(req).value, id).Some?
              && !FindScopedEvent(store, ScopeOf(req).value, id).value.status.Terminal()
              && p.location.ConnectTo? && !LocationInOrganization(store.locations, p.location.locationId, ScopeOf(req).value.organizationId) ==>
      r == Refused(LocationNotFoundForUpdate)
    ensures r.Done? ==>
      var before := FindScopedEvent(store, ScopeOf(req).value, id).value;
      && !before.status.Terminal()
      && r.value == ApplyPatch(before, p, req.user.value.id, now)
      && (p.location.ConnectTo? ==> LocationInOrganization(store.locations, p.location.locationId, before.organizationId))
      && r.store == store.(events := WriteEvent(store.events, r.value))
    ensures ScopeOf(req).Some? && ActorOf(req).Some? && FindScopedEvent(store, ScopeOf(req).value, id).Some?
              && !FindScopedEvent(store, ScopeOf(req).value, id).value.status.Terminal()
              && (p.location.ConnectTo? ==> LocationInOrganization(store.locations, p.location.locationId, ScopeOf(req).value.organizationId)) ==>
      r.Done?
  {
    if ScopeOf(req).None? || ActorOf(req).None? then Refused(ScopeAndUserRequired)
    else
      var s := ScopeOf(req).value;
      match FindScopedEvent(store, s, id)
      case None => Refused(EventNotFound)
      case Some(e) =>
        if e.status.Terminal() then Refused(EventNotEditable)
        else if p.location.ConnectTo? && !LocationInOrganization(store.locations, p.location.locationId, s.organizationId) then
          Refused(LocationNotFoundForUpdate)
        else
          var updated := ApplyPatch(e, p, ActorOf(req).value, now);
          Done(updated, store.(events := WriteEvent(store.events, updated)))
  }

  // ---------------------------------------------------------------- publication

  /** `publishEvent`: DRAFT -> PUBLISHED, any other status is refused. */
  function PublishEvent(req: Request, id: string, now: int, store: Store): (r: Outcome<Event>)
    ensures ScopeOf(req).None? || ActorOf(req).None? <==> r == Refused(ScopeAndUserRequired)
    ensures ScopeOf(req).Some? && ActorOf(req).Some? && FindScopedEvent(store, ScopeOf(req).value, id).None? ==>
      r == Refused(EventNotFound)
    ensures ScopeOf(req).Some? && ActorOf(req).Some? && FindScopedEvent(store, ScopeOf(req).value, id).Some? ==>
      (r.Done? <==> FindScopedEvent(store, ScopeOf(req).value, id).value.status == Draft)
    ensures r.Refused? && r.error == EventNotDraft ==> FindScopedEvent(store, ScopeOf(req).value, id).value.status != Draft
    ensures ScopeOf(req).Some? && ActorOf(req).Some? && FindScopedEvent(store, ScopeOf(req).value, id).Some?
              && FindScopedEvent(store, ScopeOf(req).value, id).value.status != Draft ==>
      r == Refused(EventNotDraft)
    ensures r.Done? ==>
      var before := FindScopedEvent(store, ScopeOf(req).value, id).value;
      && r.value == before.(status := Published, updatedById := Some(req.user.value.id), updatedAt := Some(now))
      && r.store == store.(events := WriteEvent(store.events, r.value))
  {
    if ScopeOf(req).None? || ActorOf(req).None? then Refused(ScopeAndUserRequired)
    else
      match FindScopedEvent(store, ScopeOf(req).value, id)
      case None => Refused(EventNotFound)
      case Some(e) =>
        if e.status != Draft then Refused(EventNotDraft)
        else
          var updated := e.(status := Published, updatedById := ActorOf(req), updatedAt := Some(now));
          Done(updated, store.(events := WriteEvent(store.events, updated)))
  }

  // ---------------------------------------------------------------- cancellation

  /** Separator placed before the cancellation reason. */
  const REASON_LABEL: string := "Motif d'annulation: "

  /** The notes after a cancellation: unchanged without a (truthy) reason;
      otherwise the reason, labelled, appended after a blank line to truthy notes. */
  function CancelNotes(notes: Option<string>, reason: Option<string>): (r: Option<string>)
    ensures !Truthy(reason) ==> r == notes
    ensures Truthy(reason) ==> r.Some? && EndsWith(r.value, REASON_LABEL + reason.value)
    ensures Truthy(reason) && Truthy(notes) ==> StartsWith(r.value, notes.value + "\n\n")
    ensures Truthy(reason) && !Truthy(notes) ==> r == Some(REASON_LABEL + reason.value)
  {
    if !Truthy(reason) then notes
    else if Truthy(notes) then
      var text := notes.value + "\n\n" + REASON_LABEL + reason.value;
      assert text[|text| - |REASON_LABEL + reason.value|..] == REASON_LABEL + reason.value;
      assert text[..|notes.value + "\n\n"|] == notes.value + "\n\n";
      Some(text)
    else
      var text := REASON_LABEL + reason.value;
      assert text[|text| - |REASON_LABEL + reason.value|..] == REASON_LABEL + reason.value;
      Some(text)
  }

  /** Cancelling keeps the earlier notes: they can be read back in front of the appended reason. */
  lemma CancelNotesKeepHistory(notes: string, reason: string)
    requires notes != "" && reason != ""
    ensures CancelNotes(Some(notes), Some(reason)).value == notes + "\n\n" + REASON_LABEL + reason
    ensures CancelNotes(Some(notes), Some(reason)).value[..|notes|] == notes
  {
    var r := CancelNotes(Some(notes), Some(reason)).value;
    assert r[..|notes|] == (notes + "\n\n" + REASON_LABEL + reason)[..|notes|];
  }

  /** `assignment.updateMany({ where: { eventId }, data: { status: CANCELLED } })`. */
  function CancelAssignments(assignments: seq<Assignment>, eventId: string, now: int): (r: seq<Assignment>)
    ensures |r| == |assignments|
    ensures forall i :: 0 <= i < |r| && assignments[i].eventId == eventId ==>
      r[i] == assignments[i].(status := AssignmentCancelled, updatedAt := Some(now))
    ensures forall i :: 0 <= i < |r| && assignments[i].eventId != eventId ==> r[i] == assignments[i]
  {
    if |assignments| == 0 then []
    else
      var a := assignments[0];
      [if a.eventId == eventId then a.(status := AssignmentCancelled, updatedAt := Some(now)) else a]
        + CancelAssignments(assignments[1..], eventId, now)
  }

  /** `cancelEvent`: any non-terminal event becomes CANCELLED, its notes record the reason,
      and every assignment of the event is cancelled with it. */
  function CancelEvent(req: Request, id: string, reason: Option<string>, now: int, store: Store): (r: Outcome<Event>)
    ensures ScopeOf(req).None? || ActorOf(req).None? <==> r == Refused(ScopeAndUserRequired)
    ensures ScopeOf(req).Some? && ActorOf(req).Some? && FindScopedEvent(store, ScopeOf(req).value, id).None? ==>
      r == Refused(EventNotFound)
    ensures ScopeOf(req).Some? && ActorOf(req).Some? && FindScopedEvent(store, ScopeOf(req).value, id).Some? ==>
      (r.Done? <==> !FindScopedEvent(store, ScopeOf(req).value, id).value.status.Terminal())
    ensures r.Done? ==>
      var before := FindScopedEvent(store, ScopeOf(req).value, id).value;
      && r.value.status == Cancelled
      && r.value == before.(status := Cancelled, notes := CancelNotes(before.notes, reason),
                         updatedById := Some(req.user.value.id), updatedAt := Some(now))
      && r.store.events == WriteEvent(store.events, r.value)
      && r.store.assignments == CancelAssignments(store.assignments, id, now)
      && r.store == store.(events := r.store.events, assignments := r.store.assignments)
  {
    if ScopeOf(req).None? || ActorOf(req).None? then Refused(ScopeAndUserRequired)
    else
      match FindScopedEvent(store, ScopeOf(req).value, id)
      case None => Refused(EventNotFound)
      case Some(e) =>
        if e.status.Terminal() then Refused(EventNotCancellable)
        else
          var updated := e.(status := Cancelled, notes := CancelNotes(e.notes, reason),
                            updatedById := ActorOf(req), updatedAt := Some(now));
          Done(updated, store.(events := WriteEvent(store.events, updated),
                               assignments := CancelAssignments(store.assignments, id, now)))
  }

  /** After a cancellation no assignment of the event is left un-cancelled. */
  lemma CancelCascades(req: Request, id: string, reason: Option<string>, now: int, store: Store)
    requires CancelEvent(req, id, reason, now, store).Done?
    ensures var after := CancelEvent(req, id, reason, now, store).store;
            forall a :: a in after.assignments && a.eventId == id ==> a.status == AssignmentCancelled
  {
    var after := CancelEvent(req, id, reason, now, store).store;
    forall a | a in after.assignments && a.eventId == id ensures a.status == AssignmentCancelled {
      var i :| 0 <= i < |after.assignments| && after.assignments[i] == a;
      assert store.assignments[i].eventId == id;
    }
  }

  // ---------------------------------------------------------------- deletion

  /** `deleteEvent`: removes the scoped event's rows (dependent rows are the schema's concern). */
  function DeleteEvent(req: Request, id: string, store: Store): (r: Outcome<Event>)
    ensures ScopeOf(req).None? <==> r == Refused(ScopeRequired)
    ensures ScopeOf(req).Some? ==> (r.Done? <==> FindScopedEvent(store, ScopeOf(req).value, id).Some?)
    ensures ScopeOf(req).Some? && FindScopedEvent(store, ScopeOf(req).value, id).None? ==> r == Refused(EventNotFound)
    ensures r.Done? ==>
      && r.value == FindScopedEvent(store, ScopeOf(req).value, id).value
      && (forall e :: e in r.store.events <==> e in store.events && e.id != id)
      && r.store == store.(events := r.store.events)
  {
    match ScopeOf(req)
    case None => Refused(ScopeRequired)
    case Some(s) =>
      match FindScopedEvent(store, s, id)
      case None => Refused(EventNotFound)
      case Some(e) => Done(e, store.(events := WithoutEvent(store.events, id)))
  }

  /** The events whose id differs from `id`, in order. */
  function WithoutEvent(events: seq<Event>, id: string): (r: seq<Event>)
    ensures |r| <= |events|
    ensures forall e :: e in r <==> e in events && e.id != id
  {
    if |events| == 0 then []
    else (if events[0].id != id then [events[0]] else []) + WithoutEvent(events[1..], id)
  }

  // ---------------------------------------------------------------- lifecycle

  /** Terminal statuses are absorbing: update, publish and cancel all refuse a
      COMPLETED or CANCELLED event, so its stored row cannot change through them. */
  lemma TerminalIsAbsorbing(req: Request, id: string, p: EventPatch, reason: Option<string>, now: int, store: Store)
    requires ScopeOf(req).Some? && ActorOf(req).Some?
    requires FindScopedEvent(store, ScopeOf(req).value, id).Some?
    requires FindScopedEvent(store, ScopeOf(req).value, id).value.status.Terminal()
    ensures UpdateEvent(req, id, p, now, store) == Refused(EventNotEditable)
    ensures PublishEvent(req, id, now, store) == Refused(EventNotDraft)
    ensures CancelEvent(req, id, reason, now, store) == Refused(EventNotCancellable)
  {
  }

  /** The status moves the lifecycle handlers (publish, cancel) make. */
  predicate LifecycleStep(before: EventStatus, after: EventStatus) {
    (before == Draft && after == Published) || (!before.Terminal() && after == Cancelled)
  }

  /** Publication and cancellation only make lifecycle steps, and only on the event they name. */
  lemma LifecycleStepsOnly(req: Request, id: string, reason: Option<string>, now: int, store: Store)
    ensures PublishEvent(req, id, now, store).Done? ==>
      var before := FindScopedEvent(store, ScopeOf(req).value, id).value;
      LifecycleStep(before.status, PublishEvent(req, id, now, store).value.status)
    ensures CancelEvent(req, id, reason, now, store).Done? ==>
      var before := FindScopedEvent(store, ScopeOf(req).value, id).value;
      LifecycleStep(before.status, CancelEvent(req, id, reason, now, store).value.status)
  {
  }

  /** Writing one event leaves every event with another id as it was. */
  lemma WriteEventFrame(events: seq<Event>, e: Event, i: nat)
    requires i < |events| && events[i].id != e.id
    ensures WriteEvent(events, e)[i] == events[i]
  {
  }
}

=== FILE: stage_teams.dfy ===
/** The technical-team handlers (apps/api/src/controllers/stageplanner.controller.ts):
    listing, lookup, creation with an initial member list, partial update,
    deletion, and the membership operations. Membership is a collection of
    (team, user) records; `addTeamMember` refuses a pair that is already
    present, `removeTeamMember` deletes the record it finds for the pair. */
module StageTeams {

  import opened Common
  import opened Domain
  import opened PlannerStore

  /** A team the scope may see: same organization, organization in the tenant. */
  predicate TeamInScope(store: Store, s: Scope, t: Team) {
    t.organizationId == s.organizationId && OrganizationInTenant(store.organizations, s)
  }

  /** `team.findFirst({ where: { id, organization: { tenantId, id: organizationId } } })`. */
  function FindScopedTeam(store: Store, s: Scope, id: string): (r: Option<Team>)
    ensures r.Some? ==> r.value in store.teams && r.value.id == id && TeamInScope(store, s, r.value)
    ensures r.None? <==> forall i :: 0 <= i < |store.teams| ==> !(store.teams[i].id == id && TeamInScope(store, s, store.teams[i]))
  {
    FindFirst(store.teams, (t: Team) => t.id == id && TeamInScope(store, s, t))
  }

  /** The (team, user) pairs the membership records hold. */
  function Pairs(members: seq<TeamMember>): set<(string, string)> {
    set i | 0 <= i < |members| :: (members[i].teamId, members[i].userId)
  }

  /** No (team, user) pair is recorded twice. */
  predicate UniquePairs(members: seq<TeamMember>) {
    forall i, j ::
      0 <= i < |members| && 0 <= j < |members| && members[i].teamId == members[j].teamId && members[i].userId == members[j].userId
      ==> i == j
  }

  /** Whether a record for the pair exists (`teamMember.findFirst({ where: { teamId, userId } })`). */
  function FindMember(members: seq<TeamMember>, teamId: string, userId: string): (r: Option<nat>)
    ensures r.Some? ==> r.value < |members| && members[r.value].teamId == teamId && members[r.value].userId == userId
    ensures r.None? <==> (teamId, userId) !in Pairs(members)
  {
    var r := FirstIndex(members, (m: TeamMember) => m.teamId == teamId && m.userId == userId);
    assert r.Some? ==> (members[r.value].teamId, members[r.value].userId) in Pairs(members);
    r
  }

  // ---------------------------------------------------------------- listing and lookup

  /** The teams matching the listing filter, in store order. */
  function TeamsOf(store: Store, s: Scope, teamType: Option<string>, teams: seq<Team>): (r: seq<Team>)
    ensures forall t :: t in r <==> t in teams && TeamInScope(store, s, t) && (Truthy(teamType) ==> t.teamType == teamType.value)
  {
    if |teams| == 0 then []
    else
      var keep := TeamInScope(store, s, teams[0]) && (Truthy(teamType) ==> teams[0].teamType == teamType.value);
      (if keep then [teams[0]] else []) + TeamsOf(store, s, teamType, teams[1..])
  }

  /** `getTechnicalTeams`: the scope's teams, restricted to one type when a type is given. */
  function GetTechnicalTeams(req: Request, teamType: Option<string>, store: Store): (r: Outcome<seq<Team>>)
    ensures ScopeOf(req).None? <==> r == Refused(ScopeRequired)
    ensures r.Done? ==> r.store == store
    ensures r.Done? ==> forall t :: t in r.value <==>
      t in store.teams && TeamInScope(store, ScopeOf(req).value, t) && (Truthy(teamType) ==> t.teamType == teamType.value)
  {
    match ScopeOf(req)
    case None => Refused(ScopeRequired)
    case Some(s) => Done(TeamsOf(store, s, teamType, store.teams), store)
  }

  /** `getTechnicalTeamById`: the team when it is in the scope, else 404. */
  function GetTechnicalTeamById(req: Request, id: string, store: Store): (r: Outcome<Team>)
    ensures ScopeOf(req).None? ==> r == Refused(ScopeRequired)
    ensures ScopeOf(req).Some? ==> (r.Done? <==> FindScopedTeam(store, ScopeOf(req).value, id).Some?)
    ensures ScopeOf(req).Some? && FindScopedTeam(store, ScopeOf(req).value, id).None? ==> r == Refused(TeamNotFound)
    ensures r.Done? ==> r.store == store && r.value.id == id && TeamInScope(store, ScopeOf(req).value, r.value)
    ensures r.Refused? && ScopeOf(req).Some? ==> r.error == TeamNotFound
  {
    match ScopeOf(req)
    case None => Refused(ScopeRequired)
    case Some(s) =>
      match FindScopedTeam(store, s, id)
      case None => Refused(TeamNotFound)
      case Some(t) => Done(t, store)
  }

  // ---------------------------------------------------------------- creation

  /** One entry of the `members` list of the creation body. */
  datatype MemberRequest = MemberRequest(userId: string, role: Option<string>, specialty: Option<string>)

  /** The creation body. */
  datatype TeamInput = TeamInput(name: string, description: Option<string>, teamType: string, managerId: Option<string>, members: seq<MemberRequest>)

  /** The record the creation loop writes for one requested entry. */
  function Wanted(teamId: string, q: MemberRequest): TeamMember {
    TeamMember(teamId, q.userId, q.role, q.specialty, None)
  }

  /** The membership records the creation loop writes: one per requested entry
      whose user belongs to the organization, in request order; others are skipped silently. */
  function AdmittedMembers(teamId: string, requested: seq<MemberRequest>, users: seq<User>, organizationId: string): (r: seq<TeamMember>)
    ensures |r| <= |requested|
    ensures forall m :: m in r ==> m.teamId == teamId && UserInOrganization(users, m.userId, organizationId)
    ensures forall q :: q in requested && UserInOrganization(users, q.userId, organizationId) ==> Wanted(teamId, q) in r
    ensures forall m :: m in r ==> exists q :: q in requested && m == Wanted(teamId, q)
  {
    if |requested| == 0 then []
    else
      var q := requested[0];
      (if UserInOrganization(users, q.userId, organizationId) then [Wanted(teamId, q)] else [])
        + AdmittedMembers(teamId, requested[1..], users, organizationId)
  }

  /** `createTechnicalTeam`: the team, created by the caller, and the admitted initial members.
      `newId` is the identifier the store generates. */
  function CreateTechnicalTeam(req: Request, input: TeamInput, newId: string, store: Store): (r: Outcome<Team>)
    requires forall i :: 0 <= i < |store.teams| ==> store.teams[i].id != newId
    ensures ScopeOf(req).None? || ActorOf(req).None? <==> r == Refused(ScopeAndUserRequired)
    ensures ScopeOf(req).Some? && ActorOf(req).Some? && Truthy(input.managerId)
              && !UserInOrganization(store.users, input.managerId.value, req.organizationId.value) ==>
      r == Refused(ManagerNotFound)
    ensures r.Done? ==>
      && r.value.id == newId
      && r.value.organizationId == req.organizationId.value
      && r.value.createdById == req.user.value.id
      && r.value.name == input.name && r.value.teamType == input.teamType
      && (r.value.managerId.Some? <==> Truthy(input.managerId))
      && (r.value.managerId.Some? ==> UserInOrganization(store.users, r.value.managerId.value, r.value.organizationId))
      && r.store == store.(teams := store.teams + [r.value],
                           members := store.members + AdmittedMembers(newId, input.members, store.users, r.value.organizationId))
    ensures ScopeOf(req).Some? && ActorOf(req).Some?
              && (!Truthy(input.managerId) || UserInOrganization(store.users, input.managerId.value, ScopeOf(req).value.organizationId)) ==>
      r.Done?
  {
    if ScopeOf(req).None? || ActorOf(req).None? then Refused(ScopeAndUserRequired)
    else
      var s := ScopeOf(req).value;
      if Truthy(input.managerId) && !UserInOrganization(store.users, input.managerId.value, s.organizationId) then
        Refused(ManagerNotFound)
      else
        var t := Team(newId, s.organizationId, input.name, input.description, input.teamType,
                      if Truthy(input.managerId) then input.managerId else None, ActorOf(req).value, None, None);
        Done(t, store.(teams := store.teams + [t],
                       members := store.members + AdmittedMembers(newId, input.members, store.users, s.organizationId)))
  }

  /** Unlike `addTeamMember`, the creation loop does not look for an existing pair:
      each requested entry of a user of the organization is recorded as often as it is
      listed, and an entry of any other user not at all. */
  lemma {:induction false} AdmittedCountsRequests(teamId: string, requested: seq<MemberRequest>, users: seq<User>, organizationId: string, q: MemberRequest)
    ensures multiset(AdmittedMembers(teamId, requested, users, organizationId))[Wanted(teamId, q)]
         == if UserInOrganization(users, q.userId, organizationId) then multiset(requested)[q] else 0
  {
    if |requested| > 0 {
      AdmittedCountsRequests(teamId, requested[1..], users, organizationId, q);
      assert requested == [requested[0]] + requested[1..];
      assert multiset(requested) == multiset([requested[0]]) + multiset(requested[1..]);
      var head := if UserInOrganization(users, requested[0].userId, organizationId) then [Wanted(teamId, requested[0])] else [];
      assert multiset(AdmittedMembers(teamId, requested, users, organizationId))
          == multiset(head) + multiset(AdmittedMembers(teamId, requested[1..], users, organizationId));
    }
  }

  /** A created team is found again: looking up its new id in the scope answers the team
      as created, provided the caller's organization belongs to the caller's tenant. */
  lemma CreatedTeamIsFound(req: Request, input: TeamInput, newId: string, store: Store)
    requires forall i :: 0 <= i < |store.teams| ==> store.teams[i].id != newId
    requires CreateTechnicalTeam(req, input, newId, store).Done?
    requires OrganizationInTenant(store.organizations, ScopeOf(req).value)
    ensures var r := CreateTechnicalTeam(req, input, newId, store);
            GetTechnicalTeamById(req, newId, r.store) == Done(r.value, r.store)
  {
    var r := CreateTechnicalTeam(req, input, newId, store);
    var teams := r.store.teams;
    assert teams[|store.teams|] == r.value;
    assert forall j :: 0 <= j < |store.teams| ==> teams[j] == store.teams[j];
  }

  // ---------------------------------------------------------------- update and deletion

  /** What the update body says about the manager: absent, null (remove) or an id. */
  datatype ManagerPatch = KeepManager | RemoveManager | SetManager(managerId: string)

  /** The fields `updateTechnicalTeam` may change; `None` is a field absent from the body. */
  datatype TeamPatch = TeamPatch(name: Option<string>, description: Option<Option<string>>, teamType: Option<string>, manager: ManagerPatch)

  /** Changes exactly the fields present in the patch and records who updated it and when. */
  function ApplyTeamPatch(t: Team, p: TeamPatch, userId: string, now: int): (r: Team)
    ensures r.id == t.id && r.organizationId == t.organizationId && r.createdById == t.createdById
    ensures r.name == p.name.GetOr(t.name) && r.description == p.description.GetOr(t.description)
    ensures r.teamType == p.teamType.GetOr(t.teamType)
    ensures p.manager.KeepManager? ==> r.managerId == t.managerId
    ensures p.manager.RemoveManager? ==> r.managerId.None?
    ensures p.manager.SetManager? ==> r.managerId == Some(p.manager.managerId)
    ensures r.updatedById == Some(userId) && r.updatedAt == Some(now)
  {
    t.(name := p.name.GetOr(t.name),
       description := p.description.GetOr(t.description),
       teamType := p.teamType.GetOr(t.teamType),
       managerId := match p.manager
                    case KeepManager => t.managerId
                    case RemoveManager => None
                    case SetManager(m) => Some(m),
       updatedById := Some(userId),
       updatedAt := Some(now))
  }

  /** `team.update({ where: { id } })`. */
  function WriteTeam(teams: seq<Team>, t: Team): (r: seq<Team>)
    ensures |r| == |teams|
    ensures forall i :: 0 <= i < |teams| ==> r[i] == (if teams[i].id == t.id then t else teams[i])
  {
    ReplaceWhere(teams, (x: Team) => x.id == t.id, t)
  }

  /** `updateTechnicalTeam`: a partial update of a team in the scope; a new manager must belong to the organization. */
  function UpdateTechnicalTeam(req: Request, id: string, p: TeamPatch, now: int, store: Store): (r: Outcome<Team>)
    ensures ScopeOf(req).None? || ActorOf(req).None? <==> r == Refused(ScopeAndUserRequired)
    ensures ScopeOf(req).Some? && ActorOf(req).Some? && FindScopedTeam(store, ScopeOf(req).value, id).None? ==>
      r == Refused(TeamNotFound)
    ensures r == Refused(ManagerNotFoundForUpdate) <==>
      ScopeOf(req).Some? && ActorOf(req).Some? && FindScopedTeam(store, ScopeOf(req).value, id).Some?
      && p.manager.SetManager? && !UserInOrganization(store.users, p.manager.managerId, req.organizationId.value)
    ensures r.Done? ==>
      && r.value == ApplyTeamPatch(FindScopedTeam(store, ScopeOf(req).value, id).value, p, req.user.value.id, now)
      && (p.manager.SetManager? ==> UserInOrganization(store.users, p.manager.managerId, r.value.organizationId))
      && r.store == store.(teams := WriteTeam(store.teams, r.value))
    ensures ScopeOf(req).Some? && ActorOf(req).Some? && FindScopedTeam(store, ScopeOf(req).value, id).Some?
              && (p.manager.SetManager? ==> UserInOrganization(store.users, p.manager.managerId, ScopeOf(req).value.organizationId)) ==>
      r.Done?
  {
    if ScopeOf(req).None? || ActorOf(req).None? then Refused(ScopeAndUserRequired)
    else
      var s := ScopeOf(req).value;
      match FindScopedTeam(store, s, id)
      case None => Refused(TeamNotFound)
      case Some(t) =>
        if p.manager.SetManager? && !UserInOrganization(store.users, p.manager.managerId, s.organizationId) then
          Refused(ManagerNotFoundForUpdate)
        else
          var updated := ApplyTeamPatch(t, p, ActorOf(req).value, now);
          Done(updated, store.(teams := WriteTeam(store.teams, updated)))
  }

  /** Applying the same patch twice is applying it once. */
  lemma ApplyTeamPatchIdempotent(t: Team, p: TeamPatch, userId: string, now: int)
    ensures ApplyTeamPatch(ApplyTeamPatch(t, p, userId, now), p, userId, now) == ApplyTeamPatch(t, p, userId, now)
  {
  }

  /** An updated team is found again as updated, and repeating the same update
      answers the same team. */
  lemma UpdatedTeamIsFound(req: Request, id: string, p: TeamPatch, now: int, store: Store)
    requires UpdateTechnicalTeam(req, id, p, now, store).Done?
    ensures var r := UpdateTechnicalTeam(req, id, p, now, store);
            GetTechnicalTeamById(req, id, r.store) == Done(r.value, r.store)
            && UpdateTechnicalTeam(req, id, p, now, r.store).value == r.value
  {
    var r := UpdateTechnicalTeam(req, id, p, now, store);
    var s := ScopeOf(req).value;
    var before := FindScopedTeam(store, s, id).value;
    var k :| 0 <= k < |store.teams| && store.teams[k] == before;
    assert r.store.teams[k] == r.value;
    assert TeamInScope(r.store, s, r.value);
    var found := FindScopedTeam(r.store, s, id).value;
    var i :| 0 <= i < |r.store.teams| && r.store.teams[i] == found;
    ApplyTeamPatchIdempotent(before, p, req.user.value.id, now);
  }

  /** The teams whose id differs from `id`, in order. */
  function WithoutTeam(teams: seq<Team>, id: string): (r: seq<Team>)
    ensures forall t :: t in r <==> t in teams && t.id != id
  {
    if |teams| == 0 then []
    else (if teams[0].id != id then [teams[0]] else []) + WithoutTeam(teams[1..], id)
  }

  /** `deleteTechnicalTeam`: removes the scoped team's rows (dependent rows are the schema's concern). */
  function DeleteTechnicalTeam(req: Request, id: string, store: Store): (r: Outcome<Team>)
    ensures ScopeOf(req).None? <==> r == Refused(ScopeRequired)
    ensures ScopeOf(req).Some? ==> (r.Done? <==> FindScopedTeam(store, ScopeOf(req).value, id).Some?)
    ensures ScopeOf(req).Some? && FindScopedTeam(store, ScopeOf(req).value, id).None? ==> r == Refused(TeamNotFound)
    ensures r.Done? ==>
      (forall t :: t in r.store.teams <==> t in store.teams && t.id != id) && r.store == store.(teams := r.store.teams)
  {
    match ScopeOf(req)
    case None => Refused(ScopeRequired)
    case Some(s) =>
      match FindScopedTeam(store, s, id)
      case None => Refused(TeamNotFound)
      case Some(t) => Done(t, store.(teams := WithoutTeam(store.teams, id)))
  }

  // ---------------------------------------------------------------- membership

  /** `addTeamMember`: 404 for a team outside the scope or a user outside the
      organization, 400 for a pair already recorded, else exactly one record is added. */
  function AddTeamMember(req: Request, teamId: string, userId: string, role: Option<string>, specialty: Option<string>, now: int, store: Store): (r: Outcome<TeamMember>)
    ensures ScopeOf(req).None? <==> r == Refused(ScopeRequired)
    ensures ScopeOf(req).Some? && FindScopedTeam(store, ScopeOf(req).value, teamId).None? ==> r == Refused(TeamNotFound)
    ensures ScopeOf(req).Some? && FindScopedTeam(store, ScopeOf(req).value, teamId).Some? ==>
      && (!UserInOrganization(store.users, userId, req.organizationId.value) ==> r == Refused(MemberUserNotFound))
      && (UserInOrganization(store.users, userId, req.organizationId.value) && (teamId, userId) in Pairs(store.members) ==>
            r == Refused(AlreadyMember))
    ensures r.Done? ==>
      && (teamId, userId) !in Pairs(store.members)
      && r.value == TeamMember(teamId, userId, role, specialty, Some(now))
      && r.store == store.(members := store.members + [r.value])
      && Pairs(r.store.members) == Pairs(store.members) + {(teamId, userId)}
    ensures ScopeOf(req).Some? && FindScopedTeam(store, ScopeOf(req).value, teamId).Some?
              && UserInOrganization(store.users, userId, req.organizationId.value) && (teamId, userId) !in Pairs(store.members) ==>
      r.Done?
  {
    match ScopeOf(req)
    case None => Refused(ScopeRequired)
    case Some(s) =>
      if FindScopedTeam(store, s, teamId).None? then Refused(TeamNotFound)
      else if !UserInOrganization(store.users, userId, s.organizationId) then Refused(MemberUserNotFound)
      else if FindMember(store.members, teamId, userId).Some? then Refused(AlreadyMember)
      else
        var m := TeamMember(teamId, userId, role, specialty, Some(now));
        PairsAppend(store.members, m);
        Done(m, store.(members := store.members + [m]))
  }

  /** Appending a record adds its pair. */
  lemma PairsAppend(members: seq<TeamMember>, m: TeamMember)
    ensures Pairs(members + [m]) == Pairs(members) + {(m.teamId, m.userId)}
  {
    var all := members + [m];
    forall p | p in Pairs(members) ensures p in Pairs(all) {
      var i :| 0 <= i < |members| && p == (members[i].teamId, members[i].userId);
      assert all[i] == members[i];
    }
    assert all[|members|] == m;
  }

  /** `removeTeamMember`: 404 for a team outside the scope or a pair not recorded,
      else the record found for the pair is deleted. */
  function RemoveTeamMember(req: Request, teamId: string, userId: string, store: Store): (r: Outcome<TeamMember>)
    ensures ScopeOf(req).None? <==> r == Refused(ScopeRequired)
    ensures ScopeOf(req).Some? && FindScopedTeam(store, ScopeOf(req).value, teamId).None? ==> r == Refused(TeamNotFound)
    ensures ScopeOf(req).Some? && FindScopedTeam(store, ScopeOf(req).value, teamId).Some? ==>
      (r.Done? <==> (teamId, userId) in Pairs(store.members))
    ensures ScopeOf(req).Some? && FindScopedTeam(store, ScopeOf(req).value, teamId).Some? && (teamId, userId) !in Pairs(store.members) ==>
      r == Refused(NotAMember)
    ensures r.Done? ==>
      && r.value.teamId == teamId && r.value.userId == userId
      && |r.store.members| == |store.members| - 1
      && multiset(r.store.members) + multiset{r.value} == multiset(store.members)
      && r.store == store.(members := r.store.members)
  {
    match ScopeOf(req)
    case None => Refused(ScopeRequired)
    case Some(s) =>
      if FindScopedTeam(store, s, teamId).None? then Refused(TeamNotFound)
      else match FindMember(store.members, teamId, userId)
        case None => Refused(NotAMember)
        case Some(k) =>
          var rest := RemoveAt(store.members, k);
          assert store.members == store.members[..k] + [store.members[k]] + store.members[k + 1..];
          Done(store.members[k], store.(members := rest))
  }

  /** With unique pairs, removing a member removes exactly its pair. */
  lemma RemoveDropsExactlyThePair(req: Request, teamId: string, userId: string, store: Store)
    requires UniquePairs(store.members)
    requires RemoveTeamMember(req, teamId, userId, store).Done?
    ensures Pairs(RemoveTeamMember(req, teamId, userId, store).store.members) == Pairs(store.members) - {(teamId, userId)}
  {
    var k := FindMember(store.members, teamId, userId).value;
    var before := store.members;
    var after := RemoveTeamMember(req, teamId, userId, store).store.members;
    assert after == RemoveAt(before, k);
    forall p | p in Pairs(after) ensures p in Pairs(before) - {(teamId, userId)} {
      var i :| 0 <= i < |after| && p == (after[i].teamId, after[i].userId);
      var j := if i < k then i else i + 1;
      assert after[i] == before[j];
      assert j != k;
    }
    forall p | p in Pairs(before) - {(teamId, userId)} ensures p in Pairs(after) {
      var j :| 0 <= j < |before| && p == (before[j].teamId, before[j].userId);
      assert j != k;
      var i := if j < k then j else j - 1;
      assert after[i] == before[j];
    }
  }

  /** Adding keeps the pairs unique. */
  lemma AddKeepsPairsUnique(req: Request, teamId: string, userId: string, role: Option<string>, specialty: Option<string>, now: int, store: Store)
    requires UniquePairs(store.members)
    requires AddTeamMember(req, teamId, userId, role, specialty, now, store).Done?
    ensures UniquePairs(AddTeamMember(req, teamId, userId, role, specialty, now, store).store.members)
  {
    var after := AddTeamMember(req, teamId, userId, role, specialty, now, store).store.members;
    var n := |store.members|;
    assert forall i :: 0 <= i < n ==> (store.members[i].teamId, store.members[i].userId) in Pairs(store.members);
    assert forall i :: 0 <= i < n ==> after[i] == store.members[i];
  }

  /** Adding a member twice: the second request is refused as a duplicate. */
  lemma SecondAddRefused(req: Request, teamId: string, userId: string, role: Option<string>, specialty: Option<string>, now: int, store: Store)
    requires AddTeamMember(req, teamId, userId, role, specialty, now, store).Done?
    ensures var after := AddTeamMember(req, teamId, userId, role, specialty, now, store).store;
            AddTeamMember(req, teamId, userId, role, specialty, now, after) == Refused(AlreadyMember)
  {
    var after := AddTeamMember(req, teamId, userId, role, specialty, now, store).store;
    assert after.teams == store.teams && after.users == store.users && after.organizations == store.organizations;
  }

  /** Removing right after adding gives back the membership table as it was. */
  lemma AddThenRemoveRestores(req: Request, teamId: string, userId: string, role: Option<string>, specialty: Option<string>, now: int, store: Store)
    requires AddTeamMember(req, teamId, userId, role, specialty, now, store).Done?
    ensures var added := AddTeamMember(req, teamId, userId, role, specialty, now, store).store;
            var removed := RemoveTeamMember(req, teamId, userId, added);
            removed.Done? && removed.store == store
  {
    var added := AddTeamMember(req, teamId, userId, role, specialty, now, store).store;
    var m := TeamMember(teamId, userId, role, specialty, Some(now));
    assert added.members == store.members + [m];
    var k := FindMember(added.members, teamId, userId);
    assert k == Some(|store.members|) by {
      forall i | 0 <= i < |store.members| ensures added.members[i] == store.members[i] && (store.members[i].teamId, store.members[i].userId) in Pairs(store.members) {
      }
    }
    assert RemoveAt(added.members, |store.members|) == store.members;
  }
}

=== FILE: strings.dfy ===
/** The JavaScript string operations the source relies on, as pure functions
    over `seq<char>`: `split` on one character, `join`, `startsWith`,
    `includes`, ASCII `toLowerCase`, and the decimal rendering of integers. */
module Strings {

  import opened Common

  /** `s.split(sep)` for a one-character separator: never an empty list; the
      pieces between separators, empty ones included. */
  function Split(s: string, sep: char): (parts: seq<string>)
    ensures |parts| >= 1
    ensures forall i :: 0 <= i < |parts| ==> sep !in parts[i]
    decreases |s|
  {
    if |s| == 0 then [""]
    else
      var rest := Split(s[1..], sep);
      if s[0] == sep then [""] + rest
      else [[s[0]] + rest[0]] + rest[1..]
  }

  /** `parts.join(sep)`; the empty list joins to "". */
  function Join(parts: seq<string>, sep: string): string
  {
    if |parts| == 0 then ""
    else if |parts| == 1 then parts[0]
    else parts[0] + sep + Join(parts[1..], sep)
  }

  /** Number of occurrences of `c` in `s`. */
  function Count(s: string, c: char): nat
  {
    if |s| == 0 then 0 else (if s[0] == c then 1 else 0) + Count(s[1..], c)
  }

  /** Occurrences add up over a concatenation. */
  lemma {:induction false} CountAppend(a: string, b: string, c: char)
    ensures Count(a + b, c) == Count(a, c) + Count(b, c)
    decreases |a|
  {
    if |a| == 0 {
      assert a + b == b;
    } else {
      assert (a + b)[0] == a[0];
      assert (a + b)[1..] == a[1..] + b;
      CountAppend(a[1..], b, c);
    }
  }

  /** A character that does not occur is counted zero times. */
  lemma {:induction false} CountAbsent(s: string, c: char)
    requires c !in s
    ensures Count(s, c) == 0
    decreases |s|
  {
    if |s| > 0 {
      CountAbsent(s[1..], c);
    }
  }

  /** Joining the pieces of a split with the same separator gives back the string. */
  lemma {:induction false} JoinSplit(s: string, sep: char)
    ensures Join(Split(s, sep), [sep]) == s
    decreases |s|
  {
    if |s| == 0 {
    } else {
      var rest := Split(s[1..], sep);
      JoinSplit(s[1..], sep);
      if s[0] == sep {
        assert ([""] + rest)[1..] == rest;
        assert s == [sep] + s[1..];
      } else {
        var parts := [[s[0]] + rest[0]] + rest[1..];
        if |rest| == 1 {
          assert Join(rest, [sep]) == rest[0];
          assert s == [s[0]] + s[1..];
        } else {
          assert parts[1..] == rest[1..];
          assert Join(rest, [sep]) == rest[0] + [sep] + Join(rest[1..], [sep]);
          assert s == [s[0]] + s[1..];
        }
      }
    }
  }

  /** Splitting `a + b`, where `a` holds no separator, glues `a` onto the first piece of `b`. */
  lemma {:induction false} SplitPrefix(a: string, b: string, sep: char)
    requires sep !in a
    ensures Split(a + b, sep) == [a + Split(b, sep)[0]] + Split(b, sep)[1..]
    decreases |a|
  {
    if |a| == 0 {
      var parts := Split(b, sep);
      assert a + b == b;
      assert a + parts[0] == parts[0];
      assert [parts[0]] + parts[1..] == parts;
    } else {
      assert (a + b)[1..] == a[1..] + b;
      SplitPrefix(a[1..], b, sep);
      assert [a[0]] + (a[1..] + Split(b, sep)[0]) == a + Split(b, sep)[0];
    }
  }

  /** Splitting a join of separator-free pieces gives back the pieces. */
  lemma {:induction false} SplitJoin(parts: seq<string>, sep: char)
    requires |parts| >= 1
    requires forall i :: 0 <= i < |parts| ==> sep !in parts[i]
    ensures Split(Join(parts, [sep]), sep) == parts
    decreases |parts|
  {
    if |parts| == 1 {
      SplitPrefix(parts[0], "", sep);
      assert parts[0] + "" == parts[0];
    } else {
      var tail := Join(parts[1..], [sep]);
      SplitJoin(parts[1..], sep);
      assert Join(parts, [sep]) == parts[0] + ([sep] + tail);
      SplitPrefix(parts[0], [sep] + tail, sep);
      assert ([sep] + tail)[1..] == tail;
      assert Split([sep] + tail, sep) == [""] + parts[1..];
      assert parts[0] + "" == parts[0];
    }
  }

  /** A split yields one more piece than there are separators. */
  lemma {:induction false} SplitCount(s: string, sep: char)
    ensures |Split(s, sep)| == Count(s, sep) + 1
    decreases |s|
  {
    if |s| > 0 {
      SplitCount(s[1..], sep);
    }
  }

  /** `s.split(sep)[0]`: the text before the first separator. */
  function FirstField(s: string, sep: char): (r: string)
    ensures sep !in r
    ensures r <= s
    ensures r == s || (|r| < |s| && s[|r|] == sep)
  {
    FirstFieldIsPrefix(s, sep);
    Split(s, sep)[0]
  }

  /** The first piece of a split is a prefix that ends at the first separator (or the end). */
  lemma {:induction false} FirstFieldIsPrefix(s: string, sep: char)
    ensures Split(s, sep)[0] <= s
    ensures Split(s, sep)[0] == s || (|Split(s, sep)[0]| < |s| && s[|Split(s, sep)[0]|] == sep)
    decreases |s|
  {
    if |s| > 0 && s[0] != sep {
      FirstFieldIsPrefix(s[1..], sep);
      assert s == [s[0]] + s[1..];
    }
  }

  /** The first field of `a + sep + b`, for a separator-free `a`, is `a`. */
  lemma FirstFieldOfJoined(a: string, sep: char, b: string)
    requires sep !in a
    ensures FirstField(a + [sep] + b, sep) == a
  {
    assert a + [sep] + b == a + ([sep] + b);
    SplitPrefix(a, [sep] + b, sep);
    assert ([sep] + b)[1..] == b;
    assert Split([sep] + b, sep)[0] == "";
    assert a + "" == a;
  }

  /** `s.startsWith(p)`. */
  predicate StartsWith(s: string, p: string) {
    |p| <= |s| && s[..|p|] == p
  }

  /** `s.endsWith(p)`. */
  predicate EndsWith(s: string, p: string) {
    |p| <= |s| && s[|s| - |p|..] == p
  }

  /** `hay.includes(needle)`. */
  predicate Includes(hay: string, needle: string) {
    exists i :: 0 <= i <= |hay| && StartsWith(hay[i..], needle)
  }

  /** A one-character needle is included exactly when the character occurs. */
  lemma IncludesChar(hay: string, c: char)
    ensures Includes(hay, [c]) <==> c in hay
  {
    if c in hay {
      var i :| 0 <= i < |hay| && hay[i] == c;
      assert StartsWith(hay[i..], [c]);
    }
    if Includes(hay, [c]) {
      var i :| 0 <= i <= |hay| && StartsWith(hay[i..], [c]);
      assert hay[i] == c;
    }
  }

  /** ASCII lower-casing of one character. */
  function LowerChar(c: char): char {
    if 'A' <= c <= 'Z' then (c as int + 32) as char else c
  }

  /** `s.toLowerCase()` restricted to ASCII letters. */
  function Lower(s: string): (r: string)
    ensures |r| == |s|
    ensures forall i :: 0 <= i < |s| ==> r[i] == LowerChar(s[i])
  {
    if |s| == 0 then "" else [LowerChar(s[0])] + Lower(s[1..])
  }

  /** Lower-casing twice is lower-casing once. */
  lemma LowerIdempotent(s: string)
    ensures Lower(Lower(s)) == Lower(s)
  {
  }

  /** Decimal digit of a number below ten. */
  function Digit(d: nat): char
    requires d < 10
  {
    ('0' as int + d) as char
  }

  /** Decimal rendering of a natural number, most significant digit first. */
  function NatToString(n: nat): (r: string)
    ensures |r| >= 1
    ensures forall i :: 0 <= i < |r| ==> '0' <= r[i] <= '9'
    decreases n
  {
    if n < 10 then [Digit(n)] else NatToString(n / 10) + [Digit(n % 10)]
  }

  /** `String(n)` for an integer-valued number. */
  function IntToString(n: int): string {
    if n < 0 then "-" + NatToString(-n) else NatToString(n)
  }

  /** Value of a string of decimal digits. */
  function DigitsValue(s: string): nat
    requires forall i :: 0 <= i < |s| ==> '0' <= s[i] <= '9'
  {
    if |s| == 0 then 0 else DigitsValue(s[..|s| - 1]) * 10 + (s[|s| - 1] as int - '0' as int)
  }

  /** A signed decimal integer string: an optional '-' then one or more digits. */
  function ParseInt(s: string): Option<int> {
    if |s| >= 2 && s[0] == '-' && forall i :: 1 <= i < |s| ==> '0' <= s[i] <= '9' then
      Some(-(DigitsValue(s[1..]) as int))
    else if |s| >= 1 && forall i :: 0 <= i < |s| ==> '0' <= s[i] <= '9' then
      Some(DigitsValue(s))
    else None
  }

  /** Reading the digits of a rendering gives back the number. */
  lemma {:induction false} DigitsOfNat(n: nat)
    ensures DigitsValue(NatToString(n)) == n
    decreases n
  {
    if n >= 10 {
      DigitsOfNat(n / 10);
      var r := NatToString(n);
      assert r[..|r| - 1] == NatToString(n / 10);
    }
  }

  /** Parsing the rendering of an integer gives back the integer. */
  lemma ParseIntToString(n: int)
    ensures ParseInt(IntToString(n)) == Some(n)
  {
    if n < 0 {
      ParseNegativeRendering(-n);
    } else {
      DigitsOfNat(n);
      ParseDigits(NatToString(n));
    }
  }

  /** The rendering of a negative number parses back to it. */
  lemma ParseNegativeRendering(m: nat)
    requires m > 0
    ensures ParseInt("-" + NatToString(m)) == Some(-(m as int))
  {
    DigitsOfNat(m);
    ParseNegative(NatToString(m));
  }

  /** A non-empty run of digits parses to its value. */
  lemma ParseDigits(d: string)
    requires |d| >= 1 && forall i :: 0 <= i < |d| ==> '0' <= d[i] <= '9'
    ensures ParseInt(d) == Some(DigitsValue(d) as int)
  {
    assert d[0] != '-';
  }

  /** A minus sign before a non-empty run of digits parses to the negated value. */
  lemma ParseNegative(d: string)
    requires |d| >= 1 && forall i :: 0 <= i < |d| ==> '0' <= d[i] <= '9'
    ensures ParseInt("-" + d) == Some(-(DigitsValue(d) as int))
  {
    var s := "-" + d;
    assert s[1..] == d;
    assert forall i :: 1 <= i < |s| ==> s[i] == d[i - 1];
  }
}

=== FILE: tenant_middleware.dfy ===
/** Tenant resolution and the module gate (apps/api/src/middlewares/tenant.middleware.ts).
    `tenantIdentifier` only identifies; `tenantRequired` runs the failure ladder
    missing / not found / inactive / expired; `checkModuleAccess` tests one
    (tenant, module, active) row. `reachable` is false when the store query throws. */
module TenantMiddleware {

  import opened Common
  import opened Strings
  import opened Domain

  datatype TenantError =
    | TenantRequired
    | TenantNotFound
    | TenantInactive(status: string)
    | SubscriptionExpired
    | TenantCheckFailed
    | ModuleTenantRequired
    | ModuleNotEnabled(moduleType: string)
    | ModuleCheckFailed

  /** HTTP status answered for each failure. */
  function Status(e: TenantError): nat {
    match e
    case TenantRequired => 400
    case TenantNotFound => 404
    case TenantInactive(_) => 403
    case SubscriptionExpired => 403
    case TenantCheckFailed => 500
    case ModuleTenantRequired => 400
    case ModuleNotEnabled(_) => 403
    case ModuleCheckFailed => 500
  }

  /** Message body answered for each failure. */
  function Message(e: TenantError): string {
    match e
    case TenantRequired => "Tenant requis. Veuillez spécifier un sous-domaine valide ou un header x-tenant-id."
    case TenantNotFound => "Tenant non trouvé."
    case TenantInactive(s) => "L'accès pour ce tenant est actuellement " + s + ". Veuillez contacter le support."
    case SubscriptionExpired => "L'abonnement de ce tenant a expiré. Veuillez renouveler votre abonnement."
    case TenantCheckFailed => "Erreur interne lors de la vérification du tenant."
    case ModuleTenantRequired => "Identifiant de tenant requis pour vérifier l'accès au module."
    case ModuleNotEnabled(m) => "Accès refusé. Le module '" + m + "' n'est pas activé pour votre organisation."
    case ModuleCheckFailed => "Erreur interne lors de la vérification de l'accès au module."
  }

  /** The subdomain rule of this middleware: the first label, when the host has
      more than two labels (at least two dots) and that label is neither "www" nor "api". */
  function SubdomainCandidate(hostname: string): (r: Option<string>)
    ensures r.Some? <==> Count(hostname, '.') >= 2 && FirstField(hostname, '.') != "www" && FirstField(hostname, '.') != "api"
    ensures r.Some? ==> r.value == FirstField(hostname, '.')
  {
    SplitCount(hostname, '.');
    var parts := Split(hostname, '.');
    if |parts| > 2 && parts[0] != "www" && parts[0] != "api" then Some(parts[0]) else None
  }

  /** The store's OR-predicate: the candidate equals the tenant's id or its subdomain. */
  predicate Matches(t: Tenant, candidate: string) {
    t.id == candidate || t.subdomain == candidate
  }

  /** `tenant.findFirst({ OR: [{id}, {subdomain}] })`. */
  function LookupTenant(tenants: seq<Tenant>, candidate: string): (r: Option<Tenant>)
    ensures r.Some? ==> r.value in tenants && Matches(r.value, candidate)
    ensures r.None? <==> forall i :: 0 <= i < |tenants| ==> !Matches(tenants[i], candidate)
    ensures forall i :: 0 <= i < |tenants| && Matches(tenants[i], candidate) && (forall j :: 0 <= j < i ==> !Matches(tenants[j], candidate)) ==>
      r == Some(tenants[i])
  {
    FindFirst(tenants, t => Matches(t, candidate))
  }

  /** The subscription has ended: an end date exists and lies strictly before `now`. */
  predicate Expired(t: Tenant, now: int) {
    t.subscriptionEndDate.Some? && t.subscriptionEndDate.value < now
  }

  /** A tenant whose requests may be served at `now`. */
  predicate Servable(t: Tenant, now: int) {
    t.status == ACTIVE && !Expired(t, now)
  }

  /** Candidate of `tenantIdentifier`: a truthy x-tenant-id header, else the subdomain rule. */
  function IdentifierCandidate(req: Request): (r: Option<string>)
    ensures Truthy(req.tenantHeader) ==> r == req.tenantHeader
    ensures !Truthy(req.tenantHeader) ==> r == SubdomainCandidate(req.hostname)
  {
    OrElse(req.tenantHeader, SubdomainCandidate(req.hostname))
  }

  /** Candidate of `tenantRequired`: an already attached tenant id, else the header, else the subdomain rule. */
  function RequiredCandidate(req: Request): (r: Option<string>)
    ensures Truthy(req.tenantId) ==> r == req.tenantId
    ensures !Truthy(req.tenantId) && Truthy(req.tenantHeader) ==> r == req.tenantHeader
    ensures !Truthy(req.tenantId) && !Truthy(req.tenantHeader) ==> r == SubdomainCandidate(req.hostname)
  {
    OrElse(req.tenantId, IdentifierCandidate(req))
  }

  /** `tenantIdentifier`: never rejects. A found tenant's canonical id is attached;
      no candidate, no match or a failing store leaves the request untouched. */
  function TenantIdentifier(req: Request, tenants: seq<Tenant>, reachable: bool): (r: Request)
    ensures r == req.(tenantId := r.tenantId)
    ensures !reachable || !Truthy(IdentifierCandidate(req)) ==> r == req
    ensures r.tenantId != req.tenantId ==>
      (Truthy(IdentifierCandidate(req)) &&
       exists t :: t in tenants && Matches(t, IdentifierCandidate(req).value) && r.tenantId == Some(t.id))
    ensures reachable && Truthy(IdentifierCandidate(req)) && Any(tenants, (t: Tenant) => Matches(t, IdentifierCandidate(req).value)) ==>
      r.tenantId.Some?
    ensures reachable && Truthy(IdentifierCandidate(req)) && LookupTenant(tenants, IdentifierCandidate(req).value).Some? ==>
      r.tenantId == Some(LookupTenant(tenants, IdentifierCandidate(req).value).value.id)
    ensures reachable && Truthy(IdentifierCandidate(req)) && LookupTenant(tenants, IdentifierCandidate(req).value).None? ==> r == req
  {
    var candidate := IdentifierCandidate(req);
    if !Truthy(candidate) || !reachable then req
    else match LookupTenant(tenants, candidate.value)
      case None => req
      case Some(t) => req.(tenantId := Some(t.id))
  }

  /** The failure ladder of `tenantRequired` for a given candidate; the first failing check wins. */
  function RequireTenant(req: Request, candidate: Option<string>, tenants: seq<Tenant>, now: int, reachable: bool): (r: Gate<TenantError>)
    ensures !Truthy(candidate) ==> r == Fail(TenantRequired)
    ensures Truthy(candidate) && !reachable ==> r == Fail(TenantCheckFailed)
    ensures Truthy(candidate) && reachable && (forall i :: 0 <= i < |tenants| ==> !Matches(tenants[i], candidate.value)) ==>
      r == Fail(TenantNotFound)
    ensures r.Fail? && r.error.TenantInactive? ==>
      Truthy(candidate) && r.error.status != ACTIVE && exists t :: t in tenants && Matches(t, candidate.value) && t.status == r.error.status
    ensures r.Fail? && r.error.SubscriptionExpired? ==>
      Truthy(candidate) && exists t :: t in tenants && Matches(t, candidate.value) && t.status == ACTIVE && Expired(t, now)
    ensures r.Pass? ==>
      Truthy(candidate) && exists t :: t in tenants && Matches(t, candidate.value) && Servable(t, now) && r.req == req.(tenantId := Some(t.id))
    ensures r.Fail? ==> r.error in {TenantRequired, TenantCheckFailed, TenantNotFound, SubscriptionExpired} || r.error.TenantInactive?
    ensures Truthy(candidate) && reachable && LookupTenant(tenants, candidate.value).Some? ==>
      var t := LookupTenant(tenants, candidate.value).value;
      && (t.status != ACTIVE ==> r == Fail(TenantInactive(t.status)))
      && (t.status == ACTIVE && Expired(t, now) ==> r == Fail(SubscriptionExpired))
      && (Servable(t, now) ==> r == Pass(req.(tenantId := Some(t.id))))
  {
    if !Truthy(candidate) then Fail(TenantRequired)
    else if !reachable then Fail(TenantCheckFailed)
    else match LookupTenant(tenants, candidate.value)
      case None => Fail(TenantNotFound)
      case Some(t) =>
        if t.status != ACTIVE then Fail(TenantInactive(t.status))
        else if Expired(t, now) then Fail(SubscriptionExpired)
        else Pass(req.(tenantId := Some(t.id)))
  }

  /** `tenantRequired`. */
  function TenantRequiredGate(req: Request, tenants: seq<Tenant>, now: int, reachable: bool): (r: Gate<TenantError>)
    ensures Truthy(req.tenantId) && reachable && LookupTenant(tenants, req.tenantId.value).Some?
            && Servable(LookupTenant(tenants, req.tenantId.value).value, now) ==>
      r == Pass(req.(tenantId := Some(LookupTenant(tenants, req.tenantId.value).value.id)))
    ensures !Truthy(req.tenantId) && !Truthy(req.tenantHeader) && SubdomainCandidate(req.hostname).None? ==>
      r == Fail(TenantRequired)
    ensures r.Pass? ==> r.req == req.(tenantId := r.req.tenantId) && Truthy(RequiredCandidate(req))
  {
    RequireTenant(req, RequiredCandidate(req), tenants, now, reachable)
  }

  /** `checkModuleAccess(moduleType)`: passes, unchanged, exactly when an active
      row for this very (tenant, module) pair exists. */
  function CheckModuleAccess(req: Request, moduleType: string, activations: seq<ModuleActivation>, reachable: bool): (r: Gate<TenantError>)
    ensures !Truthy(req.tenantId) ==> r == Fail(ModuleTenantRequired)
    ensures Truthy(req.tenantId) && !reachable ==> r == Fail(ModuleCheckFailed)
    ensures Truthy(req.tenantId) && reachable ==>
      (r.Pass? <==> exists i :: 0 <= i < |activations| && activations[i].tenantId == req.tenantId.value
                            && activations[i].moduleType == moduleType && activations[i].isActive)
    ensures r.Pass? ==> r.req == req
    ensures r.Fail? && Truthy(req.tenantId) && reachable ==> r.error == ModuleNotEnabled(moduleType)
  {
    if !Truthy(req.tenantId) then Fail(ModuleTenantRequired)
    else if !reachable then Fail(ModuleCheckFailed)
    else if ModuleActivation(req.tenantId.value, moduleType, true) in activations then Pass(req)
    else Fail(ModuleNotEnabled(moduleType))
  }

  /** Rows for other modules, other tenants or inactive rows never open a module:
      adding them changes nothing. */
  lemma NoCrossModuleLeakage(req: Request, moduleType: string, activations: seq<ModuleActivation>, others: seq<ModuleActivation>, reachable: bool)
    requires forall i :: 0 <= i < |others| ==>
      !(Truthy(req.tenantId) && others[i].tenantId == req.tenantId.value && others[i].moduleType == moduleType && others[i].isActive)
    ensures CheckModuleAccess(req, moduleType, activations + others, reachable) == CheckModuleAccess(req, moduleType, activations, reachable)
  {
    if Truthy(req.tenantId) && reachable {
      var row := ModuleActivation(req.tenantId.value, moduleType, true);
      assert row in activations + others <==> row in activations;
    }
  }

  /** Tenant ids are non-empty and unique, and no tenant's subdomain equals another tenant's id. */
  predicate WellFormedTenants(tenants: seq<Tenant>) {
    && (forall i :: 0 <= i < |tenants| ==> tenants[i].id != "")
    && (forall i, j :: 0 <= i < |tenants| && 0 <= j < |tenants| && tenants[i].id == tenants[j].id ==> i == j)
    && (forall i, j :: 0 <= i < |tenants| && 0 <= j < |tenants| && tenants[i].subdomain == tenants[j].id ==> i == j)
  }

  /** In a well-formed store, looking up a tenant's own id finds that tenant. */
  lemma LookupOwnId(tenants: seq<Tenant>, k: nat)
    requires WellFormedTenants(tenants)
    requires k < |tenants|
    ensures LookupTenant(tenants, tenants[k].id) == Some(tenants[k])
  {
    var r := LookupTenant(tenants, tenants[k].id);
    assert Matches(tenants[k], tenants[k].id);
    var i :| 0 <= i < |tenants| && tenants[i] == r.value;
  }

  /** `tenantRequired` is idempotent: a request it let through passes again, unchanged. */
  lemma TenantRequiredIdempotent(req: Request, tenants: seq<Tenant>, now: int, reachable: bool)
    requires WellFormedTenants(tenants)
    requires TenantRequiredGate(req, tenants, now, reachable).Pass?
    ensures var next := TenantRequiredGate(req, tenants, now, reachable).req;
            TenantRequiredGate(next, tenants, now, reachable) == Pass(next)
  {
    var next := TenantRequiredGate(req, tenants, now, reachable).req;
    var t :| t in tenants && Matches(t, RequiredCandidate(req).value) && Servable(t, now) && next == req.(tenantId := Some(t.id));
    var k :| 0 <= k < |tenants| && tenants[k] == t;
    LookupOwnId(tenants, k);
    assert RequiredCandidate(next) == Some(t.id);
    assert next.(tenantId := Some(t.id)) == next;
  }
}

=== FILE: validate_request.dfy ===
/** The validation-error normaliser (apps/api/src/middlewares/validate-request.middleware.ts):
    when the validator reported errors, each is mapped to { field, message, value }
    and the request is answered 400; otherwise the request goes on untouched. */
module ValidateRequest {

  import opened Common
  import opened Strings

  /** A value the validator reports, as far as the answer is concerned. */
  datatype Value = Undefined | Scalar(text: string) | List(items: seq<Value>)

  /** One offending body field of an unknown_fields error. */
  datatype UnknownField = UnknownField(path: string, value: Value)

  /** The validator's error kinds; `OtherError` is any other kind, with its optional `param`. */
  datatype ValidationError =
    | FieldError(path: string, value: Value, msg: string)
    | UnknownFieldsError(fields: seq<UnknownField>, msg: string)
    | AlternativeError(msg: string)
    | GroupedAlternativeError(msg: string)
    | OtherError(param: Option<string>, value: Value, msg: string)

  /** One entry of the `errors` list of the answer. */
  datatype FormattedError = FormattedError(field: string, message: string, value: Value)

  const GENERAL_FIELD: string := "general_validation_error"
  const UNKNOWN_FIELDS_LABEL: string := "Champs inconnus ou non autorisés: "
  const VALIDATION_MESSAGE: string := "Erreur de validation des données"

  /** The paths of the unknown fields, in order. */
  function Paths(fields: seq<UnknownField>): (r: seq<string>)
    ensures |r| == |fields| && forall i :: 0 <= i < |fields| ==> r[i] == fields[i].path
  {
    if |fields| == 0 then [] else [fields[0].path] + Paths(fields[1..])
  }

  /** The values of the unknown fields, in order. */
  function Values(fields: seq<UnknownField>): (r: seq<Value>)
    ensures |r| == |fields| && forall i :: 0 <= i < |fields| ==> r[i] == fields[i].value
  {
    if |fields| == 0 then [] else [fields[0].value] + Values(fields[1..])
  }

  /** `field || 'general_validation_error'`. */
  function FieldOrGeneral(field: string): (r: string)
    ensures r != ""
    ensures field != "" ==> r == field
  {
    if field != "" then field else GENERAL_FIELD
  }

  /** The mapping of one error. The field is never empty. */
  function Format(e: ValidationError): (r: FormattedError)
    ensures r.field != ""
    ensures e.FieldError? ==> r == FormattedError(FieldOrGeneral(e.path), e.msg, e.value)
    ensures e.UnknownFieldsError? ==>
      var joined := Join(Paths(e.fields), ", ");
      r == FormattedError(FieldOrGeneral(joined), UNKNOWN_FIELDS_LABEL + joined, List(Values(e.fields)))
    ensures e.AlternativeError? ==> r == FormattedError("alternative_group", e.msg, Undefined)
    ensures e.GroupedAlternativeError? ==> r == FormattedError("grouped_alternative_group", e.msg, Undefined)
    ensures e.OtherError? && Truthy(e.param) ==> r == FormattedError(e.param.value, e.msg, e.value)
    ensures e.OtherError? && !Truthy(e.param) ==> r == FormattedError(GENERAL_FIELD, e.msg, Undefined)
  {
    match e
    case FieldError(path, value, msg) => FormattedError(FieldOrGeneral(path), msg, value)
    case UnknownFieldsError(fields, _) =>
      var joined := Join(Paths(fields), ", ");
      FormattedError(FieldOrGeneral(joined), UNKNOWN_FIELDS_LABEL + joined, List(Values(fields)))
    case AlternativeError(msg) => FormattedError("alternative_group", msg, Undefined)
    case GroupedAlternativeError(msg) => FormattedError("grouped_alternative_group", msg, Undefined)
    case OtherError(param, value, msg) =>
      if Truthy(param) then FormattedError(param.value, msg, value) else FormattedError(GENERAL_FIELD, msg, Undefined)
  }

  /** Every piece of a join appears in it. */
  lemma {:induction false} JoinIncludes(parts: seq<string>, sep: string, i: nat)
    requires i < |parts|
    ensures Includes(Join(parts, sep), parts[i])
    decreases |parts|
  {
    var j := Join(parts, sep);
    if i == 0 {
      assert StartsWith(j[0..], parts[0]) by {
        if |parts| > 1 { assert j == parts[0] + (sep + Join(parts[1..], sep)); }
      }
    } else {
      var tail := Join(parts[1..], sep);
      JoinIncludes(parts[1..], sep, i - 1);
      var k :| 0 <= k <= |tail| && StartsWith(tail[k..], parts[1..][i - 1]);
      var offset := |parts[0] + sep|;
      assert j == (parts[0] + sep) + tail;
      assert j[offset + k..] == tail[k..];
    }
  }

  /** The message of an unknown_fields error names every offending field. */
  lemma UnknownFieldsNamed(fields: seq<UnknownField>, msg: string, i: nat)
    requires i < |fields|
    ensures Includes(Format(UnknownFieldsError(fields, msg)).message, fields[i].path)
  {
    var joined := Join(Paths(fields), ", ");
    JoinIncludes(Paths(fields), ", ", i);
    var k :| 0 <= k <= |joined| && StartsWith(joined[k..], fields[i].path);
    var m := UNKNOWN_FIELDS_LABEL + joined;
    assert m[|UNKNOWN_FIELDS_LABEL| + k..] == joined[k..];
  }

  /** What the middleware does: call `next`, or answer 400 with the formatted errors. */
  datatype Verdict = Next | Reject(status: nat, message: string, errors: seq<FormattedError>)

  /** `validateRequest`. */
  function ValidateRequest(errors: seq<ValidationError>): (r: Verdict)
    ensures r.Next? <==> |errors| == 0
    ensures r.Reject? ==> r.status == 400 && r.message == VALIDATION_MESSAGE
    ensures r.Reject? ==> |r.errors| == |errors| && forall i :: 0 <= i < |errors| ==> r.errors[i] == Format(errors[i])
    ensures r.Reject? ==> forall i :: 0 <= i < |r.errors| ==> r.errors[i].field != ""
  {
    if |errors| == 0 then Next
    else Reject(400, VALIDATION_MESSAGE, FormatAll(errors))
  }

  /** The errors formatted one by one, in order. */
  function FormatAll(errors: seq<ValidationError>): (r: seq<FormattedError>)
    ensures |r| == |errors| && forall i :: 0 <= i < |errors| ==> r[i] == Format(errors[i])
  {
    if |errors| == 0 then [] else [Format(errors[0])] + FormatAll(errors[1..])
  }

  /** Formatting distributes over concatenation: the answer for two batches of errors is the two answers one after the other. */
  lemma FormatAllAppend(a: seq<ValidationError>, b: seq<ValidationError>)
    ensures FormatAll(a + b) == FormatAll(a) + FormatAll(b)
  {
    assert forall i :: 0 <= i < |a + b| ==> FormatAll(a + b)[i] == (FormatAll(a) + FormatAll(b))[i];
  }
}

=== FILE: web_api.dfy ===
/** The browser's HTTP client (apps/web/src/lib/api.ts): the request interceptor
    that adds the bearer token and the tenant header, the response interceptor
    that normalises failures (and logs the user out on a 401), and the helpers
    that unwrap the `data` member of the server's JSON envelope. */
module WebApi {

  import opened Common
  import opened Strings

  /** A JSON value as the browser receives it. */
  datatype Json = JNull | JBool(b: bool) | JNum(n: int) | JStr(s: string) | JArr(items: seq<Json>) | JObj(fields: map<string, Json>)

  /** JavaScript truthiness of a JSON value. */
  predicate JsTruthy(j: Json) {
    match j
    case JNull => false
    case JBool(b) => b
    case JNum(n) => n != 0
    case JStr(s) => s != ""
    case JArr(_) => true
    case JObj(_) => true
  }

  /** `o?.name`: the member of an object, `None` standing for `undefined`. */
  function Field(o: Option<Json>, name: string): (r: Option<Json>)
    ensures r.Some? <==> o.Some? && o.value.JObj? && name in o.value.fields
    ensures r.Some? ==> r.value == o.value.fields[name]
  {
    if o.Some? && o.value.JObj? && name in o.value.fields then Some(o.value.fields[name]) else None
  }

  /** `String(value)`: JavaScript's conversion of a JSON value to text. */
  function JsString(j: Json): (r: string)
    ensures j.JStr? ==> r == j.s
    ensures j.JNum? ==> ParseInt(r) == Some(j.n)
    ensures j.JObj? ==> r == "[object Object]"
    decreases j, 1
  {
    match j
    case JNull => "null"
    case JBool(b) => if b then "true" else "false"
    case JNum(n) => ParseIntToString(n); IntToString(n)
    case JStr(s) => s
    case JArr(items) => Join(ElementTexts(j, 0), ",")
    case JObj(_) => "[object Object]"
  }

  /** The elements of an array from index `i` on, as `join` renders them: `null` becomes the empty text. */
  function ElementTexts(whole: Json, i: nat): (r: seq<string>)
    requires whole.JArr? && i <= |whole.items|
    ensures |r| == |whole.items| - i
    decreases whole, 0, |whole.items| - i
  {
    if i == |whole.items| then []
    else
      var x := whole.items[i];
      [if x.JNull? then "" else JsString(x)] + ElementTexts(whole, i + 1)
  }

  /** Truthiness of a possibly `undefined` value. */
  predicate Present(o: Option<Json>) {
    o.Some? && JsTruthy(o.value)
  }

  /** `localStorage`. */
  type Storage = map<string, string>

  const AUTH_TOKEN_KEY: string := "auth_token"
  const USER_KEY: string := "user"

  /** `localStorage.getItem(key)`. */
  function GetItem(storage: Storage, key: string): (r: Option<string>)
    ensures r.Some? <==> key in storage
    ensures r.Some? ==> r.value == storage[key]
  {
    if key in storage then Some(storage[key]) else None
  }

  /** What the client sees of `window`: its storage and its location. */
  datatype Browser = Browser(storage: Storage, hostname: string, pathname: string)

  const AUTHORIZATION: string := "Authorization"
  const TENANT_HEADER: string := "X-Tenant-ID"
  const BEARER_SCHEME: string := "Bearer "

  /** First labels the client never takes for a tenant. */
  const RESERVED_LABELS: seq<string> := ["www", "app", "api", "admin"]

  /** The client's tenant rule: the first label of a hostname that contains a dot,
      unless that label is one of "www", "app", "api", "admin". */
  function ClientSubdomain(hostname: string): (r: Option<string>)
    ensures r.Some? <==> '.' in hostname && FirstField(hostname, '.') !in RESERVED_LABELS
    ensures r.Some? ==> r.value == FirstField(hostname, '.')
  {
    IncludesChar(hostname, '.');
    var first := Split(hostname, '.')[0];
    if Includes(hostname, ".") && first !in RESERVED_LABELS then Some(first) else None
  }

  /** The request interceptor: headers are kept, a stored token adds
      "Authorization: Bearer <token>", and a tenant hostname adds "X-Tenant-ID".
      Outside a browser (`window` is `None`) nothing is added. */
  function RequestHeaders(headers: map<string, string>, window: Option<Browser>): (r: map<string, string>)
    ensures forall k :: k != AUTHORIZATION && k != TENANT_HEADER ==> (k in r <==> k in headers)
    ensures forall k :: k in headers && k != AUTHORIZATION && k != TENANT_HEADER ==> r[k] == headers[k]
    ensures window.Some? && Truthy(GetItem(window.value.storage, AUTH_TOKEN_KEY)) ==>
      AUTHORIZATION in r && r[AUTHORIZATION] == BEARER_SCHEME + window.value.storage[AUTH_TOKEN_KEY]
    ensures !(window.Some? && Truthy(GetItem(window.value.storage, AUTH_TOKEN_KEY))) ==>
      (AUTHORIZATION in r <==> AUTHORIZATION in headers) && (AUTHORIZATION in r ==> r[AUTHORIZATION] == headers[AUTHORIZATION])
    ensures window.Some? && ClientSubdomain(window.value.hostname).Some? ==>
      TENANT_HEADER in r && r[TENANT_HEADER] == ClientSubdomain(window.value.hostname).value
    ensures !(window.Some? && ClientSubdomain(window.value.hostname).Some?) ==>
      (TENANT_HEADER in r <==> TENANT_HEADER in headers) && (TENANT_HEADER in r ==> r[TENANT_HEADER] == headers[TENANT_HEADER])
  {
    var token := if window.Some? then GetItem(window.value.storage, AUTH_TOKEN_KEY) else None;
    var withToken := if Truthy(token) then headers[AUTHORIZATION := BEARER_SCHEME + token.value] else headers;
    var tenant := if window.Some? then ClientSubdomain(window.value.hostname) else None;
    if tenant.Some? then withToken[TENANT_HEADER := tenant.value] else withToken
  }

  /** The answer of a failed request, when the server answered at all. */
  datatype HttpFailure = HttpFailure(status: int, body: Option<Json>)

  /** The normalised error the client code receives. */
  datatype ApiError = ApiError(status: int, message: Json, errors: Option<Json>)

  const NETWORK_MESSAGE: string := "Erreur de connexion au serveur. Veuillez vérifier votre connexion internet."
  const DEFAULT_ERROR_MESSAGE: string := "Une erreur est survenue"
  const LOGIN_PATH: string := "/auth/login"

  /** A rejected request: the error, the browser after the interceptor, and where it navigates, if anywhere. */
  datatype Rejection = Rejection(error: ApiError, window: Option<Browser>, redirect: Option<string>)

  /** The response interceptor's failure path. */
  function ResponseError(response: Option<HttpFailure>, window: Option<Browser>): (r: Rejection)
    ensures response.None? ==> r == Rejection(ApiError(0, JStr(NETWORK_MESSAGE), None), window, None)
    ensures response.Some? ==> r.error.status == response.value.status
    ensures response.Some? ==>
      var m := Field(response.value.body, "message");
      r.error.message == (if Present(m) then m.value else JStr(DEFAULT_ERROR_MESSAGE))
    ensures response.Some? ==> r.error.errors == Field(response.value.body, "errors")
    ensures r.window.Some? <==> window.Some?
    ensures r.window.Some? ==> r.window.value.hostname == window.value.hostname && r.window.value.pathname == window.value.pathname
    ensures response.Some? && response.value.status == 401 && window.Some? ==>
      r.window.value.storage == window.value.storage - {AUTH_TOKEN_KEY, USER_KEY}
    ensures !(response.Some? && response.value.status == 401) ==> r.window == window
    ensures r.redirect.Some? <==>
      response.Some? && response.value.status == 401 && window.Some? && !Includes(window.value.pathname, LOGIN_PATH)
    ensures r.redirect.Some? ==> r.redirect.value == LOGIN_PATH
  {
    if response.None? then Rejection(ApiError(0, JStr(NETWORK_MESSAGE), None), window, None)
    else
      var failure := response.value;
      var after :=
        if failure.status == 401 && window.Some? then
          Some(window.value.(storage := window.value.storage - {AUTH_TOKEN_KEY, USER_KEY}))
        else window;
      var redirect :=
        if failure.status == 401 && window.Some? && !Includes(window.value.pathname, LOGIN_PATH) then Some(LOGIN_PATH)
        else None;
      var m := Field(failure.body, "message");
      Rejection(ApiError(failure.status, if Present(m) then m.value else JStr(DEFAULT_ERROR_MESSAGE), Field(failure.body, "errors")),
                after, redirect)
  }

  /** Every normalised error carries a truthy message. */
  lemma ErrorMessageNeverEmpty(response: Option<HttpFailure>, window: Option<Browser>)
    ensures JsTruthy(ResponseError(response, window).error.message)
  {
  }

  /** On the login page a 401 clears the session without navigating; anywhere else it also sends the user there. */
  lemma UnauthorizedLogsOut(body: Option<Json>, b: Browser)
    ensures var r := ResponseError(Some(HttpFailure(401, body)), Some(b));
            && AUTH_TOKEN_KEY !in r.window.value.storage
            && USER_KEY !in r.window.value.storage
            && (r.redirect.None? <==> Includes(b.pathname, LOGIN_PATH))
  {
  }

  /** `api.get/post/put/delete/patch`: the `data` member of the response body. */
  function Unwrap(body: Json): (r: Option<Json>)
    ensures r.Some? <==> body.JObj? && "data" in body.fields
    ensures r.Some? ==> r.value == body.fields["data"]
  {
    Field(Some(body), "data")
  }

  /** The envelope the server answers with on success. */
  function Envelope(message: string, data: Json): Json {
    JObj(map["status" := JStr("success"), "message" := JStr(message), "data" := data])
  }

  /** Unwrapping a success envelope returns exactly its payload. */
  lemma UnwrapEnvelope(message: string, data: Json)
    ensures Unwrap(Envelope(message, data)) == Some(data)
  {
  }
}

=== FILE: web_auth.dfy ===
/** The browser's authentication hook (apps/web/src/hooks/useAuth.ts): the
    session state, the role and permission queries, and the state transitions
    of login, logout and the start-up check. Calls to the server are given as
    their outcome; decoding a user object is a parameter. */
module WebAuth {

  import opened Common
  import opened Strings
  import opened WebApi

  /** The client's `User`; roles and permissions may be absent from the object. */
  datatype ClientUser = ClientUser(
    id: string,
    email: string,
    name: string,
    roles: Option<seq<string>>,
    permissions: Option<seq<string>>,
    tenantId: Option<string>)

  /** The hook's state plus the browser storage it writes and the route it pushes. */
  datatype AuthState = AuthState(
    user: Option<ClientUser>,
    isLoading: bool,
    error: Option<string>,
    storage: Storage,
    route: Option<string>)

  /** The state on mount: no user, loading, no error. */
  function Initial(storage: Storage): AuthState {
    AuthState(None, true, None, storage, None)
  }

  /** `isAuthenticated: !!user`. */
  predicate IsAuthenticated(s: AuthState) {
    s.user.Some?
  }

  /** The argument of `hasRole` / `hasPermission`: one name or a list of names. */
  datatype Query = One(name: string) | AnyOf(names: seq<string>)

  /** The shared shape of `hasRole` and `hasPermission`: false without a non-empty
      list; a string is a membership test, a list asks for any one of its names. */
  function Holds(granted: Option<seq<string>>, q: Query): (r: bool)
    ensures granted.None? || |granted.value| == 0 ==> !r
    ensures r ==> exists n :: n in granted.value && (q.One? ==> n == q.name) && (q.AnyOf? ==> n in q.names)
    ensures granted.Some? && q.One? && q.name in granted.value ==> r
    ensures granted.Some? && q.AnyOf? ==> (r <==> exists i :: 0 <= i < |q.names| && q.names[i] in granted.value)
  {
    if granted.None? || |granted.value| == 0 then false
    else match q
      case One(n) => n in granted.value
      case AnyOf(names) => Any(names, (n: string) => n in granted.value)
  }

  /** `hasRole`. */
  function HasRole(s: AuthState, q: Query): (r: bool)
    ensures r ==> s.user.Some? && s.user.value.roles.Some?
    ensures s.user.Some? && s.user.value.roles.Some? && q.One? ==> (r <==> q.name in s.user.value.roles.value)
    ensures s.user.Some? && s.user.value.roles.Some? && q.AnyOf? ==>
      (r <==> exists i :: 0 <= i < |q.names| && q.names[i] in s.user.value.roles.value)
  {
    s.user.Some? && Holds(s.user.value.roles, q)
  }

  /** `hasPermission`. */
  function HasPermission(s: AuthState, q: Query): (r: bool)
    ensures r ==> s.user.Some? && s.user.value.permissions.Some?
    ensures s.user.Some? && s.user.value.permissions.Some? && q.One? ==> (r <==> q.name in s.user.value.permissions.value)
    ensures s.user.Some? && s.user.value.permissions.Some? && q.AnyOf? ==>
      (r <==> exists i :: 0 <= i < |q.names| && q.names[i] in s.user.value.permissions.value)
  {
    s.user.Some? && Holds(s.user.value.permissions, q)
  }

  /** Asking for one name is asking for the list holding just that name. */
  lemma OneIsSingletonList(granted: Option<seq<string>>, n: string)
    ensures Holds(granted, One(n)) == Holds(granted, AnyOf([n]))
  {
    if granted.Some? {
      assert [n][0] == n;
    }
  }

  /** An empty list of names is never satisfied. */
  lemma EmptyQueryNeverHolds(granted: Option<seq<string>>)
    ensures !Holds(granted, AnyOf([]))
  {
  }

  /** A list of names holds when either half does. */
  lemma AnyOfSplits(granted: Option<seq<string>>, a: seq<string>, b: seq<string>)
    ensures Holds(granted, AnyOf(a + b)) == (Holds(granted, AnyOf(a)) || Holds(granted, AnyOf(b)))
  {
    if granted.Some? && Holds(granted, AnyOf(a + b)) {
      var i :| 0 <= i < |a + b| && (a + b)[i] in granted.value;
      if i >= |a| { assert b[i - |a|] == (a + b)[i]; }
    }
    if granted.Some? && Holds(granted, AnyOf(a)) {
      var i :| 0 <= i < |a| && a[i] in granted.value;
      assert (a + b)[i] == a[i];
    }
    if granted.Some? && Holds(granted, AnyOf(b)) {
      var i :| 0 <= i < |b| && b[i] in granted.value;
      assert (a + b)[|a| + i] == b[i];
    }
  }

  /** Granting more never withdraws an answer. */
  lemma HoldsMonotone(granted: seq<string>, more: seq<string>, q: Query)
    requires forall n :: n in granted ==> n in more
    requires Holds(Some(granted), q)
    ensures Holds(Some(more), q)
  {
    if q.AnyOf? {
      var i :| 0 <= i < |q.names| && q.names[i] in granted;
      assert q.names[i] in more;
    }
  }

  /** The outcome of a call to the server: the unwrapped `data`, or the rejection the
      response interceptor produced, with the browser as the interceptor left it. */
  datatype Call = Answered(data: Option<Json>) | Threw(rejection: Rejection)

  /** The stored items once a call has settled: a rejection may have cleared some of them. */
  function StorageAfter(s: AuthState, call: Call): Storage {
    if call.Threw? && call.rejection.window.Some? then call.rejection.window.value.storage else s.storage
  }

  /** Where the browser is headed once a call has settled: the interceptor's redirect, if any. */
  function RouteAfter(s: AuthState, call: Call): Option<string> {
    if call.Threw? && call.rejection.redirect.Some? then call.rejection.redirect else s.route
  }

  /** What V8 throws when `response.data.data` reads a member of a null body. */
  const NULL_BODY_MESSAGE: string := "Cannot read properties of null (reading 'data')"

  /** The call the hook sees when the server answered with `body`: the helpers hand
      back `body.data`, and a null body makes that read throw a TypeError, which
      bypasses the response interceptor. A TypeError has no status; 0 stands for it. */
  function Settle(body: Json): (c: Call)
    ensures c.Threw? <==> body.JNull?
    ensures c.Threw? ==> c.rejection == Rejection(ApiError(0, JStr(NULL_BODY_MESSAGE), None), None, None)
    ensures c.Answered? ==> c.data == Unwrap(body)
    ensures c.Answered? && body.JObj? && "data" in body.fields ==> c.data == Some(body.fields["data"])
  {
    if body.JNull? then Threw(Rejection(ApiError(0, JStr(NULL_BODY_MESSAGE), None), None, None))
    else Answered(Unwrap(body))
  }

  /** A login answered with a null body rejects with the TypeError's message and
      leaves the storage, the route and the user as they were. */
  lemma NullBodyFailsLogin(s: AuthState, decodeUser: Option<Json> -> Option<ClientUser>)
    ensures var r := Login(s, Settle(JNull), decodeUser);
            r.error == Some(NULL_BODY_MESSAGE) && r.storage == s.storage && r.route == s.route && r.user == s.user
  {
    assert JsTruthy(JStr(NULL_BODY_MESSAGE));
  }

  /** The call the hook sees when the server answered `response` (or nothing) and the
      interceptor ran in a browser holding the hook's storage, at `pathname`. */
  function Rejected(s: AuthState, response: Option<HttpFailure>, hostname: string, pathname: string): Call {
    Threw(ResponseError(response, Some(Browser(s.storage, hostname, pathname))))
  }

  /** Only a 401 touches the session from inside the interceptor: it removes the token
      and the stored user and, away from the login page, navigates there. Any other
      failure leaves the storage and the route alone. */
  lemma OnlyUnauthorizedTouchesSession(s: AuthState, response: Option<HttpFailure>, hostname: string, pathname: string)
    ensures var call := Rejected(s, response, hostname, pathname);
            && (response.Some? && response.value.status == 401 ==>
                  && StorageAfter(s, call) == s.storage - {AUTH_TOKEN_KEY, USER_KEY}
                  && RouteAfter(s, call) == (if Includes(pathname, LOGIN_PATH) then s.route else Some(LOGIN_PATH)))
            && (!(response.Some? && response.value.status == 401) ==>
                  StorageAfter(s, call) == s.storage && RouteAfter(s, call) == s.route)
  {
  }

  /** `err.message || fallback`. */
  function ErrorText(message: Json, fallback: string): string {
    if JsTruthy(message) then JsString(message) else fallback
  }

  const MISSING_TOKEN_MESSAGE: string := "Token d'authentification manquant dans la réponse"
  const LOGIN_FALLBACK_MESSAGE: string := "Identifiants incorrects. Veuillez réessayer."
  const HOME: string := "/"

  /** `login`, reading the token from the response member `tokenField`: a truthy
      token is stored, the user is taken from the response and the home page is
      pushed; otherwise the error is set, and a rejected call keeps whatever the
      interceptor did to the storage and the route. */
  function LoginReading(tokenField: string, s: AuthState, call: Call, decodeUser: Option<Json> -> Option<ClientUser>): (r: AuthState)
    ensures !r.isLoading
    ensures r.error.None? <==> call.Answered? && Present(Field(call.data, tokenField))
    ensures r.error.None? ==>
      && r.storage == s.storage[AUTH_TOKEN_KEY := JsString(Field(call.data, tokenField).value)]
      && r.user == decodeUser(Field(call.data, "user"))
      && r.route == Some(HOME)
    ensures r.error.Some? ==>
      r == s.(isLoading := false, error := r.error, storage := StorageAfter(s, call), route := RouteAfter(s, call))
    ensures call.Answered? && r.error.Some? ==> r.error == Some(MISSING_TOKEN_MESSAGE)
    ensures call.Threw? ==> r.error == Some(ErrorText(call.rejection.error.message, LOGIN_FALLBACK_MESSAGE))
  {
    match call
    case Threw(rejection) =>
      s.(isLoading := false, error := Some(ErrorText(rejection.error.message, LOGIN_FALLBACK_MESSAGE)),
         storage := StorageAfter(s, call), route := RouteAfter(s, call))
    case Answered(data) =>
      var token := Field(data, tokenField);
      if Present(token) then
        s.(isLoading := false, error := None, storage := s.storage[AUTH_TOKEN_KEY := JsString(token.value)],
           user := decodeUser(Field(data, "user")), route := Some(HOME))
      else s.(isLoading := false, error := Some(MISSING_TOKEN_MESSAGE))
  }

  /** `login` as written: it reads `response.token`. */
  function LoginAsWritten(s: AuthState, call: Call, decodeUser: Option<Json> -> Option<ClientUser>): (r: AuthState)
    ensures r.error.None? <==> call.Answered? && Present(Field(call.data, "token"))
    ensures r.error.None? ==> r.storage == s.storage[AUTH_TOKEN_KEY := JsString(Field(call.data, "token").value)]
  {
    LoginReading("token", s, call, decodeUser)
  }

  /** `login` reading the member the server's login answer actually carries, `accessToken`. */
  function Login(s: AuthState, call: Call, decodeUser: Option<Json> -> Option<ClientUser>): (r: AuthState)
    ensures r.error.None? <==> call.Answered? && Present(Field(call.data, "accessToken"))
    ensures r.error.None? ==>
      && r.storage == s.storage[AUTH_TOKEN_KEY := JsString(Field(call.data, "accessToken").value)]
      && r.user == decodeUser(Field(call.data, "user")) && r.route == Some(HOME)
  {
    LoginReading("accessToken", s, call, decodeUser)
  }

  /** A failed login keeps the user and the signed-in status; the storage changes only
      when the server answered 401, whose interceptor removes the token and the stored user. */
  lemma FailedLoginKeepsSession(s: AuthState, response: Option<HttpFailure>, hostname: string, pathname: string,
                                decodeUser: Option<Json> -> Option<ClientUser>)
    ensures var r := Login(s, Rejected(s, response, hostname, pathname), decodeUser);
            && r.error.Some? && r.user == s.user && IsAuthenticated(r) == IsAuthenticated(s)
            && (!(response.Some? && response.value.status == 401) ==> r.storage == s.storage && r.route == s.route)
            && (response.Some? && response.value.status == 401 ==> r.storage == s.storage - {AUTH_TOKEN_KEY, USER_KEY})
  {
    OnlyUnauthorizedTouchesSession(s, response, hostname, pathname);
  }

  const LOGIN_ROUTE: string := "/auth/login"

  /** `logout`: whatever the server answered, the token and the user are gone and
      the login page is pushed; the other stored items are those the call left. */
  function Logout(s: AuthState, call: Call): (r: AuthState)
    ensures AUTH_TOKEN_KEY !in r.storage && !IsAuthenticated(r) && !r.isLoading
    ensures forall k :: k in StorageAfter(s, call) && k != AUTH_TOKEN_KEY ==> k in r.storage && r.storage[k] == StorageAfter(s, call)[k]
    ensures forall k :: k in r.storage ==> k in StorageAfter(s, call)
    ensures call.Answered? ==> r.storage == s.storage - {AUTH_TOKEN_KEY}
    ensures r.error == s.error && r.route == Some(LOGIN_ROUTE)
  {
    s.(isLoading := false, user := None, storage := StorageAfter(s, call) - {AUTH_TOKEN_KEY}, route := Some(LOGIN_ROUTE))
  }

  /** A logout the server refuses with 401 (a stale token) also forgets the stored user;
      any other outcome removes the token alone. */
  lemma LogoutRejected(s: AuthState, response: Option<HttpFailure>, hostname: string, pathname: string)
    ensures var r := Logout(s, Rejected(s, response, hostname, pathname));
            && (response.Some? && response.value.status == 401 ==> r.storage == s.storage - {AUTH_TOKEN_KEY, USER_KEY})
            && (!(response.Some? && response.value.status == 401) ==> r.storage == s.storage - {AUTH_TOKEN_KEY})
            && r.route == Some(LOGIN_ROUTE)
  {
    OnlyUnauthorizedTouchesSession(s, response, hostname, pathname);
  }

  /** Logging out after any login ends signed out; when both calls were answered, only
      the token has been removed from the original storage. */
  lemma LogoutAfterLogin(s: AuthState, call: Call, logoutCall: Call, decodeUser: Option<Json> -> Option<ClientUser>)
    ensures !IsAuthenticated(Logout(Login(s, call, decodeUser), logoutCall))
    ensures call.Answered? && logoutCall.Answered? ==>
      Logout(Login(s, call, decodeUser), logoutCall).storage == s.storage - {AUTH_TOKEN_KEY}
  {
  }

  /** `checkAuth`, adopting `adopt` of the fetched data as the user: without a stored
      token nothing is asked; a fetched user is adopted; a failing fetch drops the token
      and the user, after whatever the interceptor did to the storage and the route. */
  function CheckAuthWith(adopt: Option<Json> -> Option<Json>, s: AuthState, fetch: Call,
                         decodeUser: Option<Json> -> Option<ClientUser>): (r: AuthState)
    ensures !r.isLoading && r.error == s.error
    ensures !Truthy(GetItem(s.storage, AUTH_TOKEN_KEY)) ==> r == s.(isLoading := false)
    ensures Truthy(GetItem(s.storage, AUTH_TOKEN_KEY)) && fetch.Answered? ==>
      r == s.(isLoading := false, user := decodeUser(adopt(fetch.data)))
    ensures Truthy(GetItem(s.storage, AUTH_TOKEN_KEY)) && fetch.Threw? ==>
      r == s.(isLoading := false, user := None, storage := StorageAfter(s, fetch) - {AUTH_TOKEN_KEY}, route := RouteAfter(s, fetch))
  {
    if !Truthy(GetItem(s.storage, AUTH_TOKEN_KEY)) then s.(isLoading := false)
    else match fetch
      case Answered(data) => s.(isLoading := false, user := decodeUser(adopt(data)))
      case Threw(_) => s.(isLoading := false, user := None, storage := StorageAfter(s, fetch) - {AUTH_TOKEN_KEY}, route := RouteAfter(s, fetch))
  }

  /** `checkAuth` as written: `setUser(userData)` adopts the fetched data itself. */
  function CheckAuthAsWritten(s: AuthState, fetch: Call, decodeUser: Option<Json> -> Option<ClientUser>): (r: AuthState)
    ensures Truthy(GetItem(s.storage, AUTH_TOKEN_KEY)) && fetch.Answered? ==> r.user == decodeUser(fetch.data)
    ensures fetch.Threw? || !Truthy(GetItem(s.storage, AUTH_TOKEN_KEY)) ==> r == CheckAuth(s, fetch, decodeUser)
  {
    CheckAuthWith(d => d, s, fetch, decodeUser)
  }

  /** `checkAuth` adopting the `user` member of the fetched data, as `login` does. */
  function CheckAuth(s: AuthState, fetch: Call, decodeUser: Option<Json> -> Option<ClientUser>): (r: AuthState)
    ensures !r.isLoading && r.error == s.error
    ensures !Truthy(GetItem(s.storage, AUTH_TOKEN_KEY)) ==> r == s.(isLoading := false)
    ensures Truthy(GetItem(s.storage, AUTH_TOKEN_KEY)) && fetch.Answered? ==>
      r == s.(isLoading := false, user := decodeUser(Field(fetch.data, "user")))
    ensures Truthy(GetItem(s.storage, AUTH_TOKEN_KEY)) && fetch.Threw? ==>
      r == s.(isLoading := false, user := None, storage := StorageAfter(s, fetch) - {AUTH_TOKEN_KEY}, route := RouteAfter(s, fetch))
  {
    CheckAuthWith(d => Field(d, "user"), s, fetch, decodeUser)
  }

  /** A stale token at start-up: `/auth/me` answers 401, so the session ends with neither
      the token nor the stored user, and away from the login page the browser goes there. */
  lemma StaleTokenAtStartUp(s: AuthState, body: Option<Json>, hostname: string, pathname: string,
                            decodeUser: Option<Json> -> Option<ClientUser>)
    requires Truthy(GetItem(s.storage, AUTH_TOKEN_KEY))
    ensures var r := CheckAuth(s, Rejected(s, Some(HttpFailure(401, body)), hostname, pathname), decodeUser);
            && !IsAuthenticated(r)
            && r.storage == s.storage - {AUTH_TOKEN_KEY, USER_KEY}
            && r.route == (if Includes(pathname, LOGIN_PATH) then s.route else Some(LOGIN_PATH))
  {
    OnlyUnauthorizedTouchesSession(s, Some(HttpFailure(401, body)), hostname, pathname);
    assert s.storage - {AUTH_TOKEN_KEY, USER_KEY} - {AUTH_TOKEN_KEY} == s.storage - {AUTH_TOKEN_KEY, USER_KEY};
  }

  /** After the start-up check, a signed-in session always has a stored token behind it. */
  lemma CheckAuthNeedsToken(storage: Storage, fetch: Call, decodeUser: Option<Json> -> Option<ClientUser>)
    ensures IsAuthenticated(CheckAuth(Initial(storage), fetch, decodeUser)) ==>
      Truthy(GetItem(CheckAuth(Initial(storage), fetch, decodeUser).storage, AUTH_TOKEN_KEY))
  {
  }
}

=== FILE: web_providers.dfy ===
/** The browser's context providers (apps/web/src/app/providers.tsx): the tenant
    provider that reads the tenant off the hostname and answers which modules are
    available, and the lighter authentication provider fed from stored user data. */
module WebProviders {

  import opened Common
  import opened Strings
  import opened WebApi
  import WebAuth

  /** The tenant context. */
  datatype TenantState = TenantState(currentTenant: string, availableModules: seq<string>)

  /** The tenant context before detection. */
  const INITIAL_TENANT: TenantState := TenantState("default", ["stageplanner"])

  /** The modules announced once a tenant hostname is seen. */
  const TENANT_MODULES: seq<string> := ["stageplanner", "barplanner"]

  /** `detectTenant`: a tenant hostname (same rule as the API client's tenant header)
      sets the tenant and announces both modules; any other hostname, or no window, changes nothing. */
  function DetectTenant(s: TenantState, hostname: Option<string>): (r: TenantState)
    ensures hostname.Some? && '.' in hostname.value && FirstField(hostname.value, '.') !in RESERVED_LABELS ==>
      r == TenantState(FirstField(hostname.value, '.'), TENANT_MODULES)
    ensures hostname.None? || '.' !in hostname.value || FirstField(hostname.value, '.') in RESERVED_LABELS ==> r == s
  {
    if hostname.None? then s
    else match ClientSubdomain(hostname.value)
      case None => s
      case Some(tenant) => TenantState(tenant, TENANT_MODULES)
  }

  /** The tenant the provider shows is the one the API client sends in its tenant header. */
  lemma DetectedTenantIsSent(b: Browser, headers: map<string, string>)
    requires DetectTenant(INITIAL_TENANT, Some(b.hostname)) != INITIAL_TENANT
    ensures var sent := RequestHeaders(headers, Some(b));
            TENANT_HEADER in sent && sent[TENANT_HEADER] == DetectTenant(INITIAL_TENANT, Some(b.hostname)).currentTenant
  {
  }

  /** `isModuleAvailable`: the lower-cased name is listed, exactly. */
  function IsModuleAvailable(s: TenantState, moduleName: string): (r: bool)
    ensures r <==> exists i :: 0 <= i < |s.availableModules| && s.availableModules[i] == Lower(moduleName)
  {
    Lower(moduleName) in s.availableModules
  }

  /** The test ignores the case of the name asked for. */
  lemma ModuleNameCaseIgnored(s: TenantState, moduleName: string)
    ensures IsModuleAvailable(s, moduleName) == IsModuleAvailable(s, Lower(moduleName))
  {
    LowerIdempotent(moduleName);
  }

  /** Before detection a name is available exactly when it lower-cases to "stageplanner". */
  lemma InitialModules(moduleName: string)
    ensures IsModuleAvailable(INITIAL_TENANT, moduleName) <==> Lower(moduleName) == "stageplanner"
  {
  }

  /** On a tenant hostname a name is available exactly when it lower-cases to one of the two planners. */
  lemma TenantHostModules(hostname: string, moduleName: string)
    requires ClientSubdomain(hostname).Some?
    ensures IsModuleAvailable(DetectTenant(INITIAL_TENANT, Some(hostname)), moduleName)
        <==> Lower(moduleName) == "stageplanner" || Lower(moduleName) == "barplanner"
  {
  }

  /** The authentication context of this provider. */
  datatype ProviderAuth = ProviderAuth(user: Option<WebAuth.ClientUser>, isLoading: bool)

  /** `loadUserData`: the stored "user" item, parsed; nothing stored, or a parse failure, leaves no user. */
  function LoadUserData(storage: Storage, parse: string -> Option<WebAuth.ClientUser>): (r: ProviderAuth)
    ensures !r.isLoading
    ensures !Truthy(GetItem(storage, USER_KEY)) ==> r.user.None?
    ensures Truthy(GetItem(storage, USER_KEY)) ==> r.user == parse(storage[USER_KEY])
  {
    var item := GetItem(storage, USER_KEY);
    ProviderAuth(if Truthy(item) then parse(item.value) else None, false)
  }

  /** `isAuthenticated: !!user`. */
  predicate IsAuthenticated(a: ProviderAuth) {
    a.user.Some?
  }

  /** `userRoles: user?.roles || []`. */
  function UserRoles(a: ProviderAuth): (r: seq<string>)
    ensures a.user.Some? && a.user.value.roles.Some? ==> r == a.user.value.roles.value
    ensures a.user.None? || a.user.value.roles.None? ==> r == []
  {
    if a.user.Some? && a.user.value.roles.Some? then a.user.value.roles.value else []
  }

  /** This provider's `hasPermission`: exact membership, false without a user or a permission list. */
  function HasPermission(a: ProviderAuth, permission: string): (r: bool)
    ensures r ==> IsAuthenticated(a)
    ensures r <==> a.user.Some? && a.user.value.permissions.Some? && permission in a.user.value.permissions.value
  {
    a.user.Some? && a.user.value.permissions.Some? && permission in a.user.value.permissions.value
  }

  /** For one name this provider and the authentication hook agree, although only the hook
      refuses an empty list up front. */
  lemma ProviderAgreesWithHook(a: ProviderAuth, s: WebAuth.AuthState, permission: string)
    requires s.user == a.user
    ensures HasPermission(a, permission) == WebAuth.HasPermission(s, WebAuth.One(permission))
  {
  }

  /** A 401 answer drops the stored user, so the next load finds nobody. */
  lemma UnauthorizedForgetsStoredUser(body: Option<Json>, b: Browser, parse: string -> Option<WebAuth.ClientUser>)
    ensures !IsAuthenticated(LoadUserData(ResponseError(Some(HttpFailure(401, body)), Some(b)).window.value.storage, parse))
  {
  }
}
